=== FILE: README.md ===
# Advent of Code 2022, days 1–7, 9, 10 and 13, in Dafny

This project models ten puzzle solutions from Advent of Code 2022 and proves
properties of them. Each day reads a puzzle input as text and computes two
answers:

- **Calorie Counting (day 1).** Elves carry food items, one calorie count per
  line, and the elves are separated by blank lines. The answers are the largest
  elf total and the sum of the three largest totals.
- **Rock Paper Scissors (day 2).** A strategy guide lists rounds. Each round
  scores its shape (1, 2 or 3) plus its outcome (0, 3 or 6). Part one reads the
  second column as a shape. Part two reads it as the outcome to bring about.
- **Rucksack Reorganization (day 3).** Items are letters with priorities 1–52.
  Part one sums the priority of the item shared by the two halves of each
  rucksack. Part two sums the priority of the badge shared by each group of
  three rucksacks.
- **Camp Cleanup (day 4).** Each line holds two section ranges. The answers
  count the pairs in which one range contains the other, and the pairs whose
  ranges overlap.
- **Supply Stacks (day 5).** A drawing of crate stacks is followed by move
  procedures. The CrateMover 9000 moves crates one at a time; the CrateMover
  9001 moves a block at once. The answers are the tops of the stacks.
- **Tuning Trouble (day 6).** The start-of-packet marker is the first window of
  4 distinct letters; the start-of-message marker is the first window of 14.
- **No Space Left On Device (day 7).** A terminal session of `cd`/`ls`
  commands yields directory sizes. Part one sums the sizes below 100000.
  Part two picks the smallest directory whose deletion frees enough space for
  the update.
- **Rope Bridge (day 9).** The head of a rope moves step by step, and each
  knot follows the one before it. The answers count the positions visited by
  the tail of a 2-knot rope and of a 10-knot rope.
- **Cathode-Ray Tube (day 10).** A CPU runs `noop`/`addx` instructions. Part
  one sums the signal strengths at cycles 20, 60, 100, and so on. Part two
  draws a 40×6 screen from the sprite position.
- **Distress Signal (day 13).** Packets are nested lists of small numbers with
  a custom order. Part one sums the indices of the pairs already in order. Part
  two sorts every packet together with two divider packets, and multiplies the
  dividers' positions.

One module per day; the helpers shared by the parsers (Rust's `str::lines`,
`split_once`, `split`, and integer parsing) are in `Text`. Day 13 is split in
two modules: `Packets` (the packet value, its order, parsing and printing)
and `DistressSignal` (the two parts).

What each model is shaped like follows the source:

- Pure iterator pipelines are functions over sequences.
- Code that loops while mutating state is a `method`, proved against a
  specification function. This covers day 5's `transpose` and move loops,
  day 7's `disk_usage`, day 9's `walk` and `follow`, day 10's `eval`, screen
  and `draw`, and the sorts of days 7 and 13.
- The sorts are in-place insertion sorts on an `array`.
- Parse failures that the source turns into `unwrap` panics are preconditions
  of the parts. Parsers themselves return an `Option`.

## Model

| member | source | states |
|---|---|---|
| `Text.Lines` | day01/src/main.rs:8 | Rust's `str::lines`: no produced line contains a line break |
| `Text.LinesOfTerminated` | day01/src/main.rs:8 | lines each followed by a line break read back as exactly those lines |
| `Text.LinesOfJoined` | day01/src/main.rs:8 | non-empty-ending lines joined by line breaks, with or without a final break, read back as those lines |
| `Text.JoinedOfLines` | day01/src/main.rs:8 | for a text without carriage returns, joining its lines and restoring a final break gives the text back |
| `Text.SplitOnPair` | day01/src/main.rs:8 | `split("\n\n")`: at least one part, and no part contains the separator |
| `Text.JoinOfSplit` | day01/src/main.rs:8 | joining the parts with the separator gives the text back |
| `Text.SplitOfJoin` | day01/src/main.rs:8 | separator-free parts, none but the last ending in the separator's first character, joined and split again come back unchanged |
| `Text.SplitOnce` | day10/src/main.rs:24 | `split_once(' ')` yields `None` exactly when the line has no space; otherwise the line is the first part, a space and the second part, and the first part has no space |
| `Text.SplitOnceOf` | day02/src/main.rs:104-113 | a text made of a space-free word, a space and a rest is split back into exactly that word and rest |
| `Text.ParseUnsigned` | day01/src/main.rs:3-5 | `u32::from_str`: succeeds exactly when the text is an optional `+` and one or more digits whose value is below the width's bound, and the value is below that bound |
| `Text.ParseUnsignedOfNatToString` | day01/src/main.rs:3-5 | printing any number below the bound in decimal and parsing it gives the number back |
| `Text.ParseSigned` | day10/src/main.rs:25 | `i32::from_str`: succeeds exactly when the text is a sign and digits whose signed value lies in the width's range |
| `Text.ParseSignedOfIntToString` | day10/src/main.rs:25 | every integer in range, printed with a `-` when negative, parses back to itself |
| `Text.DecimalValueOfNatToString` | day13/src/main.rs:82 | the digits printed for a number denote that number |
| `CalorieCounting.Totals` | day01/src/main.rs:7-9 | one total per blank-line-separated group of the input |
| `CalorieCounting.GroupOfPrinted` | day01/src/main.rs:8 | each elf's printed part holds no blank line and its lines parse back to the elf's items |
| `CalorieCounting.TotalsOfPrinted` | day01/src/main.rs:7-9 | printed inventories are valid input, and `parse_input` reads back each elf's item sum, in order |
| `CalorieCounting.Part1` | day01/src/main.rs:18-20 | part one bounds every total and is one of them |
| `CalorieCounting.Max` | day01/src/main.rs:18-20 | `part1`'s maximum bounds every total, is one of them, and is 0 (`unwrap_or(0)`) for no totals |
| `CalorieCounting.SortDescending` | day01/src/main.rs:13 | the totals sorted largest first: descending and a permutation of the input |
| `CalorieCounting.Insert` | day01/src/main.rs:13 | inserting into a descending sequence keeps it descending and adds exactly the one element |
| `CalorieCounting.DescendingUnique` | day01/src/main.rs:13 | two descending arrangements of the same multiset are equal, so `sorted_unstable_by`'s result is determined |
| `CalorieCounting.SortedFirstIsMax` | day01/src/main.rs:11-20 | the first of the sorted totals is the maximum `part1` returns |
| `CalorieCounting.TopThree` | day01/src/main.rs:11-16 | the sum of the (up to) three largest totals is at least the largest total, and with three totals or fewer it is the sum of all of them |
| `CalorieCounting.SumOfPermutation` | day01/src/main.rs:13-15 | sorting does not change the sum: two arrangements of one multiset have the same sum |
| `CalorieCounting.Part2` | day01/src/main.rs:11-20 | on every valid input, part two's answer is at least part one's |
| `CalorieCounting.TopThreeOfThreeOrMore` | day01/src/main.rs:11-16 | with three or more elves, `take(3).sum()` is the sum of the three largest totals |
| `CalorieCounting.SampleAnswers` | day01/src/main.rs:33-58 | the sample's five inventories, printed as the test's text, are valid input and give 24000 and 45000 |
| `RockPaperScissors.OutcomeScore` | day02/src/main.rs:23-31 | a win scores 6, a draw 3, a loss 0, and no other outcome has those scores |
| `RockPaperScissors.ShapeScore` | day02/src/main.rs:53-60 | rock 1, paper 2, scissors 3: one more than the shape's index |
| `RockPaperScissors.FromIndex` | day02/src/main.rs:80-89 | `From<i8>` on 0..2 inverts the shape's index |
| `RockPaperScissors.Cmp` | day02/src/main.rs:62-69 | the modular `cmp` is a win exactly when the shape defeats the other by the game's rules, a loss exactly when it is defeated, and a draw exactly on equal shapes |
| `RockPaperScissors.CmpAntisymmetric` | day02/src/main.rs:62-69 | a shape draws with itself, and swapping the players swaps win and loss |
| `RockPaperScissors.Beats` | day02/src/main.rs:71-73 | `beats` returns the shape this one defeats |
| `RockPaperScissors.BeatenBy` | day02/src/main.rs:75-77 | `beaten_by` returns the shape that defeats this one |
| `RockPaperScissors.BeatsInverse` | day02/src/main.rs:71-77 | `beats` and `beaten_by` are inverse to each other |
| `RockPaperScissors.Choose` | day02/src/main.rs:127-131 | the shape chosen for an outcome brings that outcome about against the opponent |
| `RockPaperScissors.ChooseUnique` | day02/src/main.rs:127-131 | it is the only shape that does |
| `RockPaperScissors.ParseOutcome` | day02/src/main.rs:33-44 | `X`, `Y`, `Z` are loss, draw, win, and every other text is an error |
| `RockPaperScissors.ParseShape` | day02/src/main.rs:91-102 | `A`/`X`, `B`/`Y`, `C`/`Z` are rock, paper, scissors, and every other text is an error |
| `RockPaperScissors.ParseLine` | day02/src/main.rs:104-113 | a one-letter, space, one-letter line parses into the pair of its two letters' parses, or fails when either fails |
| `RockPaperScissors.RoundScore` | day02/src/main.rs:119 | a round is worth between 1 and 9 points |
| `RockPaperScissors.ScoreBounds` | day02/src/main.rs:115-120 | a sequence of rounds scores between one and nine points per round |
| `RockPaperScissors.Part1` | day02/src/main.rs:115-120 | part one's total lies between one and nine points per line |
| `RockPaperScissors.Planned` | day02/src/main.rs:122-134 | the rounds played for a plan keep the opponent's shapes and achieve every planned outcome |
| `RockPaperScissors.PlannedScore` | day02/src/main.rs:122-134 | following the plan scores, round by round, the chosen shape's score plus the planned outcome's score |
| `RockPaperScissors.Part2` | day02/src/main.rs:122-134 | part two's total lies between one and nine points per line |
| `RockPaperScissors.SampleScores` | day02/src/main.rs:147-186 | the sample scores 15 by part one and 12 by part two |
| `Rucksack.Bit` | day03/src/main.rs:7-10 | letters map below 52, lower-case letters below 26 |
| `Rucksack.BitInjective` | day03/src/main.rs:7-10 | distinct letters map to distinct bits |
| `Rucksack.Bits` | day03/src/main.rs:5-13 | every bit of the mask is below 52, and the bit of every item of the line is set |
| `Rucksack.BitsMembers` | day03/src/main.rs:5-13 | a letter's bit is in a line's bit set exactly when the letter occurs in the line |
| `Rucksack.BitsOnlyItems` | day03/src/main.rs:5-13 | every bit in the set comes from some letter of the line |
| `Rucksack.SharedItems` | day03/src/main.rs:20 | the intersection of two bit sets holds exactly the bits of letters in both lines |
| `Rucksack.Priority` | day03/src/main.rs:21 | `BITS - leading_zeros` of a 64-bit mask: 0 exactly when no bit is set, and otherwise one more than the highest set bit |
| `Rucksack.PriorityIsHighestBit` | day03/src/main.rs:21 | `BITS - leading_zeros` is 0 for no common item and otherwise one more than the highest common bit |
| `Rucksack.LetterPriorities` | day03/src/main.rs:7-10 | `a` has priority 1, `z` 26, `A` 27, `Z` 52 |
| `Rucksack.Misplaced` | day03/src/main.rs:18-22 | the line split at half its length: 0 exactly when the halves share no item, otherwise one more than the highest bit they share, so at most 52 |
| `Rucksack.MisplacedOfOneShared` | day03/src/main.rs:18-22 | when the two halves share exactly one item, the score is that item's priority |
| `Rucksack.Part1` | day03/src/main.rs:15-24 | part one is at most 52 per line |
| `Rucksack.SamplePart1` | day03/src/main.rs:57-60 | the six sample rucksacks score 157 |
| `Rucksack.SampleText` | day03/src/main.rs:48-60 | the sample's six lines, joined with a final line break, are valid input and part one reads them as 157 |
| `Rucksack.BadgeOfOneShared` | day03/src/main.rs:30-33 | when three rucksacks share exactly one item, the group scores that item's priority |
| `Rucksack.Badge` | day03/src/main.rs:30-33 | 0 exactly when the three rucksacks share no item; otherwise one more than the highest shared bit, so at most 52 |
| `Rucksack.SumBadges` | day03/src/main.rs:27-34 | the badges of the complete groups of three, at most 52 per group; only the lines of complete groups need to be letters |
| `Rucksack.IncompleteGroupDropped` | day03/src/main.rs:29 | `tuples()` drops the last one or two lines when they do not make a full group: the lines of the complete groups are all letters and give the same sum |
| `Rucksack.TrailingLineUnread` | day03/src/main.rs:26-35 | a last line `1` after a complete group is accepted and not read: three lines `a` then `1` give 1 |
| `Rucksack.Part2` | day03/src/main.rs:26-35 | defined whenever the lines of complete groups are letters; at most 52 per complete group of three lines |
| `CampCleanup.ParseNumber` | day04/src/main.rs:25-27 | a section number is below 256 and consumes input |
| `CampCleanup.ParseNumberOf` | day04/src/main.rs:25-27 | a printed section number followed by a non-digit parses back to itself, leaving the rest |
| `CampCleanup.ParseRangeOf` | day04/src/main.rs:29-31 | a printed range parses back to itself |
| `CampCleanup.ParsePairOf` | day04/src/main.rs:18-23 | a printed pair of ranges parses back to itself |
| `CampCleanup.SampleParse` | day04/src/main.rs:36-38 | `2-4,6-8` parses to the ranges 2–4 and 6–8 |
| `CampCleanup.PairsOfPrinted` | day04/src/main.rs:62-76 | printed pairs, one per line, are valid input and parse back to the same pairs |
| `CampCleanup.ContainsRange` | day04/src/main.rs:52-54 | for a non-empty range, `contains_range` holds exactly when every section of the other range is in this one |
| `CampCleanup.ContainsRangeReflexive` | day04/src/main.rs:52-54 | a range contains itself exactly when it is non-empty |
| `CampCleanup.Overlaps` | day04/src/main.rs:57-59 | when `overlaps` holds and the other range is non-empty, the two ranges share a section |
| `CampCleanup.ContainsImpliesOverlaps` | day04/src/main.rs:52-59 | containing implies overlapping |
| `CampCleanup.OverlapsNotSymmetric` | day04/src/main.rs:57-59 | `overlaps` checks only whether one range's ends lie in the other, so it is not symmetric |
| `CampCleanup.EitherOverlapsIffIntersect` | day04/src/main.rs:70-76 | for non-empty ranges, overlapping in either direction means sharing a section |
| `CampCleanup.EmptyRangeOverlaps` | day04/src/main.rs:57-59 | a reversed (empty) range can be reported overlapping a range it shares no section with |
| `CampCleanup.CountContaining` | day04/src/main.rs:62-68 | at most one count per pair |
| `CampCleanup.ContainingAtMostOverlapping` | day04/src/main.rs:62-76 | every pair counted as containing is also counted as overlapping |
| `CampCleanup.Part1` | day04/src/main.rs:62-68 | part one counts at most one pair per line |
| `CampCleanup.Part2` | day04/src/main.rs:70-76 | part two counts at most one pair per line |
| `CampCleanup.PartsOfPrinted` | day04/src/main.rs:62-76 | on printed pairs, part one counts the pairs where either range contains the other, and part two those where either overlaps the other |
| `CampCleanup.Part1AtMostPart2` | day04/src/main.rs:62-76 | part one's answer never exceeds part two's |
| `CampCleanup.SampleCounts` | day04/src/main.rs:89-106 | the sample's six pairs, printed one per line, are valid input and give 2 and 4 |
| `SupplyStacks.ParseBox` | day05/src/main.rs:9-11 | a box is `[`, a capital letter, `]` (that letter), or three spaces (no crate), and nothing else |
| `SupplyStacks.ParseLayer` | day05/src/main.rs:13-14 | a layer is one or more boxes separated by spaces |
| `SupplyStacks.LayerParses` | day05/src/main.rs:13-14 | a printed layer parses back to its boxes |
| `SupplyStacks.LayerExample` | day05/src/main.rs:110-112 | `[N] [C]     [A]` parses to four boxes with the third empty |
| `SupplyStacks.FullColumn` | day05/src/main.rs:29-41 | a column in which every layer has a crate reads the crates bottom up |
| `SupplyStacks.EmptyColumn` | day05/src/main.rs:29-41 | a column with no crate is an empty stack |
| `SupplyStacks.ReverseLayers` | day05/src/main.rs:30-32 | every layer is reversed in place |
| `SupplyStacks.PopColumn` | day05/src/main.rs:35-39 | popping one box from each reversed layer collects that column's crates bottom up and leaves the rest of each layer |
| `SupplyStacks.Transpose` | day05/src/main.rs:29-41 | `transpose`: stack `c` is column `c` of the drawing, read bottom up with gaps dropped |
| `SupplyStacks.ParseProcedure` | day05/src/main.rs:19-22 | a parsed procedure consumes input |
| `SupplyStacks.ParseShowProcedure` | day05/src/main.rs:19-22 | a printed procedure (`move n from a to b`, 1-based) parses back to itself with the stack numbers made 0-based |
| `SupplyStacks.ProcedureExample` | day05/src/main.rs:119-147 | `move 1 from 2 to 1` is a move of one crate from stack 1 to stack 0 |
| `SupplyStacks.LayersOfDrawing` | day05/src/main.rs:13-17 | a printed drawing followed by its number footer parses back to its layers |
| `SupplyStacks.ProceduresOfText` | day05/src/main.rs:19-25 | printed procedures, one per line, parse back to themselves |
| `SupplyStacks.ParseInputOfText` | day05/src/main.rs:50-56 | `parse_input` of a printed drawing, footer, blank line and procedures gives back the layers and the procedures |
| `SupplyStacks.MoveOneEffect` | day05/src/main.rs:62-65 | moving one crate takes the top of the source stack and puts it on the target, leaving every other stack as it was |
| `SupplyStacks.MoveMany` | day05/src/main.rs:61-66 | moving `n` crates one by one keeps the number of stacks; a move of no crate needs no valid stack, as the empty loop indexes none |
| `SupplyStacks.ZeroMoveAnywhere` | day05/src/main.rs:61-66 | `move 0 from 9 to 9` on three stacks can be carried out one crate at a time and changes nothing |
| `SupplyStacks.MoveManyReverses` | day05/src/main.rs:61-66 | moving `n` crates one by one puts the top `n` crates on the target in reverse order, and changes nothing else |
| `SupplyStacks.MoveManyOntoItself` | day05/src/main.rs:61-66 | moving crates from a stack onto itself leaves the stacks unchanged |
| `SupplyStacks.MoveManyKeepsCrates` | day05/src/main.rs:61-66 | the CrateMover 9000 neither creates nor loses crates |
| `SupplyStacks.MoveBlock` | day05/src/main.rs:74-78 | a block move keeps the number of stacks |
| `SupplyStacks.MoveBlockKeepsOrder` | day05/src/main.rs:74-78 | the CrateMover 9001 puts the top block on the target in its original order, and from a stack onto itself changes nothing |
| `SupplyStacks.MoveBlockKeepsCrates` | day05/src/main.rs:74-78 | the CrateMover 9001 neither creates nor loses crates |
| `SupplyStacks.SingleCrateAlike` | day05/src/main.rs:58-81 | the two cranes agree on moves of at most one crate |
| `SupplyStacks.Tops` | day05/src/main.rs:68 | one letter per stack, the top crate of that stack |
| `SupplyStacks.MoveOneByOne` | day05/src/main.rs:61-66 | the pop-and-push loop computes the one-by-one move |
| `SupplyStacks.MoveAsBlock` | day05/src/main.rs:74-78 | the split-off-and-extend step computes the block move |
| `SupplyStacks.Part1` | day05/src/main.rs:58-69 | the method's result is the tops after running every parsed procedure one crate at a time on the drawn stacks |
| `SupplyStacks.Part2` | day05/src/main.rs:71-81 | the method's result is the tops after running every parsed procedure as block moves on the drawn stacks |
| `SupplyStacks.SampleInput` | day05/src/main.rs:97-107 | the sample's text parses to the sample's three layers and four procedures |
| `SupplyStacks.SampleDrawn` | day05/src/main.rs:118-147 | those layers transpose into the stacks `ZN`, `MCD`, `P` |
| `SupplyStacks.SampleRearrange1` | day05/src/main.rs:58-69 | one crate at a time, the four procedures run on those stacks and leave `C`, `M`, `PDNZ`, with tops `CMZ` |
| `SupplyStacks.SampleRearrange2` | day05/src/main.rs:71-81 | as block moves, they leave `M`, `C`, `PZND`, with tops `MCD` |
| `SupplyStacks.Sample1` | day05/src/main.rs:149-152 | on the sample's text, part one is defined and answers `CMZ` |
| `SupplyStacks.Sample2` | day05/src/main.rs:154-156 | on the sample's text, part two is defined and answers `MCD` |
| `TuningTrouble.BitsMembers` | day06/src/main.rs:2-4 | a letter's bit is in a window's bit set exactly when the letter occurs in the window |
| `TuningTrouble.BitsSize` | day06/src/main.rs:6-13 | a window sets at most as many bits as it has letters |
| `TuningTrouble.BitsCountIffDistinct` | day06/src/main.rs:6-13 | a window sets as many bits as it has letters exactly when its letters are pairwise distinct |
| `TuningTrouble.IsMarker` | day06/src/main.rs:6-13 | the popcount test holds exactly when the window's letters are pairwise distinct |
| `TuningTrouble.Position` | day06/src/main.rs:15-18 | `position` finds the first marker window at or after a start, reports that none exists, or panics when an unencodable window comes before any marker |
| `TuningTrouble.FindMarker` | day06/src/main.rs:1-20 | the answer is the end of the first window of distinct letters, reached without passing a window `encode_bits` cannot encode; `None` means every window is encodable and none is distinct; a panic means an unencodable window comes first |
| `TuningTrouble.FindMarkerAt` | day06/src/main.rs:15-20 | conversely, the end of the first distinct window, with every character before it encodable, is the answer |
| `TuningTrouble.NoPanicWhenEncodable` | day06/src/main.rs:1-20 | an input whose characters all lie between `a` and the end of ASCII never panics |
| `TuningTrouble.TrailingTextUnread` | day06/src/main.rs:15-20 | text after a found marker, such as a final line break, does not change the answer |
| `TuningTrouble.Part1` | day06/src/main.rs:22-24 | the start-of-packet marker lies between 4 and the input's length |
| `TuningTrouble.Part2` | day06/src/main.rs:26-28 | the start-of-message marker lies between 14 and the input's length |
| `TuningTrouble.SamplePart1` | day06/src/main.rs:40-42 | the first sample's marker ends after character 7, with or without a final line break |
| `TuningTrouble.NewlineBeforeMarkerPanics` | day06/src/main.rs:1-4 | a line break before any marker makes `encode_bits` underflow: `abc\n` panics |
| `NoSpace.SpaceSpan` | day07/src/main.rs:10-15 | `space1` consumes exactly the run of spaces at the start |
| `NoSpace.ParseCommand` | day07/src/main.rs:21-26 | a parsed command line starts with `$` and gives a command |
| `NoSpace.ParseStdout` | day07/src/main.rs:28-45 | a parsed output line is not a command, its name is shorter than the line, and a file's size fits in 64 bits |
| `NoSpace.ParseLine` | day07/src/main.rs:47-49 | a line starting with `$` is read as a command |
| `NoSpace.ParseLineOutput` | day07/src/main.rs:47-49 | a line not starting with `$` is read as `ls` output |
| `NoSpace.ParseShow` | day07/src/main.rs:10-49 | every command or `ls` output line, printed, parses back to itself |
| `NoSpace.ParsedOfText` | day07/src/main.rs:47-49 | a printed session, one line per entry, parses back line by line to its entries |
| `NoSpace.ParseStdoutFile` | day07/src/main.rs:35-41 | a file line is a 64-bit size, spaces and a name |
| `NoSpace.Scan` | day07/src/main.rs:69-91 | the recursive walk consumes input and returns at least one more size than it was given |
| `NoSpace.DiskUsage` | day07/src/main.rs:69-91 | the imperative walk over the lines computes the same sizes and stopping point as `Scan` |
| `NoSpace.LastIsAllFiles` | day07/src/main.rs:69-91 | the size listed last for a directory is the total of every file listed while inside it |
| `NoSpace.LastIsLargest` | day07/src/main.rs:69-91 | no size in the list exceeds the size listed last |
| `NoSpace.RootIsLargest` | day07/src/main.rs:69-91 | the last size is the root's: the sum of all file sizes, and the largest |
| `NoSpace.SmallSum` | day07/src/main.rs:93-98 | the sum of the sizes below 100000 is at most 99999 per directory |
| `NoSpace.SmallSumAppend` | day07/src/main.rs:93-98 | the small-directory sum adds up over concatenation |
| `NoSpace.SmallSumSwap` | day07/src/main.rs:93-98 | the small-directory sum does not depend on the order in which directories are listed |
| `NoSpace.Part1` | day07/src/main.rs:93-98 | part one is the small-directory sum of the session's sizes |
| `NoSpace.SortSizes` | day07/src/main.rs:102 | the sizes end ascending and are a permutation of the originals |
| `NoSpace.InsertSize` | day07/src/main.rs:102 | one insertion step extends the sorted prefix and keeps the multiset |
| `NoSpace.FirstAtLeast` | day07/src/main.rs:109-112 | the first size reaching the target is the smallest that does |
| `NoSpace.FreeUp` | day07/src/main.rs:100-113 | the chosen size is the smallest that frees what the 30000000-byte update still needs on the 70000000-byte disk |
| `NoSpace.Part2` | day07/src/main.rs:100-113 | part two is the smallest directory size that frees enough space |
| `NoSpace.SampleScan` | day07/src/main.rs:69-91 | the walk over the sample's lines gives sizes 584 (e), 94853 (a), 24933642 (d), 48381165 (root) |
| `NoSpace.SampleUsage` | day07/src/main.rs:126-150 | the sample's text is a well-nested session with those sizes |
| `NoSpace.SampleAnswers` | day07/src/main.rs:152-160 | those sizes give 95437, a need of 8381165 and the answer 24933642 |
| `RopeBridge.Delta` | day09/src/main.rs:14-21 | each direction moves one unit along exactly one axis |
| `RopeBridge.ApplyIsUnitStep` | day09/src/main.rs:23-26 | applying a direction moves a point one unit |
| `RopeBridge.ParseDirection` | day09/src/main.rs:29-44 | only `U`, `D`, `R`, `L` name a direction |
| `RopeBridge.ParseMove` | day09/src/main.rs:30-42 | a parsed move line has a space, and its count fits in a `usize` |
| `RopeBridge.ParseMoveOf` | day09/src/main.rs:29-44 | a printed move (letter, space, count) parses back to itself |
| `RopeBridge.ExpandLength` | day09/src/main.rs:29-44 | each move expands into exactly its count of steps |
| `RopeBridge.ExpandAppend` | day09/src/main.rs:29-44 | expanding distributes over concatenation |
| `RopeBridge.ExpandOne` | day09/src/main.rs:29-44 | a move of `n` expands to `n` copies of its direction |
| `RopeBridge.Path` | day09/src/main.rs:51-59 | the head's path starts at the origin and has one point per step, plus the start |
| `RopeBridge.PathSteps` | day09/src/main.rs:51-59 | each visited point is the previous one moved by the next direction |
| `RopeBridge.PathIsUnitSteps` | day09/src/main.rs:51-59 | the head moves one unit per step, starting at the origin |
| `RopeBridge.Walk` | day09/src/main.rs:51-59 | the loop records exactly the head's path |
| `RopeBridge.IsAdjacent` | day09/src/main.rs:46-49 | adjacency is Chebyshev distance at most one |
| `RopeBridge.Sign` | day09/src/main.rs:69-71 | `signum` of the difference: negative, zero or positive as the first is below, equal to or above the second |
| `RopeBridge.Step` | day09/src/main.rs:66-75 | a knot stays exactly when it touches its leader, and moves at most one unit along each axis |
| `RopeBridge.StepKeepsAdjacent` | day09/src/main.rs:66-75 | after the leader moves one step from a touching position, the follower touches it again |
| `RopeBridge.Trail` | day09/src/main.rs:64-76 | a follower records at most one position per leader position, and each one differs from the position before it |
| `RopeBridge.TrailStaysAdjacent` | day09/src/main.rs:61-82 | along a whole path, the follower ends touching the leader |
| `RopeBridge.FollowConnected` | day09/src/main.rs:61-82 | a follower's path starts at the origin and moves at most one unit per step |
| `RopeBridge.Knots` | day09/src/main.rs:61-82 | the `n`th knot's recorded positions start at the origin |
| `RopeBridge.KnotsConnected` | day09/src/main.rs:78-81 | so does the path of every later knot |
| `RopeBridge.FollowOne` | day09/src/main.rs:64-76 | the loop computes one follower's path |
| `RopeBridge.Follow` | day09/src/main.rs:61-82 | `follow` with `n` tails gives the path of the `n`th knot |
| `RopeBridge.Part1` | day09/src/main.rs:84-87 | the count of distinct positions of the knot behind the head |
| `RopeBridge.Part2` | day09/src/main.rs:89-92 | the count of distinct positions of the ninth knot behind the head |
| `RopeBridge.SampleFirstMove` | day09/src/main.rs:106 | `R 4` is four steps right |
| `Cpu.Cycles` | day10/src/main.rs:11-17 | an instruction takes 1 or 2 cycles, and 2 exactly for `addx` |
| `Cpu.TryFromShow` | day10/src/main.rs:20-29 | a printed instruction parses back to itself |
| `Cpu.TryFrom` | day10/src/main.rs:20-29 | any line without a space is `noop`; an `addx` comes from a line with a space and its operand fits in an `i32` |
| `Cpu.Trace` | day10/src/main.rs:31-55 | the register is reported once per cycle of the program |
| `Cpu.TraceAppend` | day10/src/main.rs:31-55 | running two programs in a row reports the first's values then the second's, from the first's final register |
| `Cpu.XDuringInstruction` | day10/src/main.rs:42-53 | during every cycle of an instruction, the register holds the value from before it; `addx` takes effect after its last cycle |
| `Cpu.Eval` | day10/src/main.rs:31-55 | the cycle-by-cycle loop reports the register value during each cycle, starting from 1 |
| `Cpu.SignalCycleForm` | day10/src/main.rs:66-68 | signal cycles are exactly 20, 60, 100, … |
| `Cpu.SignalSumIsStrengthOfSignalCycles` | day10/src/main.rs:70-81 | the running fold is the sum of cycle times register over the signal cycles reached |
| `Cpu.SumSignalStrengths` | day10/src/main.rs:70-81 | the loop sums the strengths of every signal cycle the trace reaches |
| `Cpu.Part1` | day10/src/main.rs:70-81 | part one is the sum of signal strengths over the program's trace |
| `Cpu.ScreenPixel` | day10/src/main.rs:83-94 | a pixel is lit exactly when its cycle was reached and the sprite covers its column; each row ends with a line break |
| `Cpu.CellOfCycle` | day10/src/main.rs:87-88 | a cycle's row and column are its quotient and remainder by 40 |
| `Cpu.Draw` | day10/src/main.rs:57-64 | the output is the six rows of forty pixels, each followed by a line break |
| `Cpu.Part2` | day10/src/main.rs:83-95 | part two is the screen the trace lights, for every trace that lights no pixel after cycle 240 |
| `Cpu.LongProgramOnScreen` | day10/src/main.rs:85-92 | `addx 100` then 240 `noop`s runs 242 cycles and lights no pixel past the grid, so part two accepts it |
| `Packets.CompareBytes` | day13/src/main.rs:39 | numbers compare by value, in all three directions |
| `Packets.Compare` | day13/src/main.rs:33-62 | the recursive order; equal packets compare `Equal` |
| `Packets.CompareLifted` | day13/src/main.rs:40-47 | wrapping both sides in one-element lists does not change the comparison |
| `Packets.CoercionIsEqual` | day13/src/main.rs:40-47 | a number compares equal to the list holding only it |
| `Packets.EqualIsNotStructural` | day13/src/main.rs:33-62 | the order's `Equal` is coarser than value equality |
| `Packets.CompareFlip` | day13/src/main.rs:33-62 | swapping the arguments reverses the result |
| `Packets.CompareTransitive` | day13/src/main.rs:33-62 | the order is transitive, strictly when either step is strict |
| `Packets.CompareSkipsEqualPrefix` | day13/src/main.rs:48-60 | list comparison skips a common prefix of equal elements |
| `Packets.CompareLists` | day13/src/main.rs:48-60 | after that prefix, the first unequal pair decides, and otherwise the shorter list is less |
| `Packets.PrefixIsLess` | day13/src/main.rs:55-56 | a proper prefix is less than the list it starts |
| `Packets.Cmp` | day13/src/main.rs:33-62 | the loop over `zip_longest` computes the recursive order |
| `Packets.ParseValue` | day13/src/main.rs:96-101 | a parsed value consumes input and leaves a suffix of it |
| `Packets.Parse` | day13/src/main.rs:65-77 | `from_str` succeeds only on text starting with `[` or a digit |
| `Packets.NotAValue` | day13/src/main.rs:96-101 | text not starting with `[` or a digit is not a value |
| `Packets.ListNeedsBracket` | day13/src/main.rs:92-94 | a list must start with `[` |
| `Packets.ParseRenderValue` | day13/src/main.rs:79-101 | printing a value and parsing gives it back, leaving whatever follows |
| `Packets.ParseRenderMore` | day13/src/main.rs:92-94 | a printed comma-separated tail parses back to its items |
| `Packets.Render` | day13/src/main.rs:79-86 | the printed packet is a non-empty line |
| `Packets.RoundTrip` | day13/src/main.rs:65-86 | `from_str` of `to_string` gives the value back, even with trailing text |
| `Packets.CanonicalText` | day13/src/main.rs:65-86 | printed text parses and prints back to the same text |
| `Packets.NumberTooLarge` | day13/src/main.rs:88-90 | a number above 255 does not fit a `u8` and the parse fails |
| `Packets.ParseExample` | day13/src/main.rs:109-122 | `[[1],4]` parses to the expected value and prints back the same |
| `Packets.LeadingZerosDropped` | day13/src/main.rs:88-90 | `07` parses as 7, whose printed form is not `07` |
| `DistressSignal.GroupsHaveNoBlank` | day13/src/main.rs:136 | splitting lines on blank lines yields groups without blank lines |
| `DistressSignal.JoinGroupsOfGroups` | day13/src/main.rs:136 | joining the groups back with blank lines gives the lines |
| `DistressSignal.GroupsOfJoined` | day13/src/main.rs:136 | groups of non-empty lines joined with blank lines split back into the same groups |
| `DistressSignal.IsOrderedTotal` | day13/src/main.rs:126-131 | of two packets, at least one order is right, and both are exactly when they compare equal |
| `DistressSignal.IsOrdered` | day13/src/main.rs:126-131 | a pair out of order compares the other way round as strictly less |
| `DistressSignal.PairsOf` | day13/src/main.rs:135-138 | each pair is the parse of its group's first two lines |
| `DistressSignal.PairsOfText` | day13/src/main.rs:133-138 | printed pairs, separated by blank lines, are well-formed input and parse back to the same pairs |
| `DistressSignal.OrderedIndexSum` | day13/src/main.rs:140-145 | the sum of 1-based indices of ordered pairs is at most `n(n+1)/2`, with equality exactly when every pair is ordered |
| `DistressSignal.Part1` | day13/src/main.rs:133-146 | part one is at most the sum of all indices |
| `DistressSignal.SampleOrderedSum` | day13/src/main.rs:140-145 | the indices of the sample's ordered pairs sum to 13 |
| `DistressSignal.SamplePart1` | day13/src/main.rs:204-207 | the sample's text is well-formed and part one gives 13 |
| `DistressSignal.DividerText` | day13/src/main.rs:151-153 | `[[2]]` and `[[6]]` parse to the two dividers |
| `DistressSignal.DividersOrdered` | day13/src/main.rs:151-156 | the first divider sorts before the second |
| `DistressSignal.PacketsOf` | day13/src/main.rs:149 | every kept packet is the parse of some input line |
| `DistressSignal.PacketsOfRendered` | day13/src/main.rs:149 | the printed packets, one per line, are read back in order |
| `DistressSignal.PacketsOfPairsText` | day13/src/main.rs:149 | reading the packets of printed pairs gives every packet, pair by pair, in order |
| `DistressSignal.SamplePacketsOfText` | day13/src/main.rs:149 | the sample's text yields its sixteen packets |
| `DistressSignal.SortPackets` | day13/src/main.rs:156 | the packets end sorted by the packet order and are a permutation of the originals |
| `DistressSignal.InsertDown` | day13/src/main.rs:156 | one insertion step extends the sorted prefix and keeps the multiset |
| `DistressSignal.DecoderKey` | day13/src/main.rs:158-164 | the key is 0 (`unwrap_or(0)`) exactly when no divider is present |
| `DistressSignal.KeyOfTwo` | day13/src/main.rs:158-164 | with the two dividers at positions `p1 < p2`, the key is `(p1+1)(p2+1)` |
| `DistressSignal.DecoderKeyOfSorted` | day13/src/main.rs:148-165 | whichever sorted arrangement the unstable sort picks, the key is (packets below the first divider + 1) × (packets below the second + 2) |
| `DistressSignal.Part2` | day13/src/main.rs:148-165 | part two sorts the input packets with both dividers and returns that arrangement's key |
| `DistressSignal.SampleBelowDivider1` | day13/src/main.rs:178-202 | nine sample packets sort below `[[2]]` |
| `DistressSignal.SampleBelowDivider2` | day13/src/main.rs:178-202 | twelve sample packets sort below `[[6]]` |
| `DistressSignal.SampleKey` | day13/src/main.rs:156-164 | every sorted arrangement of the sample's packets with the dividers gives the key 140 |
| `DistressSignal.SamplePart2` | day13/src/main.rs:209-212 | every sorted arrangement of the packets read from the sample's text, with the dividers, gives the key 140 |

## Left out

- Reading `input.txt`, the `main` functions and printing are not modelled; every part takes the input text as a parameter.
- The parser libraries (`nom`, `peg`) and `itertools` are not modelled as libraries. The parsers they build are written out as recursive functions with the same grammar, and `sorted_unstable_by`, `sort_unstable`, `sort` become insertion sorts. For day 1 the result is proved unique. For day 13 the answer is proved the same for every sorted arrangement.
- Hash sets of points (day 9) are Dafny sets. The `u64`/`u32` bit masks of days 3 and 6 are sets of bit positions. Shifts, `&`, `|`, `count_ones` and `leading_zeros` become set operations, set size and a highest-element search.
- Integer widths: sums and products are unbounded integers. The overflow panics of debug builds, and wrap-around in release builds, are not modelled. Widths appear only as the bound a parse accepts (`u8` for days 4 and 13, `u32` for day 1, `i32` for day 10, `u64` for day 7, `usize` for days 5 and 9). The exception is day 6's `encode_bits`: its `u32` underflow below `a` and its shift past bit 31 are modelled as panics, see `TuningTrouble.FindMarker`.
- `unwrap` panics are preconditions: well-formed input for days 1, 2, 3, 4, 9, 10 and 13 part one, an existing marker for day 6, a parse of day 5's input, and a well-nested session for day 7. `unreachable!()` in day 3 becomes the requirement that every rucksack `bits` reads holds only letters: every line for part one, and the lines of complete groups of three for part two (`tuples()` never reads the one or two lines after the last complete group).
- `RockPaperScissors.ParseLine`: the generic `parse_line::<T, U>` is modelled as its two instances, shapes–shapes (part one) and shape–outcome (part two).
- `SupplyStacks.ParseShowProcedure`: a stack number of 0, which makes `b-1` underflow and panic in the source, is a parse failure in the model.
- `SupplyStacks.Part1`, `SupplyStacks.Part2`: the drawing is required to have a layer, and no layer may be narrower than the first. The source's `transpose` reads `v[0]` and pops one box per column of the first layer from every layer, so it panics otherwise.
- `TuningTrouble.FindMarker`: reads characters where the source reads bytes. The two agree on ASCII text. A window holding a character below `a` or outside ASCII is a panic, because `encode_bits` underflows or shifts past 31; every byte of a multi-byte character shifts past 31, so such a character panics in both. The window size must be above 0, which `windows` demands.
- `NoSpace.Part2`: requires the used space to lie between 40000000 and 70000000. Outside that range the subtraction underflows or no directory is needed, and the source panics.
- `DistressSignal.Part2`: the sorted sequence is returned as a ghost value, so the answer is tied to one sorted arrangement; `DecoderKeyOfSorted` shows every arrangement gives the same key when no input packet ties with a divider.
- `Cpu.Part2`: requires that the sprite covers the column of no cycle after the 240th. The source writes a pixel only when the sprite covers it, and a covered cycle after the 240th indexes past the sixth row and panics; uncovered cycles there are skipped.
- `RopeBridge.Follow`: requires at least one tail, which both parts use. With 0 tails the source's `num_tails - 1` underflows.
- The day 10 sample (13140 and its picture) is not proved: its program has 146 instructions, too many to evaluate in the verifier.
- The day 9 samples (13, 1 and 36) are not proved: the knots' paths over the sample have too many positions to evaluate in the verifier.
- The day 6 samples other than the first one for part one, and all part-two samples, are not proved, for the same reason.
- The day 3 part-two sample (70) is not proved: the membership checks for three full rucksack lines are too costly for the verifier.
- `CalorieCounting.SampleAnswers`: its input is `Printed` of the sample's inventories: one item per line, a blank line between elves and a final line break, the layout of the test's text. That this equals the test's string literal character for character is not proved.
- `CampCleanup.SampleCounts`: its input is `Printed` of the sample's six pairs, one `a-b,c-d` line each with a final line break; equality with the test's literal is not proved.
- `SupplyStacks.Sample1`, `SupplyStacks.Sample2`: their input is `SampleText`, the printed drawing (with its padding spaces), footer, blank line and four procedures; equality with the test's literal is not proved.
- `NoSpace.SampleUsage`: its input is `SessionText` of the sample's 23 terminal lines; equality with the test's literal is not proved.
- `RockPaperScissors.SampleScores`: starts from the sample's three rounds as values, not from the test's text, so the parse of the sample is not covered.
- `Rucksack.SampleText`: its input is the sample's six lines joined by line breaks with a final one, the layout of the test's text; equality with the test's literal is not proved.
- `DistressSignal.SamplePart1`, `DistressSignal.SamplePart2`: their input is `PairsText` of the sample's eight pairs, printed with `Packets.Render` and separated by blank lines; equality with the test's literal is not proved.
- `Text.Lines`: a final `\r` without a `\n` after it is dropped. The standard library of the time these solutions were written did this; later versions keep it.
- `SupplyStacks.ParseInput` has no contract of its own; `SupplyStacks.ParseInputOfText` states what it reads from a printed input.

=== FILE: day01_calories.dfy ===
/** Calorie counting: the elves' inventories are separated by blank lines;
    the largest total, and the sum of the three largest. */
module CalorieCounting {
  import opened Text

  /** Rust's `u32`. */
  const U32Bound: nat := 0x1_0000_0000

  predicate ValidGroup(group: string) {
    forall k :: 0 <= k < |Lines(group)| ==> ParseUnsigned(Lines(group)[k], U32Bound).Some?
  }

  predicate ValidInput(input: string) {
    forall g :: 0 <= g < |SplitOnPair(input, '\n', '\n')| ==> ValidGroup(SplitOnPair(input, '\n', '\n')[g])
  }

  function Sum(xs: seq<nat>): nat {
    if |xs| == 0 then 0 else xs[0] + Sum(xs[1..])
  }

  /** `parse_line` on every line of a group. */
  function Calories(group: string): (xs: seq<nat>)
    requires ValidGroup(group)
    ensures |xs| == |Lines(group)|
    ensures forall k :: 0 <= k < |xs| ==> xs[k] < U32Bound
  {
    var ls := Lines(group);
    seq(|ls|, k requires 0 <= k < |ls| => ParseUnsigned(ls[k], U32Bound).value)
  }

  /** `parse_input`: each group's total. */
  function Totals(input: string): (totals: seq<nat>)
    requires ValidInput(input)
    ensures |totals| == |SplitOnPair(input, '\n', '\n')|
  {
    var groups := SplitOnPair(input, '\n', '\n');
    seq(|groups|, g requires 0 <= g < |groups| => Sum(Calories(groups[g])))
  }

  /** Inventories a text can list: at least one elf, each carrying at least
      one item, every item a `u32`. */
  predicate Printable(elves: seq<seq<nat>>) {
    |elves| > 0 &&
    forall g :: 0 <= g < |elves| ==> |elves[g]| > 0 && forall k :: 0 <= k < |elves[g]| ==> elves[g][k] < U32Bound
  }

  function Numerals(xs: seq<nat>): seq<string> {
    seq(|xs|, k requires 0 <= k < |xs| => NatToString(xs[k]))
  }

  /** One elf's part of the text: an item per line; the last elf's part
      ends with the text's final line break. */
  function Group(elves: seq<seq<nat>>, g: nat): string
    requires g < |elves|
  {
    JoinLines(Numerals(elves[g])) + (if g == |elves| - 1 then "\n" else "")
  }

  /** An input listing the inventories, with a blank line between two elves. */
  function Printed(elves: seq<seq<nat>>): string
    requires |elves| > 0
  {
    JoinOnPair(seq(|elves|, g requires 0 <= g < |elves| => Group(elves, g)), '\n', '\n')
  }

  /** Each elf's part of a printed text reads back as its items. */
  lemma GroupOfPrinted(elves: seq<seq<nat>>, g: nat)
    requires Printable(elves) && g < |elves|
    ensures NoPair(Group(elves, g), '\n', '\n')
    ensures g < |elves| - 1 ==> Group(elves, g)[|Group(elves, g)| - 1] != '\n'
    ensures ValidGroup(Group(elves, g)) && Calories(Group(elves, g)) == elves[g]
  {
    var ls := Numerals(elves[g]);
    forall k | 0 <= k < |ls|
      ensures PlainLine(ls[k]) && |ls[k]| > 0
    {
      DigitsPlain(ls[k]);
    }
    JoinLinesNoBlank(ls);
    var j := JoinLines(ls);
    if g == |elves| - 1 {
      var s := j + "\n";
      forall k | 0 <= k < |s| - 1
        ensures !(s[k] == '\n' && s[k + 1] == '\n')
      {
        if k < |j| - 1 {
          assert s[k] == j[k] && s[k + 1] == j[k + 1];
        } else {
          assert s[k] == j[|j| - 1];
        }
      }
      LinesOfJoined(ls, "\n");
    } else {
      assert Group(elves, g) == j + "";
      LinesOfJoined(ls, "");
    }
    forall k | 0 <= k < |ls|
      ensures ParseUnsigned(ls[k], U32Bound) == Some(elves[g][k])
    {
      ParseUnsignedOfNatToString(elves[g][k], U32Bound);
    }
  }

  /** Reading a printed list of inventories gives each elf's total. */
  lemma TotalsOfPrinted(elves: seq<seq<nat>>)
    requires Printable(elves)
    ensures ValidInput(Printed(elves))
    ensures Totals(Printed(elves)) == seq(|elves|, g requires 0 <= g < |elves| => Sum(elves[g]))
  {
    var parts := seq(|elves|, g requires 0 <= g < |elves| => Group(elves, g));
    forall g | 0 <= g < |elves|
      ensures NoPair(parts[g], '\n', '\n')
      ensures g < |elves| - 1 ==> |parts[g]| == 0 || parts[g][|parts[g]| - 1] != '\n'
      ensures ValidGroup(parts[g]) && Calories(parts[g]) == elves[g]
    {
      GroupOfPrinted(elves, g);
    }
    SplitOfJoin(parts, '\n', '\n');
    assert SplitOnPair(Printed(elves), '\n', '\n') == parts;
  }

  // ---------------------------------------------------------------------------
  // Part one

  /** `max().unwrap_or(0)`. */
  function Max(xs: seq<nat>): (m: nat)
    ensures forall k :: 0 <= k < |xs| ==> xs[k] <= m
    ensures |xs| == 0 ==> m == 0
    ensures |xs| > 0 ==> m in xs
  {
    if |xs| == 0 then 0
    else
      var rest := Max(xs[1..]);
      if |xs| == 1 || xs[0] >= rest then xs[0] else rest
  }

  /** `part1`: the largest total, 0 for no totals. */
  function Part1(input: string): (n: nat)
    requires ValidInput(input)
    ensures forall g :: 0 <= g < |Totals(input)| ==> Totals(input)[g] <= n
    ensures n in Totals(input)
  {
    Max(Totals(input))
  }

  // ---------------------------------------------------------------------------
  // Part two

  predicate Descending(xs: seq<nat>) {
    forall i, j :: 0 <= i < j < |xs| ==> xs[i] >= xs[j]
  }

  /** `x` put in its place in a descending sequence. */
  function Insert(x: nat, xs: seq<nat>): (r: seq<nat>)
    requires Descending(xs)
    ensures Descending(r) && multiset(r) == multiset(xs) + multiset{x}
  {
    if |xs| == 0 || x >= xs[0] then [x] + xs
    else
      var rest := Insert(x, xs[1..]);
      BelowFirst(x, xs, rest);
      KeepFirst(x, xs, rest);
      [xs[0]] + rest
  }

  lemma KeepFirst(x: nat, xs: seq<nat>, rest: seq<nat>)
    requires |xs| > 0 && Descending(rest)
    requires forall k :: 0 <= k < |rest| ==> rest[k] <= xs[0]
    requires multiset(rest) == multiset(xs[1..]) + multiset{x}
    ensures Descending([xs[0]] + rest)
    ensures multiset([xs[0]] + rest) == multiset(xs) + multiset{x}
  {
    assert xs == [xs[0]] + xs[1..];
  }

  /** What `x` joins to the tail of a descending sequence stays below its
      first element, when `x` does. */
  lemma BelowFirst(x: nat, xs: seq<nat>, rest: seq<nat>)
    requires Descending(xs) && |xs| > 0 && x < xs[0]
    requires multiset(rest) == multiset(xs[1..]) + multiset{x}
    ensures forall k :: 0 <= k < |rest| ==> rest[k] <= xs[0]
  {
    forall k | 0 <= k < |rest|
      ensures rest[k] <= xs[0]
    {
      assert rest[k] in multiset(rest);
      if rest[k] != x {
        assert rest[k] in multiset(xs[1..]);
        var j :| 0 <= j < |xs[1..]| && xs[1..][j] == rest[k];
        assert xs[j + 1] == rest[k];
      }
    }
  }

  /** `sorted_unstable_by(|a, b| b.cmp(a))`, as an insertion sort. */
  function SortDescending(xs: seq<nat>): (r: seq<nat>)
    ensures Descending(r) && multiset(r) == multiset(xs)
  {
    if |xs| == 0 then []
    else
      assert xs == [xs[0]] + xs[1..];
      Insert(xs[0], SortDescending(xs[1..]))
  }

  function Min(a: nat, b: nat): nat {
    if a < b then a else b
  }

  /** The sum of the largest three totals, or of all when there are fewer.
      The three largest include the largest, so the sum is at least it. */
  function TopThree(totals: seq<nat>): (r: nat)
    ensures r >= Max(totals)
    ensures |totals| <= 3 ==> r == Sum(totals)
  {
    var sorted := SortDescending(totals);
    assert |sorted| == |multiset(totals)| == |totals|;
    if |totals| > 0 then
      SortedFirstIsMax(totals);
      SumPrefix(sorted, Min(3, |sorted|));
      if |totals| <= 3 then
        assert sorted[..Min(3, |sorted|)] == sorted;
        SumOfPermutation(sorted, totals);
        Sum(sorted[..Min(3, |sorted|)])
      else
        Sum(sorted[..Min(3, |sorted|)])
    else
      Sum(sorted[..Min(3, |sorted|)])
  }

  /** The sum of two sequences joined is the two sums added. */
  lemma {:induction false} SumConcat(a: seq<nat>, b: seq<nat>)
    ensures Sum(a + b) == Sum(a) + Sum(b)
    decreases |a|
  {
    if |a| == 0 {
      assert a + b == b;
    } else {
      SumConcat(a[1..], b);
      assert (a + b)[1..] == a[1..] + b;
    }
  }

  /** Taking one element out of a sequence takes it out of the multiset
      and out of the sum. */
  lemma RemoveOne(a: seq<nat>, x: nat, b: seq<nat>)
    ensures multiset(a + ([x] + b)) == multiset(a + b) + multiset{x}
    ensures Sum(a + ([x] + b)) == x + Sum(a + b)
  {
    SumConcat(a, [x] + b);
    SumConcat(a, b);
    assert ([x] + b)[1..] == b;
  }

  /** Multisets that are equal once the same element is added to both
      were equal before. */
  lemma AddedOnce(p: multiset<nat>, q: multiset<nat>, x: nat)
    requires p + multiset{x} == q + multiset{x}
    ensures p == q
  {
    forall y
      ensures p[y] == q[y]
    {
      assert (p + multiset{x})[y] == (q + multiset{x})[y];
    }
  }

  /** The sum does not depend on the order, so sorting keeps it. */
  lemma {:induction false} SumOfPermutation(xs: seq<nat>, ys: seq<nat>)
    requires multiset(xs) == multiset(ys)
    ensures Sum(xs) == Sum(ys)
    decreases |xs|
  {
    if |xs| == 0 {
      assert |ys| == |multiset(ys)| == 0;
    } else {
      var x := xs[0];
      assert xs == [x] + xs[1..];
      assert x in multiset(ys);
      var i :| 0 <= i < |ys| && ys[i] == x;
      var (a, b) := (ys[..i], ys[i + 1..]);
      assert ys == a + ([x] + b);
      RemoveOne(a, x, b);
      assert multiset(xs) == multiset(xs[1..]) + multiset{x};
      AddedOnce(multiset(xs[1..]), multiset(a + b), x);
      SumOfPermutation(xs[1..], a + b);
    }
  }



  /** `part2`: never below part one's answer, since the three largest
      include the largest. */
  function Part2(input: string): (n: nat)
    requires ValidInput(input)
    ensures n >= Part1(input)
  {
    TopThree(Totals(input))
  }

  /** The largest total comes first once sorted. */
  lemma SortedFirstIsMax(xs: seq<nat>)
    requires |xs| > 0
    ensures SortDescending(xs)[0] == Max(xs)
  {
    var sorted := SortDescending(xs);
    assert |sorted| == |multiset(xs)| == |xs|;
    var m := Max(xs);
    assert m in multiset(sorted);
    assert sorted[0] in multiset(xs);
  }

  lemma SumPrefix(xs: seq<nat>, n: nat)
    requires 1 <= n <= |xs|
    ensures Sum(xs[..n]) >= xs[0]
  {
    assert xs[..n][0] == xs[0];
  }

  lemma DescendingTail(a: seq<nat>)
    requires Descending(a) && |a| > 0
    ensures Descending(a[1..])
  {
    assert forall i :: 0 <= i < |a| - 1 ==> a[1..][i] == a[i + 1];
  }

  /** The first of a descending sequence is its largest: no element of the
      same collection is larger. */
  lemma FirstIsLargest(a: seq<nat>, x: nat)
    requires Descending(a) && x in multiset(a)
    ensures |a| > 0 && x <= a[0]
  {
    var i :| 0 <= i < |a| && a[i] == x;
    if i > 0 {
      assert a[0] >= a[i];
    }
  }

  /** Only one descending order holds a given collection of totals, so the
      sort's result does not depend on how it sorts. */
  lemma {:induction false} DescendingUnique(a: seq<nat>, b: seq<nat>)
    requires Descending(a) && Descending(b) && multiset(a) == multiset(b)
    ensures a == b
    decreases |a|
  {
    assert |a| == |multiset(a)| == |multiset(b)| == |b|;
    if |a| > 0 {
      FirstIsLargest(b, a[0]);
      FirstIsLargest(a, b[0]);
      assert a == [a[0]] + a[1..] && b == [b[0]] + b[1..];
      assert a[0] == b[0];
      assert multiset(a[1..]) == multiset(b[1..]) by {
        assert multiset(a) == multiset{a[0]} + multiset(a[1..]);
        assert multiset(b) == multiset{b[0]} + multiset(b[1..]);
        assert multiset(a[1..]) == multiset(a) - multiset{a[0]};
        assert multiset(b[1..]) == multiset(b) - multiset{b[0]};
      }
      DescendingTail(a);
      DescendingTail(b);
      DescendingUnique(a[1..], b[1..]);
    }
  }

  lemma SampleDescending(sorted: seq<nat>)
    requires sorted == [24000, 11000, 10000, 6000, 4000]
    ensures Descending(sorted)
  {
  }

  lemma SamplePermutation(t: seq<nat>, sorted: seq<nat>)
    requires t == [6000, 4000, 11000, 24000, 10000]
    requires sorted == [24000, 11000, 10000, 6000, 4000]
    ensures multiset(t) == multiset(sorted)
  {
  }

  lemma SampleSorted(t: seq<nat>)
    requires t == [6000, 4000, 11000, 24000, 10000]
    ensures SortDescending(t) == [24000, 11000, 10000, 6000, 4000]
  {
    var sorted: seq<nat> := [24000, 11000, 10000, 6000, 4000];
    SamplePermutation(t, sorted);
    SampleDescending(sorted);
    DescendingUnique(SortDescending(t), sorted);
  }

  /** The example's five elves carry 6000, 4000, 11000, 24000 and 10000
      calories. */
  lemma SampleGroups()
    ensures Sum([1000, 2000, 3000]) == 6000 && Sum([4000]) == 4000
    ensures Sum([5000, 6000]) == 11000 && Sum([7000, 8000, 9000]) == 24000
    ensures Sum([10000]) == 10000
  {
  }

  lemma SumOfThree(xs: seq<nat>)
    requires |xs| >= 3
    ensures Sum(xs[..3]) == xs[0] + xs[1] + xs[2]
  {
    var p := xs[..3];
    assert p[1..][1..][1..] == [];
    assert Sum(p[1..][1..]) == xs[2];
    assert Sum(p[1..]) == xs[1] + xs[2];
  }

  /** The example's text: the five elves' inventories, printed. The largest
      total is 24000 and the top three make 45000. */
  lemma SampleAnswers(elves: seq<seq<nat>>)
    requires elves == [[1000, 2000, 3000], [4000], [5000, 6000], [7000, 8000, 9000], [10000]]
    ensures Printable(elves) && ValidInput(Printed(elves))
    ensures Part1(Printed(elves)) == 24000 && Part2(Printed(elves)) == 45000
  {
    SampleTotals(elves);
    var t := Totals(Printed(elves));
    SampleMax(t);
    SampleTopThree(t);
  }

  /** The example's text reads back as the five elves' totals. */
  lemma SampleTotals(elves: seq<seq<nat>>)
    requires elves == [[1000, 2000, 3000], [4000], [5000, 6000], [7000, 8000, 9000], [10000]]
    ensures Printable(elves) && ValidInput(Printed(elves))
    ensures Totals(Printed(elves)) == [6000, 4000, 11000, 24000, 10000]
  {
    SamplePrintable(elves);
    TotalsOfFive(elves);
    SampleGroups();
  }

  lemma SamplePrintable(elves: seq<seq<nat>>)
    requires elves == [[1000, 2000, 3000], [4000], [5000, 6000], [7000, 8000, 9000], [10000]]
    ensures Printable(elves)
  {
  }

  /** Five printed inventories read back as their five sums. */
  lemma TotalsOfFive(elves: seq<seq<nat>>)
    requires Printable(elves) && |elves| == 5
    ensures ValidInput(Printed(elves))
    ensures Totals(Printed(elves)) == [Sum(elves[0]), Sum(elves[1]), Sum(elves[2]), Sum(elves[3]), Sum(elves[4])]
  {
    TotalsOfPrinted(elves);
  }

  lemma SampleMax(t: seq<nat>)
    requires t == [6000, 4000, 11000, 24000, 10000]
    ensures Max(t) == 24000
  {
    SampleSorted(t);
    SortedFirstIsMax(t);
  }

  lemma SampleTopThree(t: seq<nat>)
    requires t == [6000, 4000, 11000, 24000, 10000]
    ensures TopThree(t) == 45000
  {
    TopThreeOfThreeOrMore(t);
    SampleSorted(t);
  }

  /** With three totals or more, part two adds the three largest. */
  lemma TopThreeOfThreeOrMore(xs: seq<nat>)
    requires |xs| >= 3
    ensures |SortDescending(xs)| == |xs|
    ensures var sorted := SortDescending(xs); TopThree(xs) == sorted[0] + sorted[1] + sorted[2]
  {
    var sorted := SortDescending(xs);
    assert |sorted| == |multiset(xs)| == |xs|;
    SumOfThree(sorted);
  }
}

=== FILE: day02_rps.dfy ===
/** Rock paper scissors: the outcome of a round by arithmetic modulo 3, the
    shape chosen to reach a wanted outcome, and the tournament scores. */
module RockPaperScissors {
  import opened Text

  datatype Outcome = Win | Loss | Draw

  /** The points an outcome is worth. */
  function OutcomeScore(o: Outcome): (n: nat)
    ensures n == 6 <==> o == Win
    ensures n == 3 <==> o == Draw
    ensures n == 0 <==> o == Loss
  {
    match o
    case Win => 6
    case Loss => 0
    case Draw => 3
  }

  datatype Shape = Rock | Paper | Scissor

  /** The discriminant the source gives each shape (`shape as i8`). */
  function Index(s: Shape): (n: int)
    ensures 0 <= n < 3
  {
    match s
    case Rock => 0
    case Paper => 1
    case Scissor => 2
  }

  /** `From<i8>`: only defined for 0, 1 and 2. */
  function FromIndex(n: int): (s: Shape)
    requires 0 <= n < 3
    ensures Index(s) == n
  {
    if n == 0 then Rock else if n == 1 then Paper else Scissor
  }

  /** The points a shape is worth: 1, 2 or 3. */
  function ShapeScore(s: Shape): (n: nat)
    ensures n == Index(s) + 1
  {
    match s
    case Rock => 1
    case Paper => 2
    case Scissor => 3
  }

  /** `Shape::cmp`: the outcome for `self` of playing against `other`, by the
      difference of the discriminants modulo 3 (Dafny's `%` is Euclidean,
      like Rust's `rem_euclid`). The arithmetic agrees with the rules of the
      game. */
  function Cmp(self: Shape, other: Shape): (o: Outcome)
    ensures o == Win <==> Defeats(self, other)
    ensures o == Loss <==> Defeats(other, self)
    ensures o == Draw <==> self == other
  {
    var d := (Index(self) - Index(other)) % 3;
    if d == 0 then Draw
    else if d == 1 then Win
    else Loss
  }

  /** The rules of the game, written as a table: rock breaks scissors,
      scissors cut paper, paper wraps rock. */
  predicate Defeats(a: Shape, b: Shape) {
    (a == Rock && b == Scissor) || (a == Scissor && b == Paper) || (a == Paper && b == Rock)
  }

  /** A shape draws against itself, and `a` wins against `b` exactly when
      `b` loses against `a`. */
  lemma CmpAntisymmetric(a: Shape, b: Shape)
    ensures Cmp(a, a) == Draw
    ensures Cmp(a, b) == Win <==> Cmp(b, a) == Loss
    ensures Cmp(a, b) == Draw <==> Cmp(b, a) == Draw
  {
  }

  /** `beats`: the shape `s` defeats. */
  function Beats(s: Shape): (r: Shape)
    ensures Cmp(r, s) == Loss
  {
    FromIndex((Index(s) - 1) % 3)
  }

  /** `beaten_by`: the shape that defeats `s`. */
  function BeatenBy(s: Shape): (r: Shape)
    ensures Cmp(r, s) == Win
  {
    FromIndex((Index(s) + 1) % 3)
  }

  lemma BeatsInverse(s: Shape)
    ensures Beats(BeatenBy(s)) == s
    ensures BeatenBy(Beats(s)) == s
    ensures Defeats(s, Beats(s)) && Defeats(BeatenBy(s), s)
  {
    match s
    case Rock =>
      assert Beats(s) == Scissor && BeatenBy(s) == Paper;
    case Paper =>
      assert Beats(s) == Rock && BeatenBy(s) == Scissor;
    case Scissor =>
      assert Beats(s) == Paper && BeatenBy(s) == Rock;
  }

  /** The shape `part2` plays against `a` to reach the outcome `o`. */
  function Choose(a: Shape, o: Outcome): (b: Shape)
    ensures Cmp(b, a) == o
  {
    match o
    case Win => BeatenBy(a)
    case Loss => Beats(a)
    case Draw => a
  }

  /** No other shape reaches the same outcome. */
  lemma ChooseUnique(a: Shape, o: Outcome, b: Shape)
    requires Cmp(b, a) == o
    ensures b == Choose(a, o)
  {
  }

  // ---------------------------------------------------------------------------
  // Parsing

  /** `Outcome::from_str`: "X" loses, "Y" draws, "Z" wins. */
  function ParseOutcome(s: string): (r: Option<Outcome>)
    ensures r == Some(Loss) <==> s == "X"
    ensures r == Some(Draw) <==> s == "Y"
    ensures r == Some(Win) <==> s == "Z"
    ensures r.None? <==> s !in {"X", "Y", "Z"}
  {
    if s == "X" then Some(Loss)
    else if s == "Y" then Some(Draw)
    else if s == "Z" then Some(Win)
    else None
  }

  /** `Shape::from_str`: "A" or "X" is rock, "B" or "Y" paper, "C" or "Z"
      scissors. */
  function ParseShape(s: string): (r: Option<Shape>)
    ensures r == Some(Rock) <==> s in {"A", "X"}
    ensures r == Some(Paper) <==> s in {"B", "Y"}
    ensures r == Some(Scissor) <==> s in {"C", "Z"}
    ensures r.None? <==> s !in {"A", "B", "C", "X", "Y", "Z"}
  {
    if s == "A" || s == "X" then Some(Rock)
    else if s == "B" || s == "Y" then Some(Paper)
    else if s == "C" || s == "Z" then Some(Scissor)
    else None
  }

  /** `parse_line::<Shape, Shape>`. */
  function ParseShapes(line: string): Option<(Shape, Shape)> {
    match SplitOnce(line)
    case None => None
    case Some((a, b)) =>
      match (ParseShape(a), ParseShape(b))
      case (Some(x), Some(y)) => Some((x, y))
      case _ => None
  }

  /** `parse_line::<Shape, Outcome>`. */
  function ParseStrategy(line: string): Option<(Shape, Outcome)> {
    match SplitOnce(line)
    case None => None
    case Some((a, b)) =>
      match (ParseShape(a), ParseOutcome(b))
      case (Some(x), Some(o)) => Some((x, o))
      case _ => None
  }

  /** A line of the guide is a letter for the opponent's shape, a space and a
      letter for the second column. */
  lemma ParseLine(p: string, q: string)
    requires |p| == 1 && |q| == 1
    ensures ParseShapes(p + " " + q) ==
      if ParseShape(p).Some? && ParseShape(q).Some? then Some((ParseShape(p).value, ParseShape(q).value)) else None
    ensures ParseStrategy(p + " " + q) ==
      if ParseShape(p).Some? && ParseOutcome(q).Some? then Some((ParseShape(p).value, ParseOutcome(q).value)) else None
  {
    var line := p + " " + q;
    assert line == p + [' '] + q;
    if p[0] == ' ' {
      assert ParseShape(p).None? by { assert p == " "; }
      assert ParseShapes(line).None? && ParseStrategy(line).None? by {
        assert IndexOf(line, ' ') == 0;
        var s := SplitOnce(line);
        assert s.Some? && s.value.0 == "";
      }
    } else {
      IndexOfFirst(p, ' ', q);
      assert line[..1] == p && line[2..] == q;
    }
  }

  // ---------------------------------------------------------------------------
  // Scores

  /** The score of one round in which we play `b` against `a`. */
  function RoundScore(a: Shape, b: Shape): (n: nat)
    ensures 1 <= n <= 9
  {
    ShapeScore(b) + OutcomeScore(Cmp(b, a))
  }

  /** Total score of a sequence of rounds, added up left to right as `fold`
      does. */
  function Score(rounds: seq<(Shape, Shape)>): nat {
    if |rounds| == 0 then 0
    else Score(rounds[..|rounds| - 1]) + RoundScore(rounds[|rounds| - 1].0, rounds[|rounds| - 1].1)
  }

  /** Every round is worth between 1 and 9 points. */
  lemma {:induction false} ScoreBounds(rounds: seq<(Shape, Shape)>)
    ensures |rounds| <= Score(rounds) <= 9 * |rounds|
    decreases |rounds|
  {
    if |rounds| > 0 {
      ScoreBounds(rounds[..|rounds| - 1]);
    }
  }

  predicate ValidShapes(input: string) {
    forall k :: 0 <= k < |Lines(input)| ==> ParseShapes(Lines(input)[k]).Some?
  }

  predicate ValidStrategy(input: string) {
    forall k :: 0 <= k < |Lines(input)| ==> ParseStrategy(Lines(input)[k]).Some?
  }

  /** `part1`: both columns are shapes (the `unwrap`s demand valid lines). */
  function Part1(input: string): (total: nat)
    requires ValidShapes(input)
    ensures |Lines(input)| <= total <= 9 * |Lines(input)|
  {
    var ls := Lines(input);
    var rounds := seq(|ls|, k requires 0 <= k < |ls| => ParseShapes(ls[k]).value);
    ScoreBounds(rounds);
    Score(rounds)
  }

  /** The rounds of `part2`: the second column is the outcome to reach. */
  function Planned(plan: seq<(Shape, Outcome)>): (rounds: seq<(Shape, Shape)>)
    ensures |rounds| == |plan|
    ensures forall k :: 0 <= k < |plan| ==>
      rounds[k].0 == plan[k].0 && Cmp(rounds[k].1, rounds[k].0) == plan[k].1
  {
    seq(|plan|, k requires 0 <= k < |plan| => (plan[k].0, Choose(plan[k].0, plan[k].1)))
  }

  /** `part2`. */
  function Part2(input: string): (total: nat)
    requires ValidStrategy(input)
    ensures |Lines(input)| <= total <= 9 * |Lines(input)|
  {
    var ls := Lines(input);
    var plan := seq(|ls|, k requires 0 <= k < |ls| => ParseStrategy(ls[k]).value);
    ScoreBounds(Planned(plan));
    Score(Planned(plan))
  }

  /** The sum of the planned outcomes' points and of the chosen shapes'
      points. */
  function PlanScore(plan: seq<(Shape, Outcome)>): nat {
    if |plan| == 0 then 0
    else
      var last := plan[|plan| - 1];
      PlanScore(plan[..|plan| - 1]) + ShapeScore(Choose(last.0, last.1)) + OutcomeScore(last.1)
  }

  /** Following the plan earns exactly the outcomes it asks for. */
  lemma {:induction false} PlannedScore(plan: seq<(Shape, Outcome)>)
    ensures Score(Planned(plan)) == PlanScore(plan)
    decreases |plan|
  {
    if |plan| > 0 {
      var init := plan[..|plan| - 1];
      assert Planned(plan)[..|plan| - 1] == Planned(init);
      PlannedScore(init);
    }
  }

  // ---------------------------------------------------------------------------
  // The example guide "A Y", "B X", "C Z"

  const SampleRounds: seq<(Shape, Shape)> := [(Rock, Paper), (Paper, Rock), (Scissor, Scissor)]
  const SamplePlan: seq<(Shape, Outcome)> := [(Rock, Draw), (Paper, Loss), (Scissor, Win)]

  /** The example's lines parse as the test expects. */
  lemma SampleLine1()
    ensures ParseShapes("A Y") == Some(SampleRounds[0]) && ParseStrategy("A Y") == Some(SamplePlan[0])
  {
    ParseLine("A", "Y");
  }

  lemma SampleLine2()
    ensures ParseShapes("B X") == Some(SampleRounds[1]) && ParseStrategy("B X") == Some(SamplePlan[1])
  {
    ParseLine("B", "X");
  }

  lemma SampleLine3()
    ensures ParseShapes("C Z") == Some(SampleRounds[2]) && ParseStrategy("C Z") == Some(SamplePlan[2])
  {
    ParseLine("C", "Z");
  }

  /** The example scores 15 read as shapes and 12 read as a plan. */
  lemma SampleScores()
    ensures Score(SampleRounds) == 15
    ensures Score(Planned(SamplePlan)) == 12
  {
    assert RoundScore(Rock, Paper) == 8 && RoundScore(Paper, Rock) == 1 && RoundScore(Scissor, Scissor) == 6;
    assert SampleRounds[..2] == [(Rock, Paper), (Paper, Rock)];
    assert SampleRounds[..2][..1] == [(Rock, Paper)];
    assert [(Rock, Paper)][..0] == [];
    PlannedScore(SamplePlan);
    assert SamplePlan[..2] == [(Rock, Draw), (Paper, Loss)];
    assert SamplePlan[..2][..1] == [(Rock, Draw)];
    assert [(Rock, Draw)][..0] == [];
  }
}

=== FILE: day03_rucksack.dfy ===
/** Rucksack reorganization: the item types of a rucksack as a set of bit
    positions, the type two compartments (or three elves) share, and its
    priority. */
module Rucksack {
  import opened Text

  predicate IsLetter(c: char) {
    'a' <= c <= 'z' || 'A' <= c <= 'Z'
  }

  predicate AllLetters(s: string) {
    forall k :: 0 <= k < |s| ==> IsLetter(s[k])
  }

  /** The bit of an item type: 'a' to 'z' are 0 to 25, 'A' to 'Z' are 26 to
      51. */
  function Bit(c: char): (n: nat)
    requires IsLetter(c)
    ensures n < 52
    ensures 'a' <= c <= 'z' ==> n < 26
  {
    if 'a' <= c <= 'z' then (c as int) - ('a' as int) else (c as int) - ('A' as int) + 26
  }

  /** Different letters have different bits. */
  lemma BitInjective(c: char, d: char)
    requires IsLetter(c) && IsLetter(d)
    ensures Bit(c) == Bit(d) <==> c == d
  {
  }

  /** `bits`: every item's bit OR-ed together (a letter outside a-z and A-Z
      is `unreachable!`). */
  function Bits(line: string): (s: set<nat>)
    requires AllLetters(line)
    ensures forall k :: k in s ==> k < 52
    ensures forall i :: 0 <= i < |line| ==> Bit(line[i]) in s
  {
    if |line| == 0 then {}
    else
      assert forall i :: 1 <= i < |line| ==> line[i] == line[1..][i - 1];
      {Bit(line[0])} + Bits(line[1..])
  }

  /** The set holds the bit of every item of the line, and nothing else. */
  lemma {:induction false} BitsMembers(line: string, c: char)
    requires AllLetters(line) && IsLetter(c)
    ensures Bit(c) in Bits(line) <==> c in line
    decreases |line|
  {
    if |line| > 0 {
      BitsMembers(line[1..], c);
      BitInjective(c, line[0]);
      assert line == [line[0]] + line[1..];
    }
  }

  lemma {:induction false} BitsOnlyItems(line: string, k: nat)
    requires AllLetters(line)
    ensures k in Bits(line) ==> exists i :: 0 <= i < |line| && Bit(line[i]) == k
    decreases |line|
  {
    if |line| > 0 && k in Bits(line[1..]) {
      BitsOnlyItems(line[1..], k);
      var i :| 0 <= i < |line[1..]| && Bit(line[1..][i]) == k;
      assert line[i + 1] == line[1..][i];
    }
  }

  /** The bits of the item types both lines hold. */
  lemma SharedItems(a: string, b: string, k: nat)
    requires AllLetters(a) && AllLetters(b)
    ensures k in Bits(a) * Bits(b) <==> exists c :: c in a && c in b && IsLetter(c) && Bit(c) == k
  {
    BitsOnlyItems(a, k);
    if k in Bits(a) * Bits(b) {
      var i :| 0 <= i < |a| && Bit(a[i]) == k;
      BitsMembers(b, a[i]);
    } else {
      forall c | c in a && c in b && IsLetter(c)
        ensures Bit(c) != k
      {
        BitsMembers(a, c);
        BitsMembers(b, c);
      }
    }
  }

  /** `u64::BITS - leading_zeros`, with the bits below `n` as the candidates:
      one more than the highest set bit below `n`, or 0 when none is set. */
  function Highest(s: set<nat>, n: nat): (r: nat)
    ensures r <= n
    ensures r == 0 <==> forall k :: k < n ==> k !in s
    ensures r > 0 ==> r - 1 in s && forall k :: r <= k < n ==> k !in s
  {
    if n == 0 then 0 else if n - 1 in s then n else Highest(s, n - 1)
  }

  /** The priority of the shared item types: one more than the highest bit
      of a 64-bit mask, so 0 when nothing is shared. */
  function Priority(common: set<nat>): (p: nat)
    ensures p <= 64
    ensures p == 0 <==> forall k :: k < 64 ==> k !in common
    ensures p > 0 ==> p - 1 in common && forall k :: p <= k < 64 ==> k !in common
  {
    Highest(common, 64)
  }

  /** With the bits of item types, the priority is that of the highest
      item type shared: a to z are 1 to 26, A to Z are 27 to 52. */
  lemma PriorityIsHighestBit(common: set<nat>)
    requires forall k :: k in common ==> k < 52
    ensures common == {} ==> Priority(common) == 0
    ensures common != {} ==>
      Priority(common) - 1 in common && (forall k :: k in common ==> k < Priority(common))
  {
    if common != {} {
      var k :| k in common;
    }
  }

  lemma PriorityOfLetter(c: char)
    requires IsLetter(c)
    ensures Priority({Bit(c)}) == Bit(c) + 1
  {
    PriorityIsHighestBit({Bit(c)});
  }

  lemma LetterPriorities()
    ensures Priority({Bit('a')}) == 1 && Priority({Bit('z')}) == 26
    ensures Priority({Bit('A')}) == 27 && Priority({Bit('Z')}) == 52
  {
    PriorityOfLetter('a');
    PriorityOfLetter('z');
    PriorityOfLetter('A');
    PriorityOfLetter('Z');
  }

  // ---------------------------------------------------------------------------
  // The two parts

  predicate AllRucksacks(lines: seq<string>) {
    forall k :: 0 <= k < |lines| ==> AllLetters(lines[k])
  }

  predicate ValidRucksacks(input: string) {
    AllRucksacks(Lines(input))
  }

  /** part one's score of a line: split at half its length, the two halves'
      shared priority. */
  function Misplaced(line: string): (p: nat)
    requires AllLetters(line)
    ensures AllLetters(line[..|line| / 2]) && AllLetters(line[|line| / 2..])
    ensures p <= 52
    ensures p == 0 <==> Bits(line[..|line| / 2]) * Bits(line[|line| / 2..]) == {}
    ensures p > 0 ==> p - 1 in Bits(line[..|line| / 2]) * Bits(line[|line| / 2..])
    ensures forall k :: k in Bits(line[..|line| / 2]) * Bits(line[|line| / 2..]) ==> k < p
  {
    var half := |line| / 2;
    var (a, b) := (line[..half], line[half..]);
    assert AllLetters(a) && AllLetters(b) by {
      assert forall k :: 0 <= k < |b| ==> b[k] == line[half + k];
    }
    PriorityIsHighestBit(Bits(a) * Bits(b));
    Priority(Bits(a) * Bits(b))
  }

  function SumMisplaced(lines: seq<string>): (n: nat)
    requires AllRucksacks(lines)
    ensures n <= 52 * |lines|
  {
    if |lines| == 0 then 0 else Misplaced(lines[0]) + SumMisplaced(lines[1..])
  }

  /** `part1`. */
  function Part1(input: string): (n: nat)
    requires ValidRucksacks(input)
    ensures n <= 52 * |Lines(input)|
  {
    SumMisplaced(Lines(input))
  }

  /** part two's score of a group: the priority of the badge, the type all
      three carry. */
  function Badge(a: string, b: string, c: string): (p: nat)
    requires AllLetters(a) && AllLetters(b) && AllLetters(c)
    ensures p <= 52
    ensures p == 0 <==> Bits(a) * Bits(b) * Bits(c) == {}
    ensures p > 0 ==> p - 1 in Bits(a) * Bits(b) * Bits(c)
    ensures forall k :: k in Bits(a) * Bits(b) * Bits(c) ==> k < p
  {
    PriorityIsHighestBit(Bits(a) * Bits(b) * Bits(c));
    Priority(Bits(a) * Bits(b) * Bits(c))
  }

  /** A rucksack whose two equally large compartments `a` and `b` share
      exactly one item type scores that type's priority. */
  lemma MisplacedOfOneShared(a: string, b: string, c: char)
    requires |a| == |b|
    requires AllLetters(a) && AllLetters(b) && IsLetter(c)
    requires c in a && c in b
    requires forall d :: d in a && d in b ==> d == c
    ensures AllLetters(a + b) && Misplaced(a + b) == Bit(c) + 1
  {
    var line := a + b;
    assert line[..|line| / 2] == a && line[|line| / 2..] == b;
    forall k: nat
      ensures k in Bits(a) * Bits(b) <==> k == Bit(c)
    {
      SharedItems(a, b, k);
      if k in Bits(a) * Bits(b) {
        var d :| d in a && d in b && IsLetter(d) && Bit(d) == k;
      }
    }
    assert Bits(a) * Bits(b) == {Bit(c)};
    PriorityOfLetter(c);
  }

  /** A group of three whose rucksacks have exactly one item type in common
      scores the priority of that type, the badge. */
  lemma BadgeOfOneShared(a: string, b: string, c: string, x: char)
    requires AllLetters(a) && AllLetters(b) && AllLetters(c) && IsLetter(x)
    requires x in a && x in b && x in c
    requires forall d :: d in a && d in b && d in c ==> d == x
    ensures Badge(a, b, c) == Bit(x) + 1
  {
    forall k: nat
      ensures k in Bits(a) * Bits(b) * Bits(c) <==> k == Bit(x)
    {
      SharedItems(a, b, k);
      BitsMembers(c, x);
      if k in Bits(a) * Bits(b) {
        var d :| d in a && d in b && IsLetter(d) && Bit(d) == k;
        BitsMembers(c, d);
      }
    }
    assert Bits(a) * Bits(b) * Bits(c) == {Bit(x)};
    PriorityOfLetter(x);
  }

  /** The example's rucksacks, one per line, each written as its two
      compartments. */
  const SampleLines: seq<string> := [
    "vJrwpWtwJgWr" + "hcsFMMfFFhFp",
    "jqHRNqRjqzjGDLGL" + "rsFMfFZSrLrFZsSL",
    "PmmdzqPrV" + "vPwwTWBwg",
    "wMqvLMZHhHMvwLH" + "jbvcjnnSBnvTQFn",
    "ttgJtRGJ" + "QctTZtZT",
    "CrZsJsPPZsGz" + "wwsLwLmpwMDw"
  ]

  /** Every item of the example is a letter. */
  lemma SampleLetters()
    ensures AllRucksacks(SampleLines)
  {
    assert AllLetters("vJrwpWtwJgWr" + "hcsFMMfFFhFp");
    assert AllLetters("jqHRNqRjqzjGDLGL" + "rsFMfFZSrLrFZsSL");
    assert AllLetters("PmmdzqPrV" + "vPwwTWBwg");
    assert AllLetters("wMqvLMZHhHMvwLH" + "jbvcjnnSBnvTQFn");
    assert AllLetters("ttgJtRGJ" + "QctTZtZT");
    assert AllLetters("CrZsJsPPZsGz" + "wwsLwLmpwMDw");
  }

  /** The example's rucksack 1: both compartments hold 'p', priority 16. */
  lemma SampleRucksack1()
    ensures AllLetters(SampleLines[0]) && Misplaced(SampleLines[0]) == 16
  {
    assert SampleLines[0] == "vJrwpWtwJgWr" + "hcsFMMfFFhFp";
    MisplacedOfOneShared("vJrwpWtwJgWr", "hcsFMMfFFhFp", 'p');
  }

  /** The example's rucksack 2: both compartments hold 'L', priority 38. */
  lemma SampleRucksack2()
    ensures AllLetters(SampleLines[1]) && Misplaced(SampleLines[1]) == 38
  {
    assert SampleLines[1] == "jqHRNqRjqzjGDLGL" + "rsFMfFZSrLrFZsSL";
    MisplacedOfOneShared("jqHRNqRjqzjGDLGL", "rsFMfFZSrLrFZsSL", 'L');
  }

  /** The example's rucksack 3: both compartments hold 'P', priority 42. */
  lemma SampleRucksack3()
    ensures AllLetters(SampleLines[2]) && Misplaced(SampleLines[2]) == 42
  {
    assert SampleLines[2] == "PmmdzqPrV" + "vPwwTWBwg";
    MisplacedOfOneShared("PmmdzqPrV", "vPwwTWBwg", 'P');
  }

  /** The example's rucksack 4: both compartments hold 'v', priority 22. */
  lemma SampleRucksack4()
    ensures AllLetters(SampleLines[3]) && Misplaced(SampleLines[3]) == 22
  {
    assert SampleLines[3] == "wMqvLMZHhHMvwLH" + "jbvcjnnSBnvTQFn";
    MisplacedOfOneShared("wMqvLMZHhHMvwLH", "jbvcjnnSBnvTQFn", 'v');
  }

  /** The example's rucksack 5: both compartments hold 't', priority 20. */
  lemma SampleRucksack5()
    ensures AllLetters(SampleLines[4]) && Misplaced(SampleLines[4]) == 20
  {
    assert SampleLines[4] == "ttgJtRGJ" + "QctTZtZT";
    MisplacedOfOneShared("ttgJtRGJ", "QctTZtZT", 't');
  }

  /** The example's rucksack 6: both compartments hold 's', priority 19. */
  lemma SampleRucksack6()
    ensures AllLetters(SampleLines[5]) && Misplaced(SampleLines[5]) == 19
  {
    assert SampleLines[5] == "CrZsJsPPZsGz" + "wwsLwLmpwMDw";
    MisplacedOfOneShared("CrZsJsPPZsGz", "wwsLwLmpwMDw", 's');
  }

  /** The example's part one: 16 + 38 + 42 + 22 + 20 + 19. */
  lemma SamplePart1()
    ensures AllRucksacks(SampleLines) && SumMisplaced(SampleLines) == 157
  {
    SampleLetters();
    SampleRucksack1();
    SampleRucksack2();
    SampleRucksack3();
    SampleRucksack4();
    SampleRucksack5();
    SampleRucksack6();
    SumOfScores(SampleLines);
  }

  /** The example as text, its lines joined with a final line break: valid
      input, and part one is 157. */
  lemma SampleText(input: string)
    requires input == JoinLines(SampleLines) + "\n"
    ensures ValidRucksacks(input) && Part1(input) == 157
  {
    SamplePart1();
    LettersArePlain(SampleLines);
    LinesOfJoined(SampleLines, "\n");
  }

  /** Lines of letters hold no line break and no final `\r`. */
  lemma LettersArePlain(lines: seq<string>)
    requires AllRucksacks(lines)
    ensures PlainLines(lines)
  {
    forall k | 0 <= k < |lines|
      ensures PlainLine(lines[k])
    {
      assert AllLetters(lines[k]);
    }
  }

  /** Six lines scoring as the example's do add up to 157. */
  lemma SumOfScores(l: seq<string>)
    requires |l| == 6 && AllRucksacks(l)
    requires Misplaced(l[0]) == 16 && Misplaced(l[1]) == 38 && Misplaced(l[2]) == 42
    requires Misplaced(l[3]) == 22 && Misplaced(l[4]) == 20 && Misplaced(l[5]) == 19
    ensures SumMisplaced(l) == 157
  {
    SumOfSix(l);
  }

  /** Part one over six lines is the six lines' scores added up. */
  lemma SumOfSix(l: seq<string>)
    requires |l| == 6 && AllRucksacks(l)
    ensures SumMisplaced(l) ==
      Misplaced(l[0]) + Misplaced(l[1]) + Misplaced(l[2]) + Misplaced(l[3]) + Misplaced(l[4]) + Misplaced(l[5])
  {
    SumFrom(l, 0);
    SumFrom(l, 1);
    SumFrom(l, 2);
    SumFrom(l, 3);
    SumFrom(l, 4);
    SumFrom(l, 5);
    assert l[0..] == l;
  }

  /** One step of the sum over the lines from `k` on. */
  lemma SumFrom(l: seq<string>, k: nat)
    requires k < |l| && AllRucksacks(l)
    ensures AllRucksacks(l[k..]) && AllRucksacks(l[k + 1..])
    ensures SumMisplaced(l[k..]) == Misplaced(l[k]) + SumMisplaced(l[k + 1..])
  {
    assert l[k..][1..] == l[k + 1..];
  }

  /** The lines `tuples()` reads: every line of a complete group of three
      holds only letters. The one or two lines after the last complete group
      are never read, so they may hold anything. */
  predicate GroupedRucksacks(lines: seq<string>) {
    forall k :: 0 <= k < 3 * (|lines| / 3) ==> AllLetters(lines[k])
  }

  predicate ValidGroups(input: string) {
    GroupedRucksacks(Lines(input))
  }

  /** `tuples()`: consecutive groups of three; an incomplete last group is
      dropped. */
  function SumBadges(lines: seq<string>): (n: nat)
    requires GroupedRucksacks(lines)
    ensures n <= 52 * (|lines| / 3)
  {
    if |lines| < 3 then 0
    else
      assert |lines[3..]| / 3 == |lines| / 3 - 1;
      assert forall k :: 0 <= k < |lines[3..]| ==> lines[3..][k] == lines[k + 3];
      Badge(lines[0], lines[1], lines[2]) + SumBadges(lines[3..])
  }

  /** Only whole groups count: the lines after the last one change nothing. */
  lemma {:induction false} IncompleteGroupDropped(lines: seq<string>)
    requires GroupedRucksacks(lines)
    ensures AllRucksacks(lines[..3 * (|lines| / 3)])
    ensures SumBadges(lines) == SumBadges(lines[..3 * (|lines| / 3)])
    decreases |lines|
  {
    var whole := lines[..3 * (|lines| / 3)];
    assert |whole| / 3 == |lines| / 3;
    if |lines| >= 3 {
      var rest := lines[3..];
      assert |rest| / 3 == |lines| / 3 - 1;
      assert forall k :: 0 <= k < |rest| ==> rest[k] == lines[k + 3];
      IncompleteGroupDropped(rest);
      assert whole[0] == lines[0] && whole[1] == lines[1] && whole[2] == lines[2];
      assert whole[3..] == rest[..3 * (|rest| / 3)];
      assert SumBadges(whole) == Badge(lines[0], lines[1], lines[2]) + SumBadges(whole[3..]);
    }
  }

  /** A last line that does not complete a group is not read: after one
      group of three `a`s, a line `1` is accepted, and part two is `a`'s
      priority. */
  lemma TrailingLineUnread(input: string)
    requires input == JoinLines(["a", "a", "a", "1"])
    ensures ValidGroups(input) && Part2(input) == 1
  {
    var lines := ["a", "a", "a", "1"];
    assert PlainLines(lines) by {
      assert forall k :: 0 <= k < |lines| ==> |lines[k]| == 1 && lines[k][0] != '\n';
    }
    LinesOfJoined(lines, "");
    assert input + "" == input;
    assert AllLetters("a");
    assert lines[3..] == ["1"];
    BadgeOfOneShared("a", "a", "a", 'a');
  }

  /** `part2`. */
  function Part2(input: string): (n: nat)
    requires ValidGroups(input)
    ensures n <= 52 * (|Lines(input)| / 3)
  {
    SumBadges(Lines(input))
  }
}

=== FILE: day04_camp.dfy ===
/** Camp cleanup: pairs of section ranges, and how often one range of a
    pair contains, or overlaps, the other. */
module CampCleanup {
  import opened Text

  /** `RangeInclusive<u8>`: `lo..=hi`, empty when `hi < lo`. */
  datatype Range = Range(lo: nat, hi: nat)

  /** `RangeInclusive::contains`. */
  predicate Contains(r: Range, x: nat) {
    r.lo <= x <= r.hi
  }

  // ---------------------------------------------------------------------------
  // Parsing

  /** Rust's `u8`. */
  const SectionBound: nat := 256

  /** `parse_number`: one or more digits read as a `u8` (a larger value is a
      parse error); with the text after them. */
  function ParseNumber(s: string): (r: Option<(nat, string)>)
    ensures r.Some? ==> r.value.0 < SectionBound && |r.value.1| < |s|
  {
    var n := DigitSpan(s);
    if n == 0 || DecimalValue(s[..n]) >= SectionBound then None
    else Some((DecimalValue(s[..n]), s[n..]))
  }

  /** `tag(c)`: the text after a leading `c`. */
  function Tag(s: string, c: char): Option<string> {
    if |s| > 0 && s[0] == c then Some(s[1..]) else None
  }

  /** `parse_range`: a number, '-', a number. */
  function ParseRange(s: string): Option<(Range, string)> {
    match ParseNumber(s)
    case None => None
    case Some((a, t)) =>
      match Tag(t, '-')
      case None => None
      case Some(u) =>
        match ParseNumber(u)
        case None => None
        case Some((b, v)) => Some((Range(a, b), v))
  }

  /** `parse`: a range, ',', a range; whatever follows is left unread. */
  function ParsePair(s: string): Option<(Range, Range)> {
    match ParseRange(s)
    case None => None
    case Some((a, t)) =>
      match Tag(t, ',')
      case None => None
      case Some(u) =>
        match ParseRange(u)
        case None => None
        case Some((b, _)) => Some((a, b))
  }

  function ShowRange(r: Range): string {
    NatToString(r.lo) + "-" + NatToString(r.hi)
  }

  lemma ParseNumberOf(n: nat, rest: string)
    requires n < SectionBound
    requires |rest| == 0 || !IsDigit(rest[0])
    ensures ParseNumber(NatToString(n) + rest) == Some((n, rest))
  {
    var d := NatToString(n);
    DigitSpanOfDigitsThen(d, rest);
    DecimalValueOfNatToString(n);
    assert (d + rest)[..|d|] == d && (d + rest)[|d|..] == rest;
  }

  lemma ParseRangeOf(r: Range, rest: string)
    requires r.lo < SectionBound && r.hi < SectionBound
    requires |rest| == 0 || !IsDigit(rest[0])
    ensures ParseRange(ShowRange(r) + rest) == Some((r, rest))
  {
    var hi := NatToString(r.hi) + rest;
    assert ShowRange(r) + rest == NatToString(r.lo) + ("-" + hi);
    ParseNumberOf(r.lo, "-" + hi);
    assert ("-" + hi)[1..] == hi;
    ParseNumberOf(r.hi, rest);
  }

  /** Every pair of `u8` ranges, written "a-b,c-d", parses back to itself. */
  lemma ParsePairOf(a: Range, b: Range)
    requires a.lo < SectionBound && a.hi < SectionBound
    requires b.lo < SectionBound && b.hi < SectionBound
    ensures ParsePair(ShowRange(a) + "," + ShowRange(b)) == Some((a, b))
  {
    var tail := "," + ShowRange(b);
    assert ShowRange(a) + "," + ShowRange(b) == ShowRange(a) + tail;
    ParseRangeOf(a, tail);
    assert tail[1..] == ShowRange(b);
    assert ShowRange(b) + "" == ShowRange(b);
    ParseRangeOf(b, "");
  }

  /** The example line of the range parser's own test. */
  lemma SampleParse()
    ensures ParsePair("2-4,6-8") == Some((Range(2, 4), Range(6, 8)))
  {
    ParsePairOf(Range(2, 4), Range(6, 8));
    assert NatToString(2) == "2" && NatToString(4) == "4";
    assert NatToString(6) == "6" && NatToString(8) == "8";
    assert ShowRange(Range(2, 4)) + "," + ShowRange(Range(6, 8)) == "2-4,6-8";
  }

  // ---------------------------------------------------------------------------
  // Containment and overlap

  /** `contains_range`: both ends of `other` lie in `self`. For a non-empty
      `other`, that is every section of `other` lying in `self`. */
  predicate ContainsRange(self: Range, other: Range): (b: bool)
    ensures NonEmpty(other) ==> (b <==> forall x :: Contains(other, x) ==> Contains(self, x))
  {
    assert NonEmpty(other) ==> Contains(other, other.lo) && Contains(other, other.hi);
    Contains(self, other.lo) && Contains(self, other.hi)
  }

  /** `overlaps`: one end of `other` lies in `self`. Then, when `other` is
      not empty, the two ranges share a section. */
  predicate Overlaps(self: Range, other: Range): (b: bool)
    ensures b && NonEmpty(other) ==> exists x :: Contains(self, x) && Contains(other, x)
  {
    assert NonEmpty(other) ==> Contains(other, other.lo) && Contains(other, other.hi);
    Contains(self, other.lo) || Contains(self, other.hi)
  }

  predicate NonEmpty(r: Range) {
    r.lo <= r.hi
  }

  /** A range contains itself exactly when it is not empty. */
  lemma ContainsRangeReflexive(r: Range)
    ensures ContainsRange(r, r) <==> NonEmpty(r)
  {
  }

  lemma ContainsImpliesOverlaps(a: Range, b: Range)
    ensures ContainsRange(a, b) ==> Overlaps(a, b)
  {
  }

  /** `overlaps` on its own is not symmetric: `2..=8` overlaps `3..=7`, but
      neither end of `2..=8` lies in `3..=7`. */
  lemma OverlapsNotSymmetric()
    ensures Overlaps(Range(2, 8), Range(3, 7)) && !Overlaps(Range(3, 7), Range(2, 8))
  {
  }

  /** Testing both directions, as part two does, is exactly "some section
      lies in both" for non-empty ranges. */
  lemma EitherOverlapsIffIntersect(a: Range, b: Range)
    requires NonEmpty(a) && NonEmpty(b)
    ensures (Overlaps(a, b) || Overlaps(b, a)) <==> exists x :: Contains(a, x) && Contains(b, x)
  {
    if Overlaps(a, b) {
      if Contains(a, b.lo) {
        assert Contains(b, b.lo);
      } else {
        assert Contains(b, b.hi);
      }
    } else if Overlaps(b, a) {
      if Contains(b, a.lo) {
        assert Contains(a, a.lo);
      } else {
        assert Contains(a, a.hi);
      }
    }
  }

  /** With an empty range the two directions do not mean "intersect": `5..=3`
      has no section, yet `1..=9` contains its ends. */
  lemma EmptyRangeOverlaps()
    ensures Overlaps(Range(1, 9), Range(5, 3))
    ensures !exists x :: Contains(Range(1, 9), x) && Contains(Range(5, 3), x)
  {
  }

  // ---------------------------------------------------------------------------
  // The two parts

  predicate ValidPairs(input: string) {
    forall k :: 0 <= k < |Lines(input)| ==> ParsePair(Lines(input)[k]).Some?
  }

  /** `from_string` on every line. */
  function Pairs(input: string): (pairs: seq<(Range, Range)>)
    requires ValidPairs(input)
    ensures |pairs| == |Lines(input)|
  {
    var ls := Lines(input);
    seq(|ls|, k requires 0 <= k < |ls| => ParsePair(ls[k]).value)
  }

  predicate OneContainsOther(p: (Range, Range)) {
    ContainsRange(p.0, p.1) || ContainsRange(p.1, p.0)
  }

  predicate EitherOverlaps(p: (Range, Range)) {
    Overlaps(p.0, p.1) || Overlaps(p.1, p.0)
  }

  /** The number of pairs where one range contains the other. */
  function CountContaining(pairs: seq<(Range, Range)>): (n: nat)
    ensures n <= |pairs|
  {
    if |pairs| == 0 then 0
    else (if OneContainsOther(pairs[0]) then 1 else 0) + CountContaining(pairs[1..])
  }

  /** The number of pairs that overlap. */
  function CountOverlapping(pairs: seq<(Range, Range)>): (n: nat)
    ensures n <= |pairs|
  {
    if |pairs| == 0 then 0
    else (if EitherOverlaps(pairs[0]) then 1 else 0) + CountOverlapping(pairs[1..])
  }

  /** A pair where one range contains the other overlaps, so part two never
      counts fewer pairs than part one. */
  lemma {:induction false} ContainingAtMostOverlapping(pairs: seq<(Range, Range)>)
    ensures CountContaining(pairs) <= CountOverlapping(pairs)
    decreases |pairs|
  {
    if |pairs| > 0 {
      ContainsImpliesOverlaps(pairs[0].0, pairs[0].1);
      ContainsImpliesOverlaps(pairs[0].1, pairs[0].0);
      ContainingAtMostOverlapping(pairs[1..]);
    }
  }

  /** `part1`. */
  function Part1(input: string): (n: nat)
    requires ValidPairs(input)
    ensures n <= |Lines(input)|
  {
    CountContaining(Pairs(input))
  }

  /** `part2`. */
  function Part2(input: string): (n: nat)
    requires ValidPairs(input)
    ensures n <= |Lines(input)|
  {
    CountOverlapping(Pairs(input))
  }

  lemma Part1AtMostPart2(input: string)
    requires ValidPairs(input)
    ensures Part1(input) <= Part2(input)
  {
    ContainingAtMostOverlapping(Pairs(input));
  }

  /** A pair as the input writes it, "a-b,c-d". */
  function ShowPair(p: (Range, Range)): string {
    ShowRange(p.0) + "," + ShowRange(p.1)
  }

  /** A pair whose four ends are sections a `u8` holds. */
  predicate Printable(p: (Range, Range)) {
    p.0.lo < SectionBound && p.0.hi < SectionBound && p.1.lo < SectionBound && p.1.hi < SectionBound
  }

  /** An input listing `pairs`, one per line. */
  function Printed(pairs: seq<(Range, Range)>): string {
    Terminated(seq(|pairs|, k requires 0 <= k < |pairs| => ShowPair(pairs[k])))
  }

  lemma ShowPairPlain(p: (Range, Range))
    ensures PlainLine(ShowPair(p))
  {
    DigitsPlain(NatToString(p.0.lo));
    DigitsPlain(NatToString(p.0.hi));
    DigitsPlain(NatToString(p.1.lo));
    DigitsPlain(NatToString(p.1.hi));
    PlainConcat(NatToString(p.0.lo), "-");
    PlainConcat(NatToString(p.0.lo) + "-", NatToString(p.0.hi));
    PlainConcat(ShowRange(p.0), ",");
    PlainConcat(NatToString(p.1.lo), "-");
    PlainConcat(NatToString(p.1.lo) + "-", NatToString(p.1.hi));
    PlainConcat(ShowRange(p.0) + ",", ShowRange(p.1));
  }

  /** Reading a printed list of pairs gives back the pairs. */
  lemma PairsOfPrinted(pairs: seq<(Range, Range)>)
    requires forall k :: 0 <= k < |pairs| ==> Printable(pairs[k])
    ensures ValidPairs(Printed(pairs)) && Pairs(Printed(pairs)) == pairs
  {
    var ls := seq(|pairs|, k requires 0 <= k < |pairs| => ShowPair(pairs[k]));
    forall k | 0 <= k < |ls|
      ensures PlainLine(ls[k])
    {
      ShowPairPlain(pairs[k]);
    }
    LinesOfTerminated(ls);
    forall k | 0 <= k < |ls|
      ensures ParsePair(ls[k]) == Some(pairs[k])
    {
      ParsePairOf(pairs[k].0, pairs[k].1);
    }
  }

  /** The example's pairs. */
  const SamplePairs: seq<(Range, Range)> := [
    (Range(2, 4), Range(6, 8)), (Range(2, 3), Range(4, 5)), (Range(5, 7), Range(7, 9)),
    (Range(2, 8), Range(3, 7)), (Range(6, 6), Range(4, 6)), (Range(2, 6), Range(4, 8))
  ]

  /** The answers for a printed list of pairs are the counts over the
      pairs. */
  lemma PartsOfPrinted(pairs: seq<(Range, Range)>)
    requires forall k :: 0 <= k < |pairs| ==> Printable(pairs[k])
    ensures ValidPairs(Printed(pairs))
    ensures Part1(Printed(pairs)) == CountContaining(pairs)
    ensures Part2(Printed(pairs)) == CountOverlapping(pairs)
  {
    PairsOfPrinted(pairs);
  }

  lemma SamplePairCounts(s: seq<(Range, Range)>)
    requires s == SamplePairs
    ensures CountContaining(s) == 2 && CountOverlapping(s) == 4
  {
    assert s[1..][1..][1..][1..][1..][1..] == [];
  }

  /** Two of the example's pairs have one range inside the other, four
      overlap: the answers for the example's text. */
  lemma SampleCounts(s: seq<(Range, Range)>)
    requires s == SamplePairs
    ensures ValidPairs(Printed(s)) && Part1(Printed(s)) == 2 && Part2(Printed(s)) == 4
  {
    assert forall k :: 0 <= k < |s| ==> Printable(s[k]);
    PartsOfPrinted(s);
    SamplePairCounts(s);
  }
}

=== FILE: day05_stacks.dfy ===
/** Supply stacks: the drawing of the crate stacks and the rearrangement
    procedure, the transposition of the drawing into stacks, and the two
    cranes, one moving a crate at a time and one moving a block at once. */
module SupplyStacks {
  import opened Text

  // ---------------------------------------------------------------------------
  // The drawing

  /** `box`: "[X]" with an upper-case letter is a crate, three spaces are an
      empty place; either takes three characters. */
  function ParseBox(s: string): (r: Option<Option<char>>)
    ensures r.Some? ==> |s| >= 3
    ensures r == Some(None) <==> |s| >= 3 && s[..3] == "   "
    ensures r.Some? && r.value.Some? <==> |s| >= 3 && s[0] == '[' && 'A' <= s[1] <= 'Z' && s[2] == ']'
    ensures r.Some? && r.value.Some? ==> r.value.value == s[1]
  {
    if |s| >= 3 && s[0] == '[' && 'A' <= s[1] <= 'Z' && s[2] == ']' then Some(Some(s[1]))
    else if |s| >= 3 && s[..3] == "   " then Some(None)
    else None
  }

  /** The boxes after the first of a layer: each is a single space and a
      box; the repetition stops before a space not followed by a box. */
  function MoreBoxes(s: string): (r: (seq<Option<char>>, string))
    ensures |r.1| <= |s|
    decreases |s|
  {
    if |s| >= 1 && s[0] == ' ' && ParseBox(s[1..]).Some? then
      var rest := MoreBoxes(s[4..]);
      ([ParseBox(s[1..]).value] + rest.0, rest.1)
    else ([], s)
  }

  /** `layer`: one or more boxes separated by single spaces, then an optional
      line break. */
  function ParseLayer(s: string): (r: Option<(seq<Option<char>>, string)>)
    ensures r.Some? ==> |r.value.0| >= 1 && |r.value.1| < |s|
  {
    match ParseBox(s)
    case None => None
    case Some(b) =>
      var more := MoreBoxes(s[3..]);
      var rest := if |more.1| > 0 && more.1[0] == '\n' then more.1[1..] else more.1;
      Some(([b] + more.0, rest))
  }

  /** `layer()*`: as many layers as parse, top one first. */
  function Layers(s: string): (r: seq<seq<Option<char>>>)
    ensures forall i :: 0 <= i < |r| ==> |r[i]| >= 1
    decreases |s|
  {
    match ParseLayer(s)
    case None => []
    case Some((layer, rest)) => [layer] + Layers(rest)
  }

  /** `Vec::reverse`. */
  function Reverse<T>(s: seq<T>): (r: seq<T>)
    ensures |r| == |s|
  {
    if |s| == 0 then [] else Reverse(s[1..]) + [s[0]]
  }

  lemma {:induction false} ReverseIndex<T>(s: seq<T>, k: nat)
    requires k < |s|
    ensures Reverse(s)[k] == s[|s| - 1 - k]
    decreases |s|
  {
    if k < |s| - 1 {
      ReverseIndex(s[1..], k);
    }
  }

  /** The crates of a box, as a sequence of at most one element. */
  function Crate(b: Option<char>): seq<char> {
    if b.Some? then [b.value] else []
  }

  predicate Wide(layers: seq<seq<Option<char>>>, col: nat) {
    forall i :: 0 <= i < |layers| ==> col < |layers[i]|
  }

  /** The stack drawn in column `col` of the layers, bottom crate first: the
      bottom layer is the last one. */
  function Column(layers: seq<seq<Option<char>>>, col: nat): (r: seq<char>)
    requires Wide(layers, col)
    ensures |r| <= |layers|
  {
    if |layers| == 0 then []
    else Column(layers[1..], col) + Crate(layers[0][col])
  }

  /** A column full of crates lists them from the bottom layer up to the top
      one. */
  lemma {:induction false} FullColumn(layers: seq<seq<Option<char>>>, col: nat)
    requires Wide(layers, col)
    requires forall i :: 0 <= i < |layers| ==> layers[i][col].Some?
    ensures Column(layers, col) == seq(|layers|, k requires 0 <= k < |layers| => layers[|layers| - 1 - k][col].value)
    decreases |layers|
  {
    if |layers| > 0 {
      var rest := layers[1..];
      assert forall i :: 0 <= i < |rest| ==> rest[i] == layers[i + 1];
      FullColumn(rest, col);
      var below := seq(|rest|, k requires 0 <= k < |rest| => rest[|rest| - 1 - k][col].value);
      var all := seq(|layers|, k requires 0 <= k < |layers| => layers[|layers| - 1 - k][col].value);
      assert all == below + [layers[0][col].value];
    }
  }

  /** A column without crates is an empty stack. */
  lemma {:induction false} EmptyColumn(layers: seq<seq<Option<char>>>, col: nat)
    requires Wide(layers, col)
    requires forall i :: 0 <= i < |layers| ==> layers[i][col].None?
    ensures Column(layers, col) == []
    decreases |layers|
  {
    if |layers| > 0 {
      EmptyColumn(layers[1..], col);
    }
  }

  /** `transpose` needs a first layer and, because it pops one box per
      column of the first layer from every layer, no layer narrower than the
      first; boxes beyond that width are dropped. */
  predicate Transposable(layers: seq<seq<Option<char>>>) {
    |layers| > 0 && forall i :: 0 <= i < |layers| ==> |layers[i]| >= |layers[0]|
  }

  /** The first half of `transpose`: reverse every layer in place. */
  method ReverseLayers(layers: seq<seq<Option<char>>>) returns (rows: seq<seq<Option<char>>>)
    ensures |rows| == |layers|
    ensures forall j :: 0 <= j < |layers| ==> rows[j] == Reverse(layers[j])
  {
    rows := layers;
    var i := 0;
    while i < |rows|
      invariant |rows| == |layers| && i <= |layers|
      invariant forall j :: 0 <= j < i ==> rows[j] == Reverse(layers[j])
      invariant forall j :: i <= j < |layers| ==> rows[j] == layers[j]
    {
      rows := rows[i := Reverse(rows[i])];
      i := i + 1;
    }
  }

  /** Reversing `s[c..]` leaves `s[c]` last, and dropping it leaves the
      reversal of `s[c + 1..]`. */
  lemma PopReversed<T>(s: seq<T>, c: nat)
    requires c < |s|
    ensures |Reverse(s[c..])| > 0
    ensures Reverse(s[c..])[|s| - c - 1] == s[c]
    ensures Reverse(s[c..])[..|s| - c - 1] == Reverse(s[c + 1..])
  {
    assert s[c..][1..] == s[c + 1..];
  }

  /** Part way through popping column `c`, bottom layer first: the layers
      from `j` on have lost their box of column `c`, and `column` holds those
      boxes' crates. */
  predicate Popping(layers: seq<seq<Option<char>>>, c: nat, rows: seq<seq<Option<char>>>, column: seq<char>, j: nat)
  {
    Wide(layers, c) && j <= |layers| == |rows| &&
    (forall m :: 0 <= m < j ==> rows[m] == Reverse(layers[m][c..])) &&
    (forall m :: j <= m < |layers| ==> rows[m] == Reverse(layers[m][c + 1..])) &&
    Wide(layers[j..], c) && column == Column(layers[j..], c)
  }

  /** Popping the last box of row `j - 1` moves its crate onto the column. */
  lemma PopStep(layers: seq<seq<Option<char>>>, c: nat, rows: seq<seq<Option<char>>>, column: seq<char>, j: nat)
    requires Popping(layers, c, rows, column, j) && j > 0
    ensures |rows[j - 1]| > 0
    ensures var row := rows[j - 1];
      Popping(layers, c, rows[j - 1 := row[..|row| - 1]], column + Crate(row[|row| - 1]), j - 1)
  {
    PopReversed(layers[j - 1], c);
    assert layers[j - 1..][1..] == layers[j..];
  }

  /** One column of `transpose`: pop the last box of every layer, last layer
      first, keeping the crates. */
  method PopColumn(layers: seq<seq<Option<char>>>, rows0: seq<seq<Option<char>>>, c: nat)
    returns (rows: seq<seq<Option<char>>>, column: seq<char>)
    requires Wide(layers, c) && |rows0| == |layers|
    requires forall j :: 0 <= j < |layers| ==> rows0[j] == Reverse(layers[j][c..])
    ensures |rows| == |layers|
    ensures forall j :: 0 <= j < |layers| ==> rows[j] == Reverse(layers[j][c + 1..])
    ensures column == Column(layers, c)
  {
    rows := rows0;
    column := [];
    var j: nat := |rows|;
    assert Popping(layers, c, rows, column, j);
    while j > 0
      invariant Popping(layers, c, rows, column, j)
    {
      PopStep(layers, c, rows, column, j);
      j := j - 1;
      var row := rows[j];
      var top := row[|row| - 1];
      rows := rows[j := row[..|row| - 1]];
      if top.Some? {
        column := column + [top.value];
      }
    }
    assert layers[0..] == layers;
  }

  /** `transpose`: reverse every layer, then build each stack by popping a
      column. */
  method Transpose(layers: seq<seq<Option<char>>>) returns (stacks: seq<seq<char>>)
    requires Transposable(layers)
    ensures |stacks| == |layers[0]|
    ensures forall c :: 0 <= c < |stacks| ==> Wide(layers, c) && stacks[c] == Column(layers, c)
  {
    var rows := ReverseLayers(layers);
    assert forall j :: 0 <= j < |layers| ==> layers[j][0..] == layers[j];
    var width := |rows[0]|;
    stacks := [];
    var c := 0;
    while c < width
      invariant c <= width == |layers[0]| && |stacks| == c
      invariant forall k :: 0 <= k < c ==> Wide(layers, k) && stacks[k] == Column(layers, k)
      invariant |rows| == |layers|
      invariant forall j :: 0 <= j < |layers| ==> rows[j] == Reverse(layers[j][c..])
    {
      var column;
      rows, column := PopColumn(layers, rows, c);
      stacks := stacks + [column];
      c := c + 1;
    }
  }

  // ---------------------------------------------------------------------------
  // The procedure

  /** A step of the procedure; `from` and `to` are 0-based. */
  datatype Procedure = Procedure(count: nat, from: nat, to: nat)

  /** `s` begins with the text `lit`. */
  predicate StartsWith(s: string, lit: string) {
    |lit| <= |s| && s[..|lit|] == lit
  }

  /** `number`: one or more digits; the value and the text after them.
      `parse().unwrap()` panics on a value a `usize` cannot hold. */
  function ParseNumber(s: string): (r: Option<(nat, string)>)
    ensures r.Some? ==> |r.value.1| < |s| && r.value.0 < UsizeBound
  {
    var n := DigitSpan(s);
    if n == 0 || DecimalValue(s[..n]) >= UsizeBound then None else Some((DecimalValue(s[..n]), s[n..]))
  }

  /** `procedure`: "move A from B to C" and an optional line break; the
      stack numbers are 1-based in the text. */
  function ParseProcedure(s: string): (r: Option<(Procedure, string)>)
    ensures r.Some? ==> |r.value.1| < |s|
  {
    if StartsWith(s, "move ") then AfterMove(s[5..]) else None
  }

  function AfterMove(s: string): (r: Option<(Procedure, string)>)
    ensures r.Some? ==> |r.value.1| < |s|
  {
    match ParseNumber(s)
    case None => None
    case Some((a, s1)) => if StartsWith(s1, " from ") then AfterFrom(a, s1[6..]) else None
  }

  function AfterFrom(a: nat, s: string): (r: Option<(Procedure, string)>)
    ensures r.Some? ==> |r.value.1| < |s|
  {
    match ParseNumber(s)
    case None => None
    case Some((b, s2)) => if StartsWith(s2, " to ") then AfterTo(a, b, s2[4..]) else None
  }

  /** The last number; `b - 1` and `c - 1` need both stack numbers to be
      at least 1. */
  function AfterTo(a: nat, b: nat, s: string): (r: Option<(Procedure, string)>)
    ensures r.Some? ==> |r.value.1| < |s|
  {
    match ParseNumber(s)
    case None => None
    case Some((c, s3)) =>
      if b == 0 || c == 0 then None
      else
        var rest := if |s3| > 0 && s3[0] == '\n' then s3[1..] else s3;
        Some((Procedure(a, b - 1, c - 1), rest))
  }

  /** `procedures`: as many procedures as parse, which must use up the text. */
  function ParseProcedures(s: string): (r: Option<seq<Procedure>>)
    decreases |s|
  {
    match ParseProcedure(s)
    case None => if s == "" then Some([]) else None
    case Some((p, rest)) =>
      match ParseProcedures(rest)
      case None => None
      case Some(ps) => Some([p] + ps)
  }

  /** `parse_input`: the drawing before the first blank line (its unparsed
      tail, the stack numbers, is skipped), the procedure after it. */
  function ParseInput(input: string): Option<(seq<seq<Option<char>>>, seq<Procedure>)> {
    var i := IndexOfPair(input, '\n', '\n');
    if i == |input| then None
    else
      match ParseProcedures(input[i + 2..])
      case None => None
      case Some(ps) => Some((Layers(input[..i]), ps))
  }

  // ---------------------------------------------------------------------------
  // The cranes

  type Stacks = seq<seq<char>>

  predicate InRange(stacks: Stacks, p: Procedure) {
    p.from < |stacks| && p.to < |stacks|
  }

  /** Move the top crate of stack `from` onto stack `to`. */
  function MoveOne(stacks: Stacks, from: nat, to: nat): (r: Stacks)
    requires from < |stacks| && to < |stacks| && |stacks[from]| > 0
    ensures |r| == |stacks|
  {
    var s := stacks[from];
    var popped := stacks[from := s[..|s| - 1]];
    popped[to := popped[to] + [s[|s| - 1]]]
  }

  /** `n` single moves; a stack moved onto itself never runs out. No move
      at all touches no stack, so then `from` and `to` may be anything. */
  function MoveMany(stacks: Stacks, from: nat, to: nat, n: nat): (r: Stacks)
    requires n == 0 || (from < |stacks| && to < |stacks| &&
      (n <= |stacks[from]| || (from == to && |stacks[from]| > 0)))
    ensures |r| == |stacks|
    decreases n
  {
    if n == 0 then stacks
    else MoveMany(MoveOne(stacks, from, to), from, to, n - 1)
  }

  /** The crate-at-a-time crane can carry out `p`: it moves nothing, or the
      stacks exist and `from` never runs empty. */
  predicate CanMoveOneByOne(stacks: Stacks, p: Procedure) {
    p.count == 0 ||
    (InRange(stacks, p) &&
     (p.count <= |stacks[p.from]| || (p.from == p.to && |stacks[p.from]| > 0)))
  }

  /** The block crane can carry out `p`: `split_off(n - count)` needs
      `count <= n`. */
  predicate CanMoveBlock(stacks: Stacks, p: Procedure) {
    InRange(stacks, p) && p.count <= |stacks[p.from]|
  }

  /** Move the top `count` crates of `from` as one block onto `to`. */
  function MoveBlock(stacks: Stacks, p: Procedure): (r: Stacks)
    requires CanMoveBlock(stacks, p)
    ensures |r| == |stacks|
  {
    var s := stacks[p.from];
    var cut := |s| - p.count;
    var split := stacks[p.from := s[..cut]];
    split[p.to := split[p.to] + s[cut..]]
  }

  predicate Runs1(stacks: Stacks, ps: seq<Procedure>)
    decreases |ps|
  {
    |ps| == 0 ||
    (CanMoveOneByOne(stacks, ps[0]) &&
     Runs1(MoveMany(stacks, ps[0].from, ps[0].to, ps[0].count), ps[1..]))
  }

  predicate Runs2(stacks: Stacks, ps: seq<Procedure>)
    decreases |ps|
  {
    |ps| == 0 ||
    (CanMoveBlock(stacks, ps[0]) && Runs2(MoveBlock(stacks, ps[0]), ps[1..]))
  }

  /** The stacks after the crate-at-a-time crane has carried out `ps`. */
  function Rearrange1(stacks: Stacks, ps: seq<Procedure>): (r: Stacks)
    requires Runs1(stacks, ps)
    ensures |r| == |stacks|
    decreases |ps|
  {
    if |ps| == 0 then stacks
    else Rearrange1(MoveMany(stacks, ps[0].from, ps[0].to, ps[0].count), ps[1..])
  }

  /** The stacks after the block crane has carried out `ps`. */
  function Rearrange2(stacks: Stacks, ps: seq<Procedure>): (r: Stacks)
    requires Runs2(stacks, ps)
    ensures |r| == |stacks|
    decreases |ps|
  {
    if |ps| == 0 then stacks
    else Rearrange2(MoveBlock(stacks, ps[0]), ps[1..])
  }

  /** Carrying out `ps` is its first procedure, then the rest. */
  lemma Rearrange1Step(stacks: Stacks, ps: seq<Procedure>, next: Stacks, result: Stacks)
    requires |ps| > 0 && CanMoveOneByOne(stacks, ps[0])
    requires MoveMany(stacks, ps[0].from, ps[0].to, ps[0].count) == next
    requires Runs1(next, ps[1..]) && Rearrange1(next, ps[1..]) == result
    ensures Runs1(stacks, ps) && Rearrange1(stacks, ps) == result
  {
  }

  lemma Rearrange2Step(stacks: Stacks, ps: seq<Procedure>, next: Stacks, result: Stacks)
    requires |ps| > 0 && CanMoveBlock(stacks, ps[0]) && MoveBlock(stacks, ps[0]) == next
    requires Runs2(next, ps[1..]) && Rearrange2(next, ps[1..]) == result
    ensures Runs2(stacks, ps) && Rearrange2(stacks, ps) == result
  {
  }

  /** Four procedures carried out one after the other. */
  lemma Rearrange1OfFour(ps: seq<Procedure>, s0: Stacks, s1: Stacks, s2: Stacks, s3: Stacks, s4: Stacks)
    requires |ps| == 4
    requires CanMoveOneByOne(s0, ps[0]) && MoveMany(s0, ps[0].from, ps[0].to, ps[0].count) == s1
    requires CanMoveOneByOne(s1, ps[1]) && MoveMany(s1, ps[1].from, ps[1].to, ps[1].count) == s2
    requires CanMoveOneByOne(s2, ps[2]) && MoveMany(s2, ps[2].from, ps[2].to, ps[2].count) == s3
    requires CanMoveOneByOne(s3, ps[3]) && MoveMany(s3, ps[3].from, ps[3].to, ps[3].count) == s4
    ensures Runs1(s0, ps) && Rearrange1(s0, ps) == s4
  {
    Rearrange1Step(s3, ps[3..], s4, s4);
    assert ps[2..][1..] == ps[3..];
    Rearrange1Step(s2, ps[2..], s3, s4);
    assert ps[1..][1..] == ps[2..];
    Rearrange1Step(s1, ps[1..], s2, s4);
    Rearrange1Step(s0, ps, s1, s4);
  }

  lemma Rearrange2OfFour(ps: seq<Procedure>, s0: Stacks, s1: Stacks, s2: Stacks, s3: Stacks, s4: Stacks)
    requires |ps| == 4
    requires CanMoveBlock(s0, ps[0]) && MoveBlock(s0, ps[0]) == s1
    requires CanMoveBlock(s1, ps[1]) && MoveBlock(s1, ps[1]) == s2
    requires CanMoveBlock(s2, ps[2]) && MoveBlock(s2, ps[2]) == s3
    requires CanMoveBlock(s3, ps[3]) && MoveBlock(s3, ps[3]) == s4
    ensures Runs2(s0, ps) && Rearrange2(s0, ps) == s4
  {
    Rearrange2Step(s3, ps[3..], s4, s4);
    assert ps[2..][1..] == ps[3..];
    Rearrange2Step(s2, ps[2..], s3, s4);
    assert ps[1..][1..] == ps[2..];
    Rearrange2Step(s1, ps[1..], s2, s4);
    Rearrange2Step(s0, ps, s1, s4);
  }

  /** The top crate of every stack (`last().unwrap()` needs each to be
      non-empty). */
  function Tops(stacks: Stacks): (r: string)
    requires forall i :: 0 <= i < |stacks| ==> |stacks[i]| > 0
    ensures |r| == |stacks|
    ensures forall i :: 0 <= i < |stacks| ==> r[i] == stacks[i][|stacks[i]| - 1]
  {
    seq(|stacks|, i requires 0 <= i < |stacks| => stacks[i][|stacks[i]| - 1])
  }

  // ---------------------------------------------------------------------------
  // What the cranes do

  /** A single move takes the top crate of `from` onto `to`. */
  lemma MoveOneEffect(stacks: Stacks, from: nat, to: nat)
    requires from < |stacks| && to < |stacks| && from != to && |stacks[from]| > 0
    ensures var s := stacks[from];
      var r := MoveOne(stacks, from, to);
      r[from] == s[..|s| - 1] &&
      r[to] == stacks[to] + [s[|s| - 1]] &&
      forall i :: 0 <= i < |stacks| && i != from && i != to ==> r[i] == stacks[i]
  {
  }

  /** The crate-at-a-time crane leaves the moved crates in reverse order on
      top of `to`, and changes no other stack. */
  lemma {:induction false} MoveManyReverses(stacks: Stacks, from: nat, to: nat, n: nat)
    requires from < |stacks| && to < |stacks| && from != to
    requires n <= |stacks[from]|
    ensures var s := stacks[from];
      var r := MoveMany(stacks, from, to, n);
      r[from] == s[..|s| - n] &&
      r[to] == stacks[to] + Reverse(s[|s| - n..]) &&
      forall i :: 0 <= i < |stacks| && i != from && i != to ==> r[i] == stacks[i]
    decreases n
  {
    var s := stacks[from];
    if n == 0 {
      assert s[..|s|] == s;
      assert stacks[to] + Reverse(s[|s|..]) == stacks[to];
    } else {
      var one := MoveOne(stacks, from, to);
      MoveOneEffect(stacks, from, to);
      MoveManyReverses(one, from, to, n - 1);
      ReverseStep(s, n, stacks[to]);
    }
  }

  /** The block of the top `n` crates of `s` reversed, split off its top
      crate. */
  lemma ReverseStep(s: seq<char>, n: nat, below: seq<char>)
    requires 0 < n <= |s|
    ensures var t := s[..|s| - 1];
      t[..|t| - (n - 1)] == s[..|s| - n] &&
      (below + [s[|s| - 1]]) + Reverse(t[|t| - (n - 1)..]) == below + Reverse(s[|s| - n..])
  {
    var t := s[..|s| - 1];
    var block := s[|s| - n..];
    assert t[|t| - (n - 1)..] == block[..|block| - 1];
    ReverseOfTail(block);
  }

  /** Reversing a non-empty sequence puts its last element first. */
  lemma {:induction false} ReverseOfTail<T>(s: seq<T>)
    requires |s| > 0
    ensures Reverse(s) == [s[|s| - 1]] + Reverse(s[..|s| - 1])
    decreases |s|
  {
    if |s| > 1 {
      ReverseOfTail(s[1..]);
      assert s[1..][..|s| - 2] == s[..|s| - 1][1..];
    } else {
      assert s[..0] == [];
    }
  }

  /** Moving crates from a stack onto itself changes nothing. */
  lemma {:induction false} MoveManyOntoItself(stacks: Stacks, from: nat, n: nat)
    requires from < |stacks| && |stacks[from]| > 0
    ensures MoveMany(stacks, from, from, n) == stacks
    decreases n
  {
    if n > 0 {
      var s := stacks[from];
      assert s[..|s| - 1] + [s[|s| - 1]] == s;
      assert MoveOne(stacks, from, from) == stacks;
      MoveManyOntoItself(stacks, from, n - 1);
    }
  }

  /** The block crane keeps the order of the moved crates; moving a block
      onto its own stack changes nothing. */
  lemma MoveBlockKeepsOrder(stacks: Stacks, p: Procedure)
    requires CanMoveBlock(stacks, p)
    ensures var s := stacks[p.from];
      var r := MoveBlock(stacks, p);
      (p.from != p.to ==>
        r[p.from] == s[..|s| - p.count] &&
        r[p.to] == stacks[p.to] + s[|s| - p.count..]) &&
      (p.from == p.to ==> r == stacks) &&
      forall i :: 0 <= i < |stacks| && i != p.from && i != p.to ==> r[i] == stacks[i]
  {
    var s := stacks[p.from];
    assert s[..|s| - p.count] + s[|s| - p.count..] == s;
  }

  /** A procedure moving at most one crate has the same effect on both
      cranes. */
  lemma SingleCrateAlike(stacks: Stacks, p: Procedure)
    requires CanMoveBlock(stacks, p) && p.count <= 1
    ensures CanMoveOneByOne(stacks, p)
    ensures MoveMany(stacks, p.from, p.to, p.count) == MoveBlock(stacks, p)
  {
    var s := stacks[p.from];
    if p.count == 0 {
      assert s[..|s|] == s && s[|s|..] == [];
      var split := stacks[p.from := s];
      assert split == stacks;
      assert split[p.to] + [] == split[p.to];
      assert split[p.to := split[p.to]] == split;
    } else {
      assert s[|s| - 1..] == [s[|s| - 1]];
    }
  }

  /** All crates of all stacks. */
  function Crates(stacks: Stacks): multiset<char> {
    if |stacks| == 0 then multiset{}
    else Crates(stacks[..|stacks| - 1]) + multiset(stacks[|stacks| - 1])
  }

  lemma {:induction false} CratesUpdate(stacks: Stacks, i: nat, x: seq<char>)
    requires i < |stacks|
    ensures multiset(stacks[i]) <= Crates(stacks)
    ensures Crates(stacks[i := x]) == Crates(stacks) - multiset(stacks[i]) + multiset(x)
    decreases |stacks|
  {
    var n := |stacks| - 1;
    var below := Crates(stacks[..n]);
    var top := multiset(stacks[n]);
    assert Crates(stacks) == below + top;
    if i == n {
      assert stacks[i := x][..n] == stacks[..n];
      assert Crates(stacks[i := x]) == below + multiset(x);
    } else {
      assert stacks[i := x][..n] == stacks[..n][i := x];
      assert stacks[..n][i] == stacks[i];
      CratesUpdate(stacks[..n], i, x);
      assert Crates(stacks[i := x]) == Crates(stacks[..n][i := x]) + top;
      ReplaceBelow(below, multiset(stacks[i]), multiset(x), top);
    }
  }

  /** Replacing part `m` of `b` by `x` commutes with adding `t`. */
  lemma ReplaceBelow(b: multiset<char>, m: multiset<char>, x: multiset<char>, t: multiset<char>)
    requires m <= b
    ensures m <= b + t && (b - m + x) + t == (b + t) - m + x
  {
  }

  /** Both cranes keep every crate: they only move them. */
  lemma MoveBlockKeepsCrates(stacks: Stacks, p: Procedure)
    requires CanMoveBlock(stacks, p)
    ensures Crates(MoveBlock(stacks, p)) == Crates(stacks)
  {
    var s := stacks[p.from];
    var cut := |s| - p.count;
    var split := stacks[p.from := s[..cut]];
    assert s == s[..cut] + s[cut..];
    CratesUpdate(stacks, p.from, s[..cut]);
    CratesUpdate(split, p.to, split[p.to] + s[cut..]);
  }

  lemma MoveOneKeepsCrates(stacks: Stacks, from: nat, to: nat)
    requires from < |stacks| && to < |stacks| && |stacks[from]| > 0
    ensures Crates(MoveOne(stacks, from, to)) == Crates(stacks)
  {
    var s := stacks[from];
    var popped := stacks[from := s[..|s| - 1]];
    assert s == s[..|s| - 1] + [s[|s| - 1]];
    CratesUpdate(stacks, from, s[..|s| - 1]);
    CratesUpdate(popped, to, popped[to] + [s[|s| - 1]]);
  }

  /** A procedure moving no crate is carried out by the crate-at-a-time
      crane even when its stacks do not exist: `move 0 from 9 to 9` on three
      stacks changes nothing. */
  lemma ZeroMoveAnywhere(stacks: Stacks, p: Procedure)
    requires |stacks| == 3 && p == Procedure(0, 8, 8)
    ensures !InRange(stacks, p) && CanMoveOneByOne(stacks, p)
    ensures MoveMany(stacks, p.from, p.to, p.count) == stacks
  {
  }

  lemma {:induction false} MoveManyKeepsCrates(stacks: Stacks, from: nat, to: nat, n: nat)
    requires n == 0 || (from < |stacks| && to < |stacks| &&
      (n <= |stacks[from]| || (from == to && |stacks[from]| > 0)))
    ensures Crates(MoveMany(stacks, from, to, n)) == Crates(stacks)
    decreases n
  {
    if n > 0 {
      MoveOneKeepsCrates(stacks, from, to);
      MoveManyKeepsCrates(MoveOne(stacks, from, to), from, to, n - 1);
    }
  }

  // ---------------------------------------------------------------------------
  // The two parts

  /** The input parses, its drawing can be transposed, and the crane can
      carry out the procedure and leave a crate on every stack. */
  ghost predicate Part1Defined(input: string) {
    ParseInput(input).Some? &&
    Transposable(ParseInput(input).value.0) &&
    var layers := ParseInput(input).value.0;
    var stacks := seq(|layers[0]|, c requires 0 <= c < |layers[0]| => Column(layers, c));
    Runs1(stacks, ParseInput(input).value.1) &&
    forall i :: 0 <= i < |layers[0]| ==> |Rearrange1(stacks, ParseInput(input).value.1)[i]| > 0
  }

  ghost predicate Part2Defined(input: string) {
    ParseInput(input).Some? &&
    Transposable(ParseInput(input).value.0) &&
    var layers := ParseInput(input).value.0;
    var stacks := seq(|layers[0]|, c requires 0 <= c < |layers[0]| => Column(layers, c));
    Runs2(stacks, ParseInput(input).value.1) &&
    forall i :: 0 <= i < |layers[0]| ==> |Rearrange2(stacks, ParseInput(input).value.1)[i]| > 0
  }

  /** The stacks the drawing of `input` shows. */
  ghost function Drawn(input: string): Stacks
    requires ParseInput(input).Some? && Transposable(ParseInput(input).value.0)
  {
    var layers := ParseInput(input).value.0;
    seq(|layers[0]|, c requires 0 <= c < |layers[0]| => Column(layers, c))
  }

  /** The crates on top once the crate-at-a-time crane has carried out the
      procedure on the drawn stacks. */
  ghost function Answer1(input: string): string
    requires Part1Defined(input)
  {
    Tops(Rearrange1(Drawn(input), ParseInput(input).value.1))
  }

  /** The crates on top once the block-moving crane has carried out the
      procedure on the drawn stacks. */
  ghost function Answer2(input: string): string
    requires Part2Defined(input)
  {
    Tops(Rearrange2(Drawn(input), ParseInput(input).value.1))
  }

  /** Transpose the drawing of a parsed input. */
  method DrawnStacks(input: string) returns (stacks: Stacks, ps: seq<Procedure>)
    requires ParseInput(input).Some? && Transposable(ParseInput(input).value.0)
    ensures stacks == Drawn(input) && ps == ParseInput(input).value.1
  {
    var parsed := ParseInput(input).value;
    stacks := Transpose(parsed.0);
    ps := parsed.1;
  }

  /** One step of `part1`: pop and push `count` times. */
  method MoveOneByOne(stacks0: Stacks, p: Procedure) returns (stacks: Stacks)
    requires CanMoveOneByOne(stacks0, p)
    ensures stacks == MoveMany(stacks0, p.from, p.to, p.count)
  {
    stacks := stacks0;
    var i := 0;
    while i < p.count
      invariant i <= p.count && |stacks| == |stacks0|
      invariant i == p.count || (InRange(stacks, p) &&
        (p.count - i <= |stacks[p.from]| || (p.from == p.to && |stacks[p.from]| > 0)))
      invariant MoveMany(stacks, p.from, p.to, p.count - i) == MoveMany(stacks0, p.from, p.to, p.count)
    {
      var s := stacks[p.from];
      var crate := s[|s| - 1];
      stacks := stacks[p.from := s[..|s| - 1]];
      stacks := stacks[p.to := stacks[p.to] + [crate]];
      i := i + 1;
    }
  }

  /** `part1`: the crate-at-a-time crane carries out every procedure. */
  method Part1(input: string) returns (tops: string)
    requires Part1Defined(input)
    ensures tops == Answer1(input)
  {
    var stacks, ps := DrawnStacks(input);
    ghost var goal := Rearrange1(stacks, ps);
    var k := 0;
    while k < |ps|
      invariant k <= |ps| && |stacks| == |goal|
      invariant Runs1(stacks, ps[k..]) && Rearrange1(stacks, ps[k..]) == goal
    {
      assert ps[k..][0] == ps[k] && ps[k..][1..] == ps[k + 1..];
      stacks := MoveOneByOne(stacks, ps[k]);
      k := k + 1;
    }
    tops := Tops(stacks);
  }

  /** `part2`: `split_off` the top `count` crates and `append` them. */
  method Part2(input: string) returns (tops: string)
    requires Part2Defined(input)
    ensures tops == Answer2(input)
  {
    var stacks, ps := DrawnStacks(input);
    ghost var goal := Rearrange2(stacks, ps);
    var k := 0;
    while k < |ps|
      invariant k <= |ps| && |stacks| == |goal|
      invariant Runs2(stacks, ps[k..]) && Rearrange2(stacks, ps[k..]) == goal
    {
      assert ps[k..][0] == ps[k] && ps[k..][1..] == ps[k + 1..];
      stacks := MoveAsBlock(stacks, ps[k]);
      k := k + 1;
    }
    tops := Tops(stacks);
  }

  /** One step of `part2`: `split_off` the top `count` crates of `from` and
      `append` them to `to`. */
  method MoveAsBlock(stacks0: Stacks, p: Procedure) returns (stacks: Stacks)
    requires CanMoveBlock(stacks0, p)
    ensures stacks == MoveBlock(stacks0, p)
  {
    var n := |stacks0[p.from]|;
    var block := stacks0[p.from][n - p.count..];
    stacks := stacks0[p.from := stacks0[p.from][..n - p.count]];
    stacks := stacks[p.to := stacks[p.to] + block];
  }

  // ---------------------------------------------------------------------------
  // The examples

  /** A number followed by a non-digit. */
  lemma NumberThen(n: nat, t: string)
    requires n < UsizeBound
    requires |t| == 0 || !IsDigit(t[0])
    ensures ParseNumber(NatToString(n) + t) == Some((n, t))
  {
    var d := NatToString(n);
    DigitSpanOfDigitsThen(d, t);
    DecimalValueOfNatToString(n);
    assert (d + t)[..|d|] == d && (d + t)[|d|..] == t;
  }

  lemma LiteralThen(lit: string, t: string)
    ensures StartsWith(lit + t, lit) && (lit + t)[|lit|..] == t
  {
    assert (lit + t)[..|lit|] == lit;
  }

  /** A procedure whose written numbers fit a `usize`. */
  predicate Printable(p: Procedure) {
    p.count < UsizeBound && p.from + 1 < UsizeBound && p.to + 1 < UsizeBound
  }

  /** How a procedure is written, with 1-based stack numbers. */
  function ShowProcedure(p: Procedure): string {
    "move " + NatToString(p.count) + " from " + NatToString(p.from + 1) + " to " + NatToString(p.to + 1)
  }

  /** A written procedure line parses back to the procedure, and parsing
      continues after its line break. */
  lemma ParseShowProcedure(p: Procedure, rest: string)
    requires Printable(p)
    ensures ParseProcedure(ShowProcedure(p) + "\n" + rest) == Some((p, rest))
  {
    var s3 := NatToString(p.to + 1) + ("\n" + rest);
    var s2 := NatToString(p.from + 1) + (" to " + s3);
    var s1 := NatToString(p.count) + (" from " + s2);
    ShowProcedureText(p, rest);
    AfterToShow(p, rest);
    AfterFromShow(p, s3, rest);
    AfterMoveShow(p, s2, rest);
    LiteralThen("move ", s1);
  }

  lemma ShowProcedureText(p: Procedure, rest: string)
    ensures ShowProcedure(p) + "\n" + rest ==
      "move " + (NatToString(p.count) + (" from " + (NatToString(p.from + 1) +
        (" to " + (NatToString(p.to + 1) + ("\n" + rest))))))
  {
  }

  lemma AfterToShow(p: Procedure, rest: string)
    requires Printable(p)
    ensures AfterTo(p.count, p.from + 1, NatToString(p.to + 1) + ("\n" + rest)) == Some((p, rest))
  {
    NumberThen(p.to + 1, "\n" + rest);
    assert ("\n" + rest)[1..] == rest;
  }

  lemma AfterFromShow(p: Procedure, s3: string, rest: string)
    requires Printable(p)
    requires AfterTo(p.count, p.from + 1, s3) == Some((p, rest))
    ensures AfterFrom(p.count, NatToString(p.from + 1) + (" to " + s3)) == Some((p, rest))
  {
    LiteralThen(" to ", s3);
    NumberThen(p.from + 1, " to " + s3);
  }

  lemma AfterMoveShow(p: Procedure, s2: string, rest: string)
    requires Printable(p)
    requires AfterFrom(p.count, s2) == Some((p, rest))
    ensures AfterMove(NatToString(p.count) + (" from " + s2)) == Some((p, rest))
  {
    LiteralThen(" from ", s2);
    NumberThen(p.count, " from " + s2);
  }

  lemma ShowExample()
    ensures ShowProcedure(Procedure(1, 1, 0)) + "\n" + "" == "move 1 from 2 to 1\n"
  {
    assert NatToString(1) == "1" && NatToString(2) == "2";
    assert "move " + "1" == "move 1";
    assert "move 1" + " from " == "move 1 from ";
    assert "move 1 from " + "2" == "move 1 from 2";
    assert "move 1 from 2" + " to " == "move 1 from 2 to ";
    assert "move 1 from 2 to " + "1" == "move 1 from 2 to 1";
    assert "move 1 from 2 to 1" + "\n" + "" == "move 1 from 2 to 1\n";
  }

  /** The first procedure line of the example: the stack numbers become
      0-based. */
  lemma ProcedureExample()
    ensures ParseProcedure("move 1 from 2 to 1\n") == Some((Procedure(1, 1, 0), ""))
  {
    ShowExample();
    ParseShowProcedure(Procedure(1, 1, 0), "");
  }

  /** How a box is drawn. */
  function BoxText(b: Option<char>): string {
    if b.Some? then ['[', b.value, ']'] else "   "
  }

  /** Every box after the first is drawn after a single space. */
  function MoreBoxesText(bs: seq<Option<char>>): string {
    if |bs| == 0 then "" else " " + BoxText(bs[0]) + MoreBoxesText(bs[1..])
  }

  predicate Drawable(bs: seq<Option<char>>) {
    forall k :: 0 <= k < |bs| ==> bs[k].None? || 'A' <= bs[k].value <= 'Z'
  }

  lemma BoxTextParses(b: Option<char>, rest: string)
    requires b.None? || 'A' <= b.value <= 'Z'
    ensures ParseBox(BoxText(b) + rest) == Some(b)
    ensures (BoxText(b) + rest)[3..] == rest
  {
    assert (BoxText(b) + rest)[..3] == BoxText(b);
  }

  lemma MoreBoxesStep(b: Option<char>, tail: string)
    requires b.None? || 'A' <= b.value <= 'Z'
    ensures MoreBoxes(" " + BoxText(b) + tail) == ([b] + MoreBoxes(tail).0, MoreBoxes(tail).1)
  {
    var s := " " + BoxText(b) + tail;
    assert s[1..] == BoxText(b) + tail;
    BoxTextParses(b, tail);
    assert s[4..] == tail;
  }

  lemma MoreBoxesTextAppend(bs: seq<Option<char>>, rest: string)
    requires |bs| > 0
    ensures MoreBoxesText(bs) + rest == " " + BoxText(bs[0]) + (MoreBoxesText(bs[1..]) + rest)
  {
  }

  /** Drawn boxes are read back, up to a text that does not start with a
      space. */
  lemma {:induction false} MoreBoxesParse(bs: seq<Option<char>>, rest: string)
    requires Drawable(bs)
    requires |rest| == 0 || rest[0] != ' '
    ensures MoreBoxes(MoreBoxesText(bs) + rest) == (bs, rest)
    decreases |bs|
  {
    if |bs| == 0 {
      assert MoreBoxesText(bs) + rest == rest;
    } else {
      MoreBoxesTextAppend(bs, rest);
      MoreBoxesStep(bs[0], MoreBoxesText(bs[1..]) + rest);
      MoreBoxesParse(bs[1..], rest);
      assert [bs[0]] + bs[1..] == bs;
    }
  }

  /** A drawn layer is read back. */
  lemma LayerParses(bs: seq<Option<char>>)
    requires |bs| > 0 && Drawable(bs)
    ensures ParseLayer(BoxText(bs[0]) + MoreBoxesText(bs[1..])) == Some((bs, ""))
  {
    var t := MoreBoxesText(bs[1..]);
    MoreBoxesParse(bs[1..], "");
    assert t + "" == t;
    BoxTextParses(bs[0], t);
    assert [bs[0]] + bs[1..] == bs;
  }

  lemma {:induction false} MoreBoxesNoBreak(bs: seq<Option<char>>)
    requires Drawable(bs)
    ensures '\n' !in MoreBoxesText(bs)
    decreases |bs|
  {
    if |bs| > 0 {
      MoreBoxesNoBreak(bs[1..]);
      assert '\n' !in BoxText(bs[0]);
    }
  }

  /** A layer as the drawing shows it: its boxes with single spaces between. */
  function LayerText(bs: seq<Option<char>>): string
    requires |bs| > 0
  {
    BoxText(bs[0]) + MoreBoxesText(bs[1..])
  }

  /** A drawn layer is a non-empty line. */
  lemma LayerTextLine(bs: seq<Option<char>>)
    requires |bs| > 0 && Drawable(bs)
    ensures |LayerText(bs)| > 0 && '\n' !in LayerText(bs)
  {
    MoreBoxesNoBreak(bs[1..]);
    assert '\n' !in BoxText(bs[0]);
  }

  /** A drawn layer followed by a line break is read back, and reading goes
      on after the break. */
  lemma LayerThen(bs: seq<Option<char>>, rest: string)
    requires |bs| > 0 && Drawable(bs)
    ensures ParseLayer(LayerText(bs) + "\n" + rest) == Some((bs, rest))
  {
    var brk := "\n" + rest;
    var tail := MoreBoxesText(bs[1..]) + brk;
    var s := LayerText(bs) + "\n" + rest;
    assert s == BoxText(bs[0]) + tail;
    BoxTextParses(bs[0], tail);
    MoreBoxesParse(bs[1..], brk);
    assert brk[0] == '\n' && brk[1..] == rest;
    assert [bs[0]] + bs[1..] == bs;
  }

  predicate DrawableLayers(layers: seq<seq<Option<char>>>) {
    forall i :: 0 <= i < |layers| ==> |layers[i]| > 0 && Drawable(layers[i])
  }

  /** The drawing: each layer on a line of its own, top layer first. */
  function DrawingText(layers: seq<seq<Option<char>>>): string
    requires DrawableLayers(layers)
  {
    Terminated(seq(|layers|, i requires 0 <= i < |layers| => LayerText(layers[i])))
  }

  lemma DrawingTextStep(layers: seq<seq<Option<char>>>, footer: string)
    requires DrawableLayers(layers) && |layers| > 0
    ensures DrawingText(layers) + footer == LayerText(layers[0]) + "\n" + (DrawingText(layers[1..]) + footer)
  {
    var rest := layers[1..];
    var lines := seq(|layers|, i requires 0 <= i < |layers| => LayerText(layers[i]));
    assert lines[1..] == seq(|rest|, i requires 0 <= i < |rest| => LayerText(rest[i]));
  }

  /** The line under the drawing, the stack numbers in the puzzle: anything
      on one line that does not begin with a box. */
  predicate Footer(footer: string) {
    |footer| > 0 && '\n' !in footer && ParseBox(footer).None?
  }

  /** `layer()*` reads the drawn layers back and stops at the footer line,
      which `[_]*` skips. */
  lemma {:induction false} LayersOfDrawing(layers: seq<seq<Option<char>>>, footer: string)
    requires DrawableLayers(layers) && Footer(footer)
    ensures Layers(DrawingText(layers) + footer) == layers
    decreases |layers|
  {
    if |layers| > 0 {
      var rest := layers[1..];
      DrawingTextStep(layers, footer);
      LayerThen(layers[0], DrawingText(rest) + footer);
      LayersOfDrawing(rest, footer);
      assert layers == [layers[0]] + rest;
    }
  }

  /** The procedure as the input writes it, a step per line. */
  function ProcedureText(ps: seq<Procedure>): string {
    Terminated(seq(|ps|, k requires 0 <= k < |ps| => ShowProcedure(ps[k])))
  }

  lemma ProcedureTextStep(ps: seq<Procedure>)
    requires |ps| > 0
    ensures ProcedureText(ps) == ShowProcedure(ps[0]) + "\n" + ProcedureText(ps[1..])
  {
    var rest := ps[1..];
    var lines := seq(|ps|, k requires 0 <= k < |ps| => ShowProcedure(ps[k]));
    assert lines[1..] == seq(|rest|, k requires 0 <= k < |rest| => ShowProcedure(rest[k]));
  }

  lemma ProceduresStep(p: Procedure, t: string)
    requires Printable(p)
    ensures ParseProcedures(ShowProcedure(p) + "\n" + t) ==
      if ParseProcedures(t).Some? then Some([p] + ParseProcedures(t).value) else None
  {
    ParseShowProcedure(p, t);
  }

  /** `procedures` reads a written procedure back. */
  lemma {:induction false} ProceduresOfText(ps: seq<Procedure>)
    requires forall k :: 0 <= k < |ps| ==> Printable(ps[k])
    ensures ParseProcedures(ProcedureText(ps)) == Some(ps)
    decreases |ps|
  {
    if |ps| > 0 {
      var rest := ps[1..];
      ProcedureTextStep(ps);
      ProceduresStep(ps[0], ProcedureText(rest));
      ProceduresOfText(rest);
      assert ps == [ps[0]] + rest;
    } else {
      assert !StartsWith("", "move ");
    }
  }

  /** A whole input: the drawing, the footer line, a blank line, the
      procedure. */
  function InputText(layers: seq<seq<Option<char>>>, footer: string, ps: seq<Procedure>): string
    requires DrawableLayers(layers)
  {
    DrawingText(layers) + footer + "\n\n" + ProcedureText(ps)
  }

  /** The drawing and its footer hold no blank line and end in the footer. */
  lemma DrawingNoBlank(layers: seq<seq<Option<char>>>, footer: string)
    requires DrawableLayers(layers) && Footer(footer)
    ensures NoPair(DrawingText(layers) + footer, '\n', '\n')
    ensures (DrawingText(layers) + footer)[|DrawingText(layers) + footer| - 1] != '\n'
  {
    var lines := seq(|layers|, i requires 0 <= i < |layers| => LayerText(layers[i]));
    forall i | 0 <= i < |layers|
      ensures |lines[i]| > 0 && '\n' !in lines[i]
    {
      LayerTextLine(layers[i]);
    }
    TerminatedThenLine(lines, footer);
    JoinLinesNoBlank(lines + [footer]);
  }

  /** `parse_input` reads a written input back: its layers and its
      procedure. */
  lemma ParseInputOfText(layers: seq<seq<Option<char>>>, footer: string, ps: seq<Procedure>)
    requires DrawableLayers(layers) && Footer(footer)
    requires forall k :: 0 <= k < |ps| ==> Printable(ps[k])
    ensures ParseInput(InputText(layers, footer, ps)) == Some((layers, ps))
  {
    var head, tail := DrawingText(layers) + footer, ProcedureText(ps);
    var input := InputText(layers, footer, ps);
    DrawingNoBlank(layers, footer);
    assert input == head + ['\n', '\n'] + tail;
    IndexOfPairFirst(head, '\n', '\n', tail);
    assert input[..|head|] == head && input[|head| + 2..] == tail;
    LayersOfDrawing(layers, footer);
    ProceduresOfText(ps);
  }

  /** One layer with a gap: the third stack is empty. */
  lemma LayerExample()
    ensures Layers("[N] [C]     [A]") == [[Some('N'), Some('C'), None, Some('A')]]
  {
    var bs := [Some('N'), Some('C'), None, Some('A')];
    var a, b, c := bs[3..], bs[2..], bs[1..];
    assert a == [Some('A')] && a[1..] == [];
    assert BoxText(a[0]) == "[A]";
    assert " " + "[A]" + "" == " [A]";
    assert MoreBoxesText(a) == " [A]";
    assert b[0] == None && b[1..] == a;
    assert " " + "   " + " [A]" == "     [A]";
    assert MoreBoxesText(b) == "     [A]";
    assert c[0] == Some('C') && c[1..] == b;
    assert BoxText(c[0]) == "[C]";
    assert " " + "[C]" + "     [A]" == " [C]     [A]";
    assert MoreBoxesText(c) == " [C]     [A]";
    assert BoxText(bs[0]) == "[N]";
    assert "[N]" + " [C]     [A]" == "[N] [C]     [A]";
    LayerParses(bs);
    assert Layers("") == [];
  }

  lemma ColumnsExample()
    ensures var layers := [[Some('N'), Some('C'), None, Some('A')]];
      Wide(layers, 0) && Wide(layers, 1) && Wide(layers, 2) && Wide(layers, 3) &&
      Column(layers, 0) == ['N'] && Column(layers, 1) == ['C'] &&
      Column(layers, 2) == [] && Column(layers, 3) == ['A']
  {
  }

  const SampleStacks: Stacks := [['Z', 'N'], ['M', 'C', 'D'], ['P']]
  const SampleProcedure: seq<Procedure> :=
    [Procedure(1, 1, 0), Procedure(3, 0, 2), Procedure(2, 1, 0), Procedure(1, 0, 1)]

  /** A single move, spelled out for a stack `below + [top]`. */
  lemma PopPush(stacks: Stacks, from: nat, to: nat, below: seq<char>, top: char)
    requires from < |stacks| && to < |stacks| && from != to
    requires stacks[from] == below + [top]
    ensures MoveOne(stacks, from, to) == stacks[from := below][to := stacks[to] + [top]]
  {
    assert stacks[from][..|stacks[from]| - 1] == below;
  }

  /** A block move, spelled out for a stack `keep + block`. */
  lemma SplitAppend(stacks: Stacks, p: Procedure, keep: seq<char>, block: seq<char>)
    requires InRange(stacks, p) && p.from != p.to
    requires stacks[p.from] == keep + block && |block| == p.count
    ensures CanMoveBlock(stacks, p)
    ensures MoveBlock(stacks, p) == stacks[p.from := keep][p.to := stacks[p.to] + block]
  {
    var s := stacks[p.from];
    assert s[..|keep|] == keep && s[|keep|..] == block;
  }

  /** The example's steps, one crate at a time. */
  lemma Sample1Step1()
    ensures CanMoveOneByOne(SampleStacks, Procedure(1, 1, 0))
    ensures MoveMany(SampleStacks, 1, 0, 1) == [['Z', 'N', 'D'], ['M', 'C'], ['P']]
  {
    var a: Stacks := SampleStacks;
    PopPush(a, 1, 0, ['M', 'C'], 'D');
    assert ['Z', 'N'] + ['D'] == ['Z', 'N', 'D'];
    assert a[1 := ['M', 'C']][0 := ['Z', 'N', 'D']] == [['Z', 'N', 'D'], ['M', 'C'], ['P']];
  }

  lemma Sample1Step2()
    ensures CanMoveOneByOne([['Z', 'N', 'D'], ['M', 'C'], ['P']], Procedure(3, 0, 2))
    ensures MoveMany([['Z', 'N', 'D'], ['M', 'C'], ['P']], 0, 2, 3) == [[], ['M', 'C'], ['P', 'D', 'N', 'Z']]
  {
    var a: Stacks := [['Z', 'N', 'D'], ['M', 'C'], ['P']];
    var b: Stacks := [['Z', 'N'], ['M', 'C'], ['P', 'D']];
    var c: Stacks := [['Z'], ['M', 'C'], ['P', 'D', 'N']];
    var d: Stacks := [[], ['M', 'C'], ['P', 'D', 'N', 'Z']];
    PopPush(a, 0, 2, ['Z', 'N'], 'D');
    assert ['P'] + ['D'] == ['P', 'D'];
    assert a[0 := ['Z', 'N']][2 := ['P', 'D']] == b;
    PopPush(b, 0, 2, ['Z'], 'N');
    assert ['P', 'D'] + ['N'] == ['P', 'D', 'N'];
    assert b[0 := ['Z']][2 := ['P', 'D', 'N']] == c;
    PopPush(c, 0, 2, [], 'Z');
    assert ['P', 'D', 'N'] + ['Z'] == ['P', 'D', 'N', 'Z'];
    assert c[0 := []][2 := ['P', 'D', 'N', 'Z']] == d;
  }

  lemma Sample1Step3()
    ensures CanMoveOneByOne([[], ['M', 'C'], ['P', 'D', 'N', 'Z']], Procedure(2, 1, 0))
    ensures MoveMany([[], ['M', 'C'], ['P', 'D', 'N', 'Z']], 1, 0, 2) == [['C', 'M'], [], ['P', 'D', 'N', 'Z']]
  {
    var a: Stacks := [[], ['M', 'C'], ['P', 'D', 'N', 'Z']];
    var b: Stacks := [['C'], ['M'], ['P', 'D', 'N', 'Z']];
    var c: Stacks := [['C', 'M'], [], ['P', 'D', 'N', 'Z']];
    PopPush(a, 1, 0, ['M'], 'C');
    assert [] + ['C'] == ['C'];
    assert a[1 := ['M']][0 := ['C']] == b;
    PopPush(b, 1, 0, [], 'M');
    assert ['C'] + ['M'] == ['C', 'M'];
    assert b[1 := []][0 := ['C', 'M']] == c;
  }

  lemma Sample1Step4()
    ensures CanMoveOneByOne([['C', 'M'], [], ['P', 'D', 'N', 'Z']], Procedure(1, 0, 1))
    ensures MoveMany([['C', 'M'], [], ['P', 'D', 'N', 'Z']], 0, 1, 1) == [['C'], ['M'], ['P', 'D', 'N', 'Z']]
  {
    var a: Stacks := [['C', 'M'], [], ['P', 'D', 'N', 'Z']];
    PopPush(a, 0, 1, ['C'], 'M');
    assert [] + ['M'] == ['M'];
    assert a[0 := ['C']][1 := ['M']] == [['C'], ['M'], ['P', 'D', 'N', 'Z']];
  }

  /** The example's crate-at-a-time rearrangement ends with C, M and Z on top. */
  lemma SampleRearrange1(stacks: Stacks, ps: seq<Procedure>)
    requires stacks == SampleStacks && ps == SampleProcedure
    ensures Runs1(stacks, ps)
    ensures Rearrange1(stacks, ps) == [['C'], ['M'], ['P', 'D', 'N', 'Z']]
    ensures Tops(Rearrange1(stacks, ps)) == "CMZ"
  {
    var s1: Stacks := [['Z', 'N', 'D'], ['M', 'C'], ['P']];
    var s2: Stacks := [[], ['M', 'C'], ['P', 'D', 'N', 'Z']];
    var s3: Stacks := [['C', 'M'], [], ['P', 'D', 'N', 'Z']];
    var s4: Stacks := [['C'], ['M'], ['P', 'D', 'N', 'Z']];
    assert ps[0] == Procedure(1, 1, 0) && ps[1] == Procedure(3, 0, 2);
    assert ps[2] == Procedure(2, 1, 0) && ps[3] == Procedure(1, 0, 1);
    Sample1Step1();
    Sample1Step2();
    Sample1Step3();
    Sample1Step4();
    Rearrange1OfFour(ps, stacks, s1, s2, s3, s4);
    SampleTops1();
  }

  /** The example's steps, a block at a time. */
  lemma Sample2Step1()
    ensures CanMoveBlock(SampleStacks, Procedure(1, 1, 0))
    ensures MoveBlock(SampleStacks, Procedure(1, 1, 0)) == [['Z', 'N', 'D'], ['M', 'C'], ['P']]
  {
    var a: Stacks := SampleStacks;
    SplitAppend(a, Procedure(1, 1, 0), ['M', 'C'], ['D']);
    assert ['Z', 'N'] + ['D'] == ['Z', 'N', 'D'];
    assert a[1 := ['M', 'C']][0 := ['Z', 'N', 'D']] == [['Z', 'N', 'D'], ['M', 'C'], ['P']];
  }

  lemma Sample2Step2()
    ensures CanMoveBlock([['Z', 'N', 'D'], ['M', 'C'], ['P']], Procedure(3, 0, 2))
    ensures MoveBlock([['Z', 'N', 'D'], ['M', 'C'], ['P']], Procedure(3, 0, 2)) == [[], ['M', 'C'], ['P', 'Z', 'N', 'D']]
  {
    var b: Stacks := [['Z', 'N', 'D'], ['M', 'C'], ['P']];
    SplitAppend(b, Procedure(3, 0, 2), [], ['Z', 'N', 'D']);
    assert ['P'] + ['Z', 'N', 'D'] == ['P', 'Z', 'N', 'D'];
    assert b[0 := []][2 := ['P', 'Z', 'N', 'D']] == [[], ['M', 'C'], ['P', 'Z', 'N', 'D']];
  }

  lemma Sample2Step3()
    ensures CanMoveBlock([[], ['M', 'C'], ['P', 'Z', 'N', 'D']], Procedure(2, 1, 0))
    ensures MoveBlock([[], ['M', 'C'], ['P', 'Z', 'N', 'D']], Procedure(2, 1, 0)) == [['M', 'C'], [], ['P', 'Z', 'N', 'D']]
  {
    var c: Stacks := [[], ['M', 'C'], ['P', 'Z', 'N', 'D']];
    SplitAppend(c, Procedure(2, 1, 0), [], ['M', 'C']);
    assert [] + ['M', 'C'] == ['M', 'C'];
    assert c[1 := []][0 := ['M', 'C']] == [['M', 'C'], [], ['P', 'Z', 'N', 'D']];
  }

  lemma Sample2Step4()
    ensures CanMoveBlock([['M', 'C'], [], ['P', 'Z', 'N', 'D']], Procedure(1, 0, 1))
    ensures MoveBlock([['M', 'C'], [], ['P', 'Z', 'N', 'D']], Procedure(1, 0, 1)) == [['M'], ['C'], ['P', 'Z', 'N', 'D']]
  {
    var d: Stacks := [['M', 'C'], [], ['P', 'Z', 'N', 'D']];
    SplitAppend(d, Procedure(1, 0, 1), ['M'], ['C']);
    assert [] + ['C'] == ['C'];
    assert d[0 := ['M']][1 := ['C']] == [['M'], ['C'], ['P', 'Z', 'N', 'D']];
  }

  lemma SampleTops1()
    ensures Tops([['C'], ['M'], ['P', 'D', 'N', 'Z']]) == "CMZ"
  {
  }

  lemma SampleTops2()
    ensures Tops([['M'], ['C'], ['P', 'Z', 'N', 'D']]) == "MCD"
  {
  }

  /** The example's block rearrangement ends with M, C and D on top. */
  lemma SampleRearrange2(stacks: Stacks, ps: seq<Procedure>)
    requires stacks == SampleStacks && ps == SampleProcedure
    ensures Runs2(stacks, ps)
    ensures Rearrange2(stacks, ps) == [['M'], ['C'], ['P', 'Z', 'N', 'D']]
    ensures Tops(Rearrange2(stacks, ps)) == "MCD"
  {
    var s1: Stacks := [['Z', 'N', 'D'], ['M', 'C'], ['P']];
    var s2: Stacks := [[], ['M', 'C'], ['P', 'Z', 'N', 'D']];
    var s3: Stacks := [['M', 'C'], [], ['P', 'Z', 'N', 'D']];
    var s4: Stacks := [['M'], ['C'], ['P', 'Z', 'N', 'D']];
    assert ps[0] == Procedure(1, 1, 0) && ps[1] == Procedure(3, 0, 2);
    assert ps[2] == Procedure(2, 1, 0) && ps[3] == Procedure(1, 0, 1);
    Sample2Step1();
    Sample2Step2();
    Sample2Step3();
    Sample2Step4();
    Rearrange2OfFour(ps, stacks, s1, s2, s3, s4);
    SampleTops2();
  }

  /** The example's drawing, top layer first, and the stack numbers under
      it. */
  const SampleLayers: seq<seq<Option<char>>> :=
    [[None, Some('D'), None], [Some('N'), Some('C'), None], [Some('Z'), Some('M'), Some('P')]]
  const SampleFooter: string := " 1   2   3 "

  lemma SampleDrawable()
    ensures DrawableLayers(SampleLayers) && Footer(SampleFooter)
  {
    var ls := SampleLayers;
    assert Drawable(ls[0]) && Drawable(ls[1]) && Drawable(ls[2]);
    var f := SampleFooter;
    assert f[..3][1] == '1' && f[0] != '[' && '\n' !in f;
  }

  lemma SamplePrintable()
    ensures forall k :: 0 <= k < |SampleProcedure| ==> Printable(SampleProcedure[k])
  {
    var ps := SampleProcedure;
    assert |ps| == 4;
    assert Printable(ps[0]) && Printable(ps[1]) && Printable(ps[2]) && Printable(ps[3]);
  }

  /** The example's whole text: the drawing, the footer and the four steps. */
  function SampleText(): (s: string)
    ensures |s| > 0
  {
    SampleDrawable();
    InputText(SampleLayers, SampleFooter, SampleProcedure)
  }

  lemma SampleColumns(layers: seq<seq<Option<char>>>)
    requires layers == SampleLayers
    ensures Transposable(layers)
    ensures seq(3, c requires 0 <= c < 3 => Column(layers, c)) == SampleStacks
  {
    assert Column(layers, 0) == ['Z', 'N'];
    assert Column(layers, 1) == ['M', 'C', 'D'];
    assert Column(layers, 2) == ['P'];
  }

  /** The example's text reads as its three layers and four steps, and its
      drawing shows the stacks ZN, MCD and P, bottom crate first. */
  lemma SampleInput(input: string)
    requires input == SampleText()
    ensures ParseInput(input) == Some((SampleLayers, SampleProcedure))
  {
    SampleDrawable();
    SamplePrintable();
    ParseInputOfText(SampleLayers, SampleFooter, SampleProcedure);
  }

  lemma SampleDrawn(input: string)
    requires ParseInput(input) == Some((SampleLayers, SampleProcedure))
    ensures Transposable(ParseInput(input).value.0) && Drawn(input) == SampleStacks
  {
    SampleColumns(SampleLayers);
  }

  /** Part one on the example's text: C, M and Z end on top. */
  lemma Sample1(input: string)
    requires input == SampleText()
    ensures Part1Defined(input) && Answer1(input) == "CMZ"
  {
    SampleInput(input);
    SampleDrawn(input);
    SampleRearrange1(SampleStacks, SampleProcedure);
  }

  /** Part two on the example's text: M, C and D end on top. */
  lemma Sample2(input: string)
    requires input == SampleText()
    ensures Part2Defined(input) && Answer2(input) == "MCD"
  {
    SampleInput(input);
    SampleDrawn(input);
    SampleRearrange2(SampleStacks, SampleProcedure);
  }
}

=== FILE: day06_tuning.dfy ===
/** Tuning trouble: the position just after the first window of `size`
    pairwise different letters in the datastream. */
module TuningTrouble {
  import opened Text

  /** The characters `encode_bits` maps to a bit of a `u32`: from 'a' on,
      since the subtraction underflows below it, and below 'a' + 32, since a
      wider shift overflows. Of those, only the ASCII ones are single bytes;
      every byte of a wider character is at least 0x80 and the first one is
      at least 0xC2, which overflows the shift. */
  predicate Encodable(c: char) {
    'a' <= c && c as int < 128
  }

  predicate AllEncodable(s: string) {
    forall k :: 0 <= k < |s| ==> Encodable(s[k])
  }

  /** `encode_bits`: the bit a character sets, as its index. */
  function Bit(c: char): (n: nat)
    requires Encodable(c)
    ensures n < 31
  {
    (c as int) - ('a' as int)
  }

  /** The bits OR-ed together over a window, as a set of indices. */
  function Bits(w: string): set<nat>
    requires AllEncodable(w)
  {
    if |w| == 0 then {} else {Bit(w[0])} + Bits(w[1..])
  }

  /** `is_marker`: as many bits set as there are letters, which is exactly
      when the window's letters are pairwise different. */
  predicate IsMarker(w: string): (b: bool)
    requires AllEncodable(w)
    ensures b <==> Distinct(w)
  {
    BitsCountIffDistinct(w);
    |Bits(w)| == |w|
  }

  predicate Distinct(w: string) {
    forall i, j :: 0 <= i < j < |w| ==> w[i] != w[j]
  }

  lemma {:induction false} BitsMembers(w: string, c: char)
    requires AllEncodable(w) && Encodable(c)
    ensures Bit(c) in Bits(w) <==> c in w
    decreases |w|
  {
    if |w| > 0 {
      BitsMembers(w[1..], c);
      assert w == [w[0]] + w[1..];
    }
  }

  lemma {:induction false} BitsSize(w: string)
    requires AllEncodable(w)
    ensures |Bits(w)| <= |w|
    decreases |w|
  {
    if |w| > 0 {
      BitsSize(w[1..]);
    }
  }

  /** A window sets one bit per letter exactly when its letters are pairwise
      different. */
  lemma {:induction false} BitsCountIffDistinct(w: string)
    requires AllEncodable(w)
    ensures |Bits(w)| == |w| <==> Distinct(w)
    decreases |w|
  {
    if |w| > 0 {
      var rest := w[1..];
      BitsCountIffDistinct(rest);
      BitsMembers(rest, w[0]);
      BitsSize(rest);
      if w[0] in rest {
        var j :| 0 <= j < |rest| && rest[j] == w[0];
        assert w[0] == w[j + 1];
        assert !Distinct(w);
      } else {
        assert |Bits(w)| == 1 + |Bits(rest)|;
        if Distinct(rest) {
          forall i, j | 0 <= i < j < |w|
            ensures w[i] != w[j]
          {
            if i == 0 {
              assert w[j] == rest[j - 1];
            } else {
              assert w[i] == rest[i - 1] && w[j] == rest[j - 1];
            }
          }
        } else {
          var i, j :| 0 <= i < j < |rest| && rest[i] == rest[j];
          assert w[i + 1] == w[j + 1];
        }
      }
    }
  }

  /** The window of `size` letters that starts at `p`. */
  function Window(s: string, p: nat, size: nat): string
    requires p + size <= |s|
  {
    s[p..p + size]
  }

  /** What reading the windows in order comes to: the index of the first
      marker, no marker at all, or a panic in `encode_bits` on a window
      read before any marker. */
  datatype Search = Found(n: nat) | NotFound | Panics

  /** `position` over `windows(size)`, from the window at `p` on: each
      window is encoded in full before it is tested, and the search stops at
      the first marker. */
  function Position(s: string, size: nat, p: nat): (r: Search)
    requires p + size <= |s| + 1
    ensures r.Found? ==> p <= r.n && r.n + size <= |s|
    ensures r.Found? ==> AllEncodable(Window(s, r.n, size)) && IsMarker(Window(s, r.n, size))
    ensures r.Found? ==> forall q: nat :: p <= q < r.n ==>
      AllEncodable(Window(s, q, size)) && !IsMarker(Window(s, q, size))
    ensures r.NotFound? ==> forall q: nat :: p <= q && q + size <= |s| ==>
      AllEncodable(Window(s, q, size)) && !IsMarker(Window(s, q, size))
    ensures r.Panics? ==> exists q: nat :: (p <= q && q + size <= |s| && !AllEncodable(Window(s, q, size)) &&
      forall q': nat :: p <= q' < q ==> AllEncodable(Window(s, q', size)) && !IsMarker(Window(s, q', size)))
    decreases |s| - p
  {
    if p + size > |s| then NotFound
    else if !AllEncodable(Window(s, p, size)) then Panics
    else if IsMarker(Window(s, p, size)) then Found(p)
    else Position(s, size, p + 1)
  }

  /** The windows of `s` that start at `0` up to `last` cover its first
      `last + size` characters. */
  lemma CoveredPrefix(s: string, size: nat, last: nat)
    requires size > 0 && last + size <= |s|
    requires forall q: nat :: q <= last ==> AllEncodable(Window(s, q, size))
    ensures AllEncodable(s[..last + size])
  {
    forall k | 0 <= k < last + size
      ensures Encodable(s[k])
    {
      var q: nat := if k <= last then k else last;
      assert AllEncodable(Window(s, q, size));
      assert Window(s, q, size)[k - q] == s[k];
    }
  }

  /** `find_marker`: the number of characters read when the first marker
      is complete. Every character read must be encodable; nothing after
      the marker is read. `windows` panics on a size of 0. */
  function FindMarker(s: string, size: nat): (r: Search)
    requires size > 0
    ensures r.Found? ==> size <= r.n <= |s|
    ensures r.Found? ==> AllEncodable(s[..r.n]) && Distinct(s[r.n - size..r.n])
    ensures r.Found? ==> forall q: nat :: q + size < r.n ==> !Distinct(Window(s, q, size))
    ensures r.NotFound? ==> forall q: nat :: q + size <= |s| ==>
      AllEncodable(Window(s, q, size)) && !Distinct(Window(s, q, size))
    ensures r.Panics? ==> exists q: nat :: (q + size <= |s| && !AllEncodable(Window(s, q, size)) &&
      forall q': nat :: q' < q ==> AllEncodable(Window(s, q', size)) && !Distinct(Window(s, q', size)))
  {
    var r := if size > |s| then NotFound else Position(s, size, 0);
    match r
    case NotFound => NotFound
    case Panics => Panics
    case Found(p) =>
      assert Window(s, p, size) == s[p..p + size];
      CoveredPrefix(s, size, p);
      Found(p + size)
  }

  /** `part1`: a start-of-packet marker is four letters; `unwrap` panics
      when there is none. */
  function Part1(input: string): (n: nat)
    requires FindMarker(input, 4).Found?
    ensures 4 <= n <= |input|
  {
    FindMarker(input, 4).n
  }

  /** `part2`: a start-of-message marker is fourteen letters. */
  function Part2(input: string): (n: nat)
    requires FindMarker(input, 14).Found?
    ensures 14 <= n <= |input|
  {
    FindMarker(input, 14).n
  }

  /** The answer is `p` exactly when the window ending at `p` is the first
      one without a repeat and everything before it is encodable. */
  lemma FindMarkerAt(s: string, size: nat, p: nat)
    requires size > 0 && size <= p <= |s|
    requires AllEncodable(s[..p]) && Distinct(s[p - size..p])
    requires forall q: nat :: q + size < p ==> !Distinct(Window(s, q, size))
    ensures FindMarker(s, size) == Found(p)
  {
    forall q: nat | q + size <= p
      ensures AllEncodable(Window(s, q, size))
    {
      assert forall k :: 0 <= k < size ==> Window(s, q, size)[k] == s[..p][q + k];
    }
    assert Window(s, p - size, size) == s[p - size..p];
  }

  /** On a text whose characters are all encodable the search never
      panics. */
  lemma NoPanicWhenEncodable(s: string, size: nat)
    requires size > 0 && AllEncodable(s)
    ensures !FindMarker(s, size).Panics?
  {
    if FindMarker(s, size).Panics? {
      var q: nat :| q + size <= |s| && !AllEncodable(Window(s, q, size));
      assert forall k :: 0 <= k < size ==> Window(s, q, size)[k] == s[q + k];
    }
  }

  /** `position` over a longer text agrees with the shorter one as soon as
      the shorter one has found its marker. */
  lemma {:induction false} PositionExtended(s: string, t: string, size: nat, p: nat)
    requires p + size <= |s| + 1
    requires Position(s, size, p).Found?
    ensures Position(s + t, size, p) == Position(s, size, p)
    decreases |s| - p
  {
    assert Window(s + t, p, size) == Window(s, p, size);
    if !IsMarker(Window(s, p, size)) {
      PositionExtended(s, t, size, p + 1);
    }
  }

  /** Nothing after the first marker is read: text appended behind it, a
      final newline for instance, does not change the answer. */
  lemma TrailingTextUnread(s: string, t: string, size: nat)
    requires size > 0 && FindMarker(s, size).Found?
    ensures FindMarker(s + t, size) == FindMarker(s, size)
  {
    PositionExtended(s, t, size, 0);
  }

  const Sample1: string := "mjqjpqmgbljsphdztnvjfqwrcgsmlb"

  lemma Sample1Encodable()
    ensures AllEncodable(Sample1)
  {
  }

  lemma DistinctFour(w: string)
    requires |w| == 4
    requires w[0] != w[1] && w[0] != w[2] && w[0] != w[3]
    requires w[1] != w[2] && w[1] != w[3] && w[2] != w[3]
    ensures Distinct(w)
  {
    forall i, j | 0 <= i < j < 4
      ensures w[i] != w[j]
    {
      if i == 0 {
        assert j == 1 || j == 2 || j == 3;
      } else if i == 1 {
        assert j == 2 || j == 3;
      }
    }
  }

  /** The first three windows of the first example repeat a letter; the
      fourth, "jpqm", does not. */
  lemma Sample1Windows(s: string)
    requires s == Sample1
    ensures !Distinct(Window(s, 0, 4)) && !Distinct(Window(s, 1, 4)) && !Distinct(Window(s, 2, 4))
    ensures Distinct(s[3..7])
  {
    assert s[1] == 'j';
    assert s[2] == 'q';
    assert s[3] == 'j';
    assert s[4] == 'p';
    assert s[5] == 'q';
    assert s[6] == 'm';
    assert Window(s, 0, 4)[1] == s[1] && Window(s, 0, 4)[3] == s[3];
    assert Window(s, 1, 4)[0] == s[1] && Window(s, 1, 4)[2] == s[3];
    assert Window(s, 2, 4)[0] == s[2] && Window(s, 2, 4)[3] == s[5];
    var w := s[3..7];
    assert w[0] == 'j' && w[1] == 'p' && w[2] == 'q' && w[3] == 'm';
    DistinctFour(w);
  }

  lemma FirstThreeRepeat(s: string)
    requires |s| >= 7
    requires !Distinct(Window(s, 0, 4)) && !Distinct(Window(s, 1, 4)) && !Distinct(Window(s, 2, 4))
    ensures forall q: nat :: q + 4 < 7 ==> !Distinct(Window(s, q, 4))
  {
    forall q: nat | q + 4 < 7
      ensures !Distinct(Window(s, q, 4))
    {
      assert q == 0 || q == 1 || q == 2;
    }
  }

  /** The first example of the tests: the marker is complete after 7
      letters, with or without a newline behind the datastream. */
  lemma SamplePart1(s: string)
    requires s == Sample1
    ensures FindMarker(s, 4) == Found(7) && Part1(s) == 7
    ensures FindMarker(s + "\n", 4) == Found(7)
  {
    Sample1Encodable();
    assert AllEncodable(s[..7]);
    Sample1Windows(s);
    FirstThreeRepeat(s);
    FindMarkerAt(s, 4, 7);
    TrailingTextUnread(s, "\n", 4);
  }

  /** A newline ends a datastream with no marker in a panic: '\n' lies
      below 'a'. */
  lemma NewlineBeforeMarkerPanics(s: string)
    requires s == "abc\n"
    ensures FindMarker(s, 4) == Panics
  {
    assert !Encodable(Window(s, 0, 4)[3]);
  }
}

=== FILE: day07_space.dfy ===
/** No space left on device: the terminal session (`cd`, `ls` and their
    output) is parsed line by line, the size of every directory entered is
    summed in one pass, the small directories are added up and the smallest
    directory whose deletion frees enough space is found. */
module NoSpace {
  import opened Text

  // ---------------------------------------------------------------------------
  // Lines of the session

  datatype Command = Cd(path: string) | Ls

  datatype Output = Command(cmd: Command) | File(name: string, size: nat) | Dir(name: string)

  /** Rust's `u64`. */
  const U64Bound: nat := 0x1_0000_0000_0000_0000

  predicate IsSpace(c: char) {
    c == ' ' || c == '\t'
  }

  /** Length of the run of spaces and tabs at the start of `s`. */
  function SpaceSpan(s: string): (n: nat)
    ensures n <= |s|
    ensures forall k :: 0 <= k < n ==> IsSpace(s[k])
    ensures n < |s| ==> !IsSpace(s[n])
  {
    if |s| == 0 || !IsSpace(s[0]) then 0 else 1 + SpaceSpan(s[1..])
  }

  predicate StartsWith(s: string, lit: string) {
    |lit| <= |s| && s[..|lit|] == lit
  }

  /** `separated_pair(tag(lit), space1, rest)`: the text after `lit` and at
      least one space or tab. */
  function AfterTag(s: string, lit: string): (r: Option<string>)
    ensures r.Some? ==> |r.value| < |s|
  {
    if !StartsWith(s, lit) then None
    else
      var n := SpaceSpan(s[|lit|..]);
      if n == 0 then None else Some(s[|lit|..][n..])
  }

  /** `parse_command`: "$", spaces, then "cd", spaces and the path, or "ls"
      (whatever follows "ls" is left unread). Only a line starting with "$"
      is a command. */
  function ParseCommand(s: string): (r: Option<Output>)
    ensures r.Some? ==> r.value.Command? && StartsWith(s, "$")
  {
    match AfterTag(s, "$")
    case None => None
    case Some(t) =>
      match AfterTag(t, "cd")
      case Some(path) => Some(Command(Cd(path)))
      case None => if StartsWith(t, "ls") then Some(Command(Ls)) else None
  }

  /** `parse_stdout`: "dir", spaces and a name, or a `u64` size, spaces and a
      name. The name is a proper suffix of the line, and a size fits in
      `u64`. */
  function ParseStdout(s: string): (r: Option<Output>)
    ensures r.Some? ==> !r.value.Command? && |r.value.name| < |s|
    ensures r.Some? && r.value.File? ==> r.value.size < U64Bound
  {
    match AfterTag(s, "dir")
    case Some(name) => Some(Dir(name))
    case None =>
      var n := DigitSpan(s);
      if n == 0 || DecimalValue(s[..n]) >= U64Bound then None
      else
        var m := SpaceSpan(s[n..]);
        if m == 0 then None else Some(File(s[n..][m..], DecimalValue(s[..n])))
  }

  /** `parse_line`: commands are tried first. */
  function ParseLine(s: string): (r: Option<Output>)
    ensures StartsWith(s, "$") ==> r == ParseCommand(s)
  {
    match ParseCommand(s)
    case Some(o) => Some(o)
    case None => if StartsWith(s, "$") then None else ParseStdout(s)
  }

  /** The text of a line, as the terminal shows it. */
  function Show(o: Output): string {
    match o
    case Command(Cd(path)) => "$ cd " + path
    case Command(Ls) => "$ ls"
    case Dir(name) => "dir " + name
    case File(name, size) => NatToString(size) + " " + name
  }

  /** Names and paths as `rest` reads them back: not starting with a space. */
  predicate Bare(name: string) {
    |name| == 0 || !IsSpace(name[0])
  }

  lemma AfterTagShown(lit: string, name: string)
    requires Bare(name)
    ensures AfterTag(lit + " " + name, lit) == Some(name)
  {
    var s := lit + " " + name;
    assert s[..|lit|] == lit;
    assert s[|lit|..] == " " + name;
    assert (" " + name)[1..] == name;
  }

  lemma ParseShowCd(path: string)
    requires Bare(path)
    ensures ParseLine(Show(Command(Cd(path)))) == Some(Command(Cd(path)))
  {
    var t := "cd " + path;
    assert "$ cd " + path == "$" + " " + t;
    AfterTagShown("$", t);
    AfterTagShown("cd", path);
    assert ParseCommand("$ cd " + path) == Some(Command(Cd(path)));
  }

  lemma ParseShowLs()
    ensures ParseLine(Show(Command(Ls))) == Some(Command(Ls))
  {
    assert "$ ls" == "$" + " " + "ls";
    AfterTagShown("$", "ls");
    assert "ls"[..2] == "ls";
  }

  lemma ParseShowDir(name: string)
    requires Bare(name)
    ensures ParseLine(Show(Dir(name))) == Some(Dir(name))
  {
    assert "dir " + name == "dir" + " " + name;
    AfterTagShown("dir", name);
  }

  lemma FileTextParts(d: string, name: string)
    requires |d| > 0 && AllDigits(d) && Bare(name)
    ensures var s := d + " " + name;
      DigitSpan(s) == |d| && s[..|d|] == d && s[|d|..] == " " + name
  {
    var s := d + " " + name;
    DigitSpanOfDigitsThen(d, " " + name);
    assert s == d + (" " + name);
  }

  lemma SpaceThenName(name: string)
    requires Bare(name)
    ensures SpaceSpan(" " + name) == 1 && (" " + name)[1..] == name
  {
  }

  /** A size, a space and a name read as that file. */
  lemma ParseStdoutFile(d: string, name: string)
    requires |d| > 0 && AllDigits(d) && Bare(name) && DecimalValue(d) < U64Bound
    ensures ParseStdout(d + " " + name) == Some(File(name, DecimalValue(d)))
  {
    var s := d + " " + name;
    assert IsDigit(s[0]);
    NotTagged(s, "dir");
    FileTextParts(d, name);
    SpaceThenName(name);
    var n := DigitSpan(s);
    assert s[..n] == d && s[n..] == " " + name;
  }

  /** A line whose first character differs from the tag's does not carry it. */
  lemma NotTagged(s: string, lit: string)
    requires |s| > 0 && |lit| > 0 && s[0] != lit[0]
    ensures AfterTag(s, lit) == None
  {
    if |lit| <= |s| {
      assert s[..|lit|][0] != lit[0];
    }
  }

  /** A line that does not start with "$" is read as output. */
  lemma ParseLineOutput(s: string)
    requires |s| > 0 && s[0] != '$'
    ensures ParseLine(s) == ParseStdout(s)
  {
    NotTagged(s, "$");
  }

  lemma ParseShowFile(name: string, size: nat)
    requires Bare(name) && size < U64Bound
    ensures ParseLine(Show(File(name, size))) == Some(File(name, size))
  {
    var d := NatToString(size);
    DecimalValueOfNatToString(size);
    ParseStdoutFile(d, name);
    ParseLineOutput(d + " " + name);
  }

  /** Every line the terminal can show parses back to itself. */
  lemma ParseShow(o: Output)
    requires o.Command? && o.cmd.Cd? ==> Bare(o.cmd.path)
    requires o.Dir? || o.File? ==> Bare(o.name)
    requires o.File? ==> o.size < U64Bound
    ensures ParseLine(Show(o)) == Some(o)
  {
    match o
    case Command(Cd(path)) => ParseShowCd(path);
    case Command(Ls) => ParseShowLs();
    case Dir(name) => ParseShowDir(name);
    case File(name, size) => ParseShowFile(name, size);
  }

  /** A line the parser reads back: a name or path that does not start with
      a space and fits on its line, a size a `u64` holds. */
  predicate Showable(o: Output) {
    match o
    case Command(Cd(path)) => Bare(path) && PlainLine(path)
    case Command(Ls) => true
    case Dir(name) => Bare(name) && PlainLine(name)
    case File(name, size) => Bare(name) && PlainLine(name) && size < U64Bound
  }

  lemma ShowPlain(o: Output)
    requires Showable(o)
    ensures PlainLine(Show(o))
  {
    match o
    case Command(Cd(path)) => PlainConcat("$ cd ", path);
    case Command(Ls) =>
    case Dir(name) => PlainConcat("dir ", name);
    case File(name, size) =>
      DigitsPlain(NatToString(size));
      PlainConcat(NatToString(size), " ");
      PlainConcat(NatToString(size) + " ", name);
  }

  /** A session as the terminal shows it, a line per command or output. */
  function SessionText(outs: seq<Output>): string {
    Terminated(seq(|outs|, k requires 0 <= k < |outs| => Show(outs[k])))
  }

  /** Reading a shown session line by line gives back every line. */
  lemma ParsedOfText(outs: seq<Output>)
    requires forall k :: 0 <= k < |outs| ==> Showable(outs[k])
    ensures Parsed(Lines(SessionText(outs))) == seq(|outs|, k requires 0 <= k < |outs| => Some(outs[k]))
  {
    var ls := seq(|outs|, k requires 0 <= k < |outs| => Show(outs[k]));
    forall k | 0 <= k < |outs|
      ensures PlainLine(ls[k]) && ParseLine(ls[k]) == Some(outs[k])
    {
      ShowPlain(outs[k]);
      ParseShow(outs[k]);
    }
    LinesOfTerminated(ls);
  }

  // ---------------------------------------------------------------------------
  // Directory sizes

  /** The sizes `disk_usage` reports when it reads the parsed lines from
      `pos` on, having summed `total` for the current directory and collected
      `subdirs` so far; with the position after the last line read. A line
      that does not parse makes `parse` panic: `None`. */
  function Scan(outs: seq<Option<Output>>, pos: nat, total: nat, subdirs: seq<nat>): (r: Option<(seq<nat>, nat)>)
    requires pos <= |outs|
    ensures r.Some? ==> pos <= r.value.1 <= |outs|
    ensures r.Some? ==> |r.value.0| > |subdirs|
    decreases |outs| - pos
  {
    if pos == |outs| then Some((subdirs + [total], pos))
    else match outs[pos]
      case None => None
      case Some(Command(Cd(name))) =>
        if name == ".." then Some((subdirs + [total], pos + 1))
        else if name == "/" then Scan(outs, pos + 1, total, subdirs)
        else
          (match Scan(outs, pos + 1, 0, [])
           case None => None
           case Some((child, next)) =>
             Scan(outs, next, total + child[|child| - 1], subdirs + child))
      case Some(Command(Ls)) => Scan(outs, pos + 1, total, subdirs)
      case Some(File(_, size)) => Scan(outs, pos + 1, total + size, subdirs)
      case Some(Dir(_)) => Scan(outs, pos + 1, total, subdirs)
  }

  function Parsed(lines: seq<string>): (outs: seq<Option<Output>>)
    ensures |outs| == |lines|
  {
    seq(|lines|, k requires 0 <= k < |lines| => ParseLine(lines[k]))
  }

  /** Parse the line at `pos`, as the view `outs` has it. */
  method ReadLine(lines: seq<string>, ghost outs: seq<Option<Output>>, pos: nat) returns (out: Option<Output>)
    requires |outs| == |lines|
    requires forall k {:trigger ParseLine(lines[k])} :: 0 <= k < |lines| ==> ParseLine(lines[k]) == outs[k]
    requires pos < |lines|
    ensures out == outs[pos]
  {
    out := ParseLine(lines[pos]);
  }

  /** `disk_usage`: read lines until they run out or a `cd ..` ends the
      current directory; a `cd` into a directory reads that directory
      first and adds its total. The result lists the totals of the
      directories entered, each after those of its subdirectories, and ends
      with the current directory's. */
  method DiskUsage(lines: seq<string>, ghost outs: seq<Option<Output>>, start: nat) returns (sizes: seq<nat>, next: nat)
    requires |outs| == |lines|
    requires forall k {:trigger ParseLine(lines[k])} :: 0 <= k < |lines| ==> ParseLine(lines[k]) == outs[k]
    requires start <= |lines|
    requires Scan(outs, start, 0, []).Some?
    ensures (sizes, next) == Scan(outs, start, 0, []).value
    decreases |lines| - start
  {
    var total: nat := 0;
    var subdirs: seq<nat> := [];
    var pos := start;
    var done := false;
    while pos < |lines| && !done
      invariant start <= pos <= |lines|
      invariant !done ==> Scan(outs, pos, total, subdirs) == Scan(outs, start, 0, [])
      invariant done ==> Scan(outs, start, 0, []) == Some((subdirs + [total], pos))
      decreases |lines| - pos, if done then 0 else 1
    {
      var out := ReadLine(lines, outs, pos);
      pos := pos + 1;
      match out.value
      case Command(Cd(name)) =>
        if name == ".." {
          done := true;
        } else if name == "/" {
        } else {
          var child, after := DiskUsage(lines, outs, pos);
          subdirs := subdirs + child;
          total := total + child[|child| - 1];
          pos := after;
        }
      case Command(Ls) =>
      case File(_, size) =>
        total := total + size;
      case Dir(_) =>
    }
    sizes := subdirs + [total];
    next := pos;
  }

  /** The sizes of the whole session, read from its first line. */
  ghost function Usage(input: string): (sizes: seq<nat>)
    requires Scan(Parsed(Lines(input)), 0, 0, []).Some?
    ensures |sizes| > 0
  {
    Scan(Parsed(Lines(input)), 0, 0, []).value.0
  }

  /** The size of a file line, 0 for any other line. */
  function FileSize(o: Option<Output>): nat {
    if o.Some? && o.value.File? then o.value.size else 0
  }

  /** The sizes of the files listed in lines `lo` to `hi - 1`. */
  function FileSum(outs: seq<Option<Output>>, lo: nat, hi: nat): nat
    requires lo <= hi <= |outs|
    decreases hi - lo
  {
    if lo == hi then 0 else FileSize(outs[lo]) + FileSum(outs, lo + 1, hi)
  }

  lemma {:induction false} FileSumSplit(outs: seq<Option<Output>>, lo: nat, mid: nat, hi: nat)
    requires lo <= mid <= hi <= |outs|
    ensures FileSum(outs, lo, hi) == FileSum(outs, lo, mid) + FileSum(outs, mid, hi)
    decreases mid - lo
  {
    if lo < mid {
      FileSumSplit(outs, lo + 1, mid, hi);
    }
  }

  /** The last size reported is the current directory's: every file listed
      while it was current, at any depth below it, counted once. */
  lemma {:induction false} LastIsAllFiles(outs: seq<Option<Output>>, pos: nat, total: nat, subdirs: seq<nat>)
    requires pos <= |outs| && Scan(outs, pos, total, subdirs).Some?
    ensures var (r, next) := Scan(outs, pos, total, subdirs).value;
      r[|r| - 1] == total + FileSum(outs, pos, next)
    decreases |outs| - pos
  {
    if pos < |outs| {
      match outs[pos].value
      case Command(Cd(name)) =>
        if name == ".." {
        } else if name == "/" {
          LastIsAllFiles(outs, pos + 1, total, subdirs);
        } else {
          var (child, next) := Scan(outs, pos + 1, 0, []).value;
          LastIsAllFiles(outs, pos + 1, 0, []);
          LastIsAllFiles(outs, next, total + child[|child| - 1], subdirs + child);
          var end := Scan(outs, pos, total, subdirs).value.1;
          FileSumSplit(outs, pos + 1, next, end);
        }
      case Command(Ls) =>
        LastIsAllFiles(outs, pos + 1, total, subdirs);
      case File(_, size) =>
        LastIsAllFiles(outs, pos + 1, total + size, subdirs);
      case Dir(_) =>
        LastIsAllFiles(outs, pos + 1, total, subdirs);
    }
  }

  /** No entry of `s` exceeds `bound`. */
  predicate AtMost(s: seq<nat>, bound: nat) {
    forall k :: 0 <= k < |s| ==> s[k] <= bound
  }

  /** No directory is larger than the one whose size comes last, since it
      contains them all. */
  lemma {:induction false} LastIsLargest(outs: seq<Option<Output>>, pos: nat, total: nat, subdirs: seq<nat>)
    requires pos <= |outs| && Scan(outs, pos, total, subdirs).Some?
    requires AtMost(subdirs, total)
    ensures var r := Scan(outs, pos, total, subdirs).value.0;
      AtMost(r, r[|r| - 1])
    decreases |outs| - pos
  {
    if pos < |outs| {
      match outs[pos].value
      case Command(Cd(name)) =>
        if name == ".." {
        } else if name == "/" {
          LastIsLargest(outs, pos + 1, total, subdirs);
        } else {
          var (child, next) := Scan(outs, pos + 1, 0, []).value;
          LastIsLargest(outs, pos + 1, 0, []);
          var total' := total + child[|child| - 1];
          assert AtMost(subdirs + child, total') by {
            assert AtMost(child, child[|child| - 1]);
          }
          LastIsLargest(outs, next, total', subdirs + child);
        }
      case Command(Ls) =>
        LastIsLargest(outs, pos + 1, total, subdirs);
      case File(_, size) =>
        LastIsLargest(outs, pos + 1, total + size, subdirs);
      case Dir(_) =>
        LastIsLargest(outs, pos + 1, total, subdirs);
    } else {
      assert AtMost(subdirs + [total], total);
    }
  }

  /** The whole session: the last size is that of every file listed, and
      it is the largest. */
  lemma RootIsLargest(outs: seq<Option<Output>>)
    requires Scan(outs, 0, 0, []).Some?
    ensures var (sizes, next) := Scan(outs, 0, 0, []).value;
      sizes[|sizes| - 1] == FileSum(outs, 0, next) && AtMost(sizes, sizes[|sizes| - 1])
  {
    LastIsAllFiles(outs, 0, 0, []);
    LastIsLargest(outs, 0, 0, []);
  }

  // ---------------------------------------------------------------------------
  // Part one

  /** The sum of the sizes below 100000. */
  function SmallSum(sizes: seq<nat>): (n: nat)
    ensures n <= 99999 * |sizes|
  {
    if |sizes| == 0 then 0
    else (if sizes[0] < 100000 then sizes[0] else 0) + SmallSum(sizes[1..])
  }

  /** The order of the sizes does not matter. */
  lemma {:induction false} SmallSumAppend(a: seq<nat>, b: seq<nat>)
    ensures SmallSum(a + b) == SmallSum(a) + SmallSum(b)
    decreases |a|
  {
    if |a| == 0 {
      assert a + b == b;
    } else {
      assert (a + b)[1..] == a[1..] + b;
      SmallSumAppend(a[1..], b);
    }
  }

  lemma SmallSumSwap(a: seq<nat>, b: seq<nat>)
    ensures SmallSum(a + b) == SmallSum(b + a)
  {
    SmallSumAppend(a, b);
    SmallSumAppend(b, a);
  }

  /** `part1`. */
  method Part1(input: string) returns (total: nat)
    requires Scan(Parsed(Lines(input)), 0, 0, []).Some?
    ensures total == SmallSum(Usage(input))
  {
    var sizes, _ := DiskUsage(Lines(input), Parsed(Lines(input)), 0);
    total := SmallSum(sizes);
  }

  // ---------------------------------------------------------------------------
  // Part two

  predicate Sorted(s: seq<nat>) {
    forall k, m :: 0 <= k < m < |s| ==> s[k] <= s[m]
  }

  /** The first `n` sizes are in order. */
  predicate SortedBelow(s: seq<nat>, n: nat)
    requires n <= |s|
  {
    forall k, m :: 0 <= k < m < n ==> s[k] <= s[m]
  }

  /** While `s[j]` moves down through `s[..i + 1]`: the other sizes there are
      in order, and `s[j]` is at most every size above it. */
  predicate Inserting(s: seq<nat>, j: nat, i: nat)
    requires j <= i < |s|
  {
    (forall k, m :: 0 <= k < m <= i && k != j && m != j ==> s[k] <= s[m]) &&
    (forall m :: j < m <= i ==> s[j] <= s[m])
  }

  lemma SwapDown(s: seq<nat>, j: nat, i: nat)
    requires 0 < j <= i < |s| && Inserting(s, j, i) && s[j - 1] > s[j]
    ensures Inserting(s[j - 1 := s[j]][j := s[j - 1]], j - 1, i)
  {
  }

  lemma StopInserting(s: seq<nat>, j: nat, i: nat)
    requires j <= i < |s| && Inserting(s, j, i)
    requires j == 0 || s[j - 1] <= s[j]
    ensures SortedBelow(s, i + 1)
  {
  }

  /** `sort_unstable`, as an insertion sort. */
  method SortSizes(a: array<nat>)
    modifies a
    ensures Sorted(a[..])
    ensures multiset(a[..]) == old(multiset(a[..]))
  {
    var i := 0;
    while i < a.Length
      invariant i <= a.Length
      invariant SortedBelow(a[..], i)
      invariant multiset(a[..]) == old(multiset(a[..]))
    {
      InsertSize(a, i);
      i := i + 1;
    }
  }

  /** Moves `a[i]` down into the sorted run `a[..i]`. */
  method InsertSize(a: array<nat>, i: nat)
    requires i < a.Length && SortedBelow(a[..], i)
    modifies a
    ensures SortedBelow(a[..], i + 1)
    ensures multiset(a[..]) == old(multiset(a[..]))
  {
    var j := i;
    while j > 0 && a[j - 1] > a[j]
      invariant 0 <= j <= i
      invariant Inserting(a[..], j, i)
      invariant multiset(a[..]) == old(multiset(a[..]))
    {
      SwapDown(a[..], j, i);
      a[j - 1], a[j] := a[j], a[j - 1];
      j := j - 1;
    }
    StopInserting(a[..], j, i);
  }

  const DiskSize: nat := 70_000_000
  const NeededSpace: nat := 30_000_000

  /** `s` is the smallest of `sizes` that is at least `missing`. */
  predicate SmallestAtLeast(s: nat, sizes: seq<nat>, missing: nat) {
    s in sizes && s >= missing && forall k :: 0 <= k < |sizes| && sizes[k] >= missing ==> s <= sizes[k]
  }

  /** The first entry of a sorted array that is at least `missing`. */
  method FirstAtLeast(a: array<nat>, missing: nat) returns (i: nat)
    requires Sorted(a[..])
    requires exists k :: 0 <= k < a.Length && a[k] >= missing
    ensures i < a.Length && a[i] >= missing
    ensures forall k :: 0 <= k < a.Length && a[k] >= missing ==> a[i] <= a[k]
  {
    i := 0;
    while a[i] < missing
      invariant 0 <= i < a.Length
      invariant forall k :: 0 <= k < i ==> a[k] < missing
      decreases a.Length - i
    {
      i := i + 1;
    }
  }

  /** The space to free once the largest size, the space in use, is known;
      and the smallest size that frees it. The `u64` subtractions need
      `40_000_000 <= used <= 70_000_000`; the largest size then always
      qualifies, so the `expect` never fails. */
  method FreeUp(sizes: seq<nat>) returns (freed: nat)
    requires |sizes| > 0 && AtMost(sizes, sizes[|sizes| - 1])
    requires DiskSize - NeededSpace <= sizes[|sizes| - 1] <= DiskSize
    ensures SmallestAtLeast(freed, sizes, NeededSpace - (DiskSize - sizes[|sizes| - 1]))
  {
    var a := new nat[|sizes|](k requires 0 <= k < |sizes| => sizes[k]);
    assert a[..] == sizes;
    SortSizes(a);
    var root := sizes[|sizes| - 1];
    var used := a[a.Length - 1];
    assert used == root by {
      assert root in multiset(a[..]);
      assert used in multiset(sizes);
    }
    var missing := NeededSpace - (DiskSize - used);
    assert a[a.Length - 1] >= missing;
    var i := FirstAtLeast(a, missing);
    freed := a[i];
    assert freed in multiset(sizes);
    forall k | 0 <= k < |sizes| && sizes[k] >= missing
      ensures freed <= sizes[k]
    {
      assert sizes[k] in multiset(a[..]);
    }
  }

  /** `part2`: the smallest directory whose deletion leaves the 30_000_000
      needed out of 70_000_000. */
  method Part2(input: string) returns (freed: nat)
    requires Scan(Parsed(Lines(input)), 0, 0, []).Some?
    requires var sizes := Usage(input);
      DiskSize - NeededSpace <= sizes[|sizes| - 1] <= DiskSize
    ensures var sizes := Usage(input);
      SmallestAtLeast(freed, sizes, NeededSpace - (DiskSize - sizes[|sizes| - 1]))
  {
    var sizes, _ := DiskUsage(Lines(input), Parsed(Lines(input)), 0);
    RootIsLargest(Parsed(Lines(input)));
    freed := FreeUp(sizes);
  }

  // ---------------------------------------------------------------------------
  // The example session

  /** The example session, parsed line by line. */
  function SampleSession(): seq<Option<Output>> {
    [ Some(Command(Cd("/"))), Some(Command(Ls)), Some(Dir("a")),
      Some(File("b.txt", 14848514)), Some(File("c.dat", 8504156)), Some(Dir("d")),
      Some(Command(Cd("a"))), Some(Command(Ls)), Some(Dir("e")),
      Some(File("f", 29116)), Some(File("g", 2557)), Some(File("h.lst", 62596)),
      Some(Command(Cd("e"))), Some(Command(Ls)), Some(File("i", 584)),
      Some(Command(Cd(".."))), Some(Command(Cd(".."))), Some(Command(Cd("d"))),
      Some(Command(Ls)), Some(File("j", 4060174)), Some(File("d.log", 8033020)),
      Some(File("d.ext", 5626152)), Some(File("k", 7214296)) ]
  }

  lemma SampleDirE()
    ensures Scan(SampleSession(), 13, 0, []) == Some(([584], 16))
  {
    var s := SampleSession();
    assert s[15] == Some(Command(Cd("..")));
    assert [] + [584] == [584];
    assert Scan(s, 15, 584, []) == Some(([584], 16));
    assert s[14] == Some(File("i", 584));
    assert s[13] == Some(Command(Ls));
  }

  lemma SampleDirA()
    ensures Scan(SampleSession(), 7, 0, []) == Some(([584, 94853], 17))
  {
    var s := SampleSession();
    SampleDirE();
    assert s[16] == Some(Command(Cd("..")));
    assert [584] + [94853] == [584, 94853];
    assert Scan(s, 16, 94853, [584]) == Some(([584, 94853], 17));
    assert s[12] == Some(Command(Cd("e")));
    assert [] + [584] == [584];
    assert Scan(s, 12, 94269, []) == Some(([584, 94853], 17));
    assert s[11] == Some(File("h.lst", 62596));
    assert s[10] == Some(File("g", 2557));
    assert Scan(s, 10, 29116, []) == Some(([584, 94853], 17));
    assert s[9] == Some(File("f", 29116));
    assert s[8] == Some(Dir("e"));
    assert s[7] == Some(Command(Ls));
  }

  lemma SampleDirD()
    ensures Scan(SampleSession(), 18, 0, []) == Some(([24933642], 23))
  {
    var s := SampleSession();
    assert [] + [24933642] == [24933642];
    assert Scan(s, 23, 24933642, []) == Some(([24933642], 23));
    assert s[22] == Some(File("k", 7214296));
    assert s[21] == Some(File("d.ext", 5626152));
    assert Scan(s, 21, 12093194, []) == Some(([24933642], 23));
    assert s[20] == Some(File("d.log", 8033020));
    assert s[19] == Some(File("j", 4060174));
    assert s[18] == Some(Command(Ls));
  }

  lemma SampleRootTail()
    ensures Scan(SampleSession(), 17, 23447523, [584, 94853]) == Some(([584, 94853, 24933642, 48381165], 23))
  {
    var s := SampleSession();
    SampleDirD();
    assert s[17] == Some(Command(Cd("d")));
    assert [584, 94853] + [24933642] == [584, 94853, 24933642];
    assert [584, 94853, 24933642] + [48381165] == [584, 94853, 24933642, 48381165];
    assert Scan(s, 23, 48381165, [584, 94853, 24933642]) == Some(([584, 94853, 24933642, 48381165], 23));
  }

  lemma SampleRootMiddle()
    ensures Scan(SampleSession(), 6, 23352670, []) == Some(([584, 94853, 24933642, 48381165], 23))
  {
    var s := SampleSession();
    assert s[6] == Some(Command(Cd("a")));
    SampleDirA();
    SampleRootTail();
    var child := [584, 94853];
    assert Scan(s, 7, 0, []) == Some((child, 17));
    assert [] + child == child && child[|child| - 1] == 94853;
    assert Scan(s, 6, 23352670, []) == Scan(s, 17, 23447523, child);
  }

  lemma SampleScan()
    ensures Scan(SampleSession(), 0, 0, []) == Some(([584, 94853, 24933642, 48381165], 23))
  {
    var s := SampleSession();
    assert s[5] == Some(Dir("d"));
    assert s[4] == Some(File("c.dat", 8504156));
    assert s[3] == Some(File("b.txt", 14848514));
    assert s[2] == Some(Dir("a"));
    assert s[1] == Some(Command(Ls));
    assert s[0] == Some(Command(Cd("/")));
    SampleRootMiddle();
    assert Scan(s, 3, 0, []) == Some(([584, 94853, 24933642, 48381165], 23));
  }

  /** The example's lines. */
  const SampleOutputs: seq<Output> := [
    Command(Cd("/")), Command(Ls), Dir("a"), File("b.txt", 14848514), File("c.dat", 8504156), Dir("d"),
    Command(Cd("a")), Command(Ls), Dir("e"), File("f", 29116), File("g", 2557), File("h.lst", 62596),
    Command(Cd("e")), Command(Ls), File("i", 584),
    Command(Cd("..")), Command(Cd("..")), Command(Cd("d")),
    Command(Ls), File("j", 4060174), File("d.log", 8033020), File("d.ext", 5626152), File("k", 7214296)
  ]

  lemma SampleShowable(outs: seq<Output>)
    requires outs == SampleOutputs
    ensures forall k :: 0 <= k < |outs| ==> Showable(outs[k])
  {
  }

  /** The example's entries, each as its line parses. */
  lemma SampleParsed(outs: seq<Output>)
    requires outs == SampleOutputs
    ensures seq(|outs|, k requires 0 <= k < |outs| => Some(outs[k])) == SampleSession()
  {
  }

  /** The example's text gives the sizes 584 (e), 94853 (a), 24933642 (d)
      and 48381165 (the root). */
  lemma SampleUsage(input: string)
    requires input == SessionText(SampleOutputs)
    ensures Scan(Parsed(Lines(input)), 0, 0, []).Some?
    ensures Usage(input) == [584, 94853, 24933642, 48381165]
  {
    SampleShowable(SampleOutputs);
    SampleParsed(SampleOutputs);
    ParsedOfText(SampleOutputs);
    SampleScan();
  }

  /** The example's answers: 95437 for part one and, with 8381165 to free,
      24933642 for part two. */
  lemma SampleAnswers()
    ensures SmallSum([584, 94853, 24933642, 48381165]) == 95437
    ensures NeededSpace - (DiskSize - 48381165) == 8381165
    ensures SmallestAtLeast(24933642, [584, 94853, 24933642, 48381165], 8381165)
  {
    var sizes: seq<nat> := [584, 94853, 24933642, 48381165];
    assert sizes[1..] == [94853, 24933642, 48381165];
    assert sizes[2..] == [24933642, 48381165];
    assert sizes[3..] == [48381165];
    assert sizes[2] == 24933642;
  }
}

=== FILE: day09_rope.dfy ===
/** Rope bridge: the head of a rope follows a list of moves, each knot
    follows the one before it, and the distinct places the last knot visits
    are counted. */
module RopeBridge {
  import opened Text

  type Point = (int, int)

  datatype Direction = Up | Down | Right | Left

  function Delta(d: Direction): (r: Point)
    ensures (r.0 == 0) != (r.1 == 0)
    ensures -1 <= r.0 <= 1 && -1 <= r.1 <= 1
  {
    match d
    case Up => (0, 1)
    case Down => (0, -1)
    case Right => (1, 0)
    case Left => (-1, 0)
  }

  function Apply(d: Direction, p: Point): Point {
    (p.0 + Delta(d).0, p.1 + Delta(d).1)
  }

  /** One move of `Apply` changes exactly one coordinate, by one. */
  predicate UnitStep(p: Point, q: Point) {
    (p.0 == q.0 && (q.1 - p.1 == 1 || p.1 - q.1 == 1)) ||
    (p.1 == q.1 && (q.0 - p.0 == 1 || p.0 - q.0 == 1))
  }

  lemma ApplyIsUnitStep(d: Direction, p: Point)
    ensures UnitStep(p, Apply(d, p))
  {
  }

  // ---------------------------------------------------------------------------
  // Parsing

  function ParseDirection(a: string): (r: Option<Direction>)
    ensures r.Some? <==> a in {"U", "D", "R", "L"}
  {
    if a == "U" then Some(Up)
    else if a == "D" then Some(Down)
    else if a == "R" then Some(Right)
    else if a == "L" then Some(Left)
    else None
  }

  function Letter(d: Direction): string {
    match d
    case Up => "U"
    case Down => "D"
    case Right => "R"
    case Left => "L"
  }

  /** One line, "D n": a direction letter, a space and a step count. `None`
      where the source panics (no space, a bad count, `unreachable!`). A
      count fits in `usize`. */
  function ParseMove(line: string): (r: Option<(Direction, nat)>)
    ensures r.Some? ==> ' ' in line && r.value.1 < UsizeBound
  {
    match SplitOnce(line)
    case None => None
    case Some((a, b)) =>
      match (ParseDirection(a), ParseUnsigned(b, UsizeBound))
      case (Some(d), Some(n)) => Some((d, n))
      case _ => None
  }

  lemma ParseMoveOf(d: Direction, n: nat)
    requires n < UsizeBound
    ensures ParseMove(Letter(d) + " " + NatToString(n)) == Some((d, n))
  {
    SplitOnceOf(Letter(d), NatToString(n));
    ParseUnsignedOfNatToString(n, UsizeBound);
    assert ParseDirection(Letter(d)) == Some(d);
  }

  predicate ValidMoves(input: string) {
    forall k :: 0 <= k < |Lines(input)| ==> ParseMove(Lines(input)[k]).Some?
  }

  /** `n` copies of each move's direction, in order. */
  function Expand(moves: seq<(Direction, nat)>): (dirs: seq<Direction>)
    decreases |moves|
  {
    if |moves| == 0 then []
    else seq(moves[0].1, _ => moves[0].0) + Expand(moves[1..])
  }

  function StepCount(moves: seq<(Direction, nat)>): nat {
    if |moves| == 0 then 0 else moves[0].1 + StepCount(moves[1..])
  }

  lemma {:induction false} ExpandLength(moves: seq<(Direction, nat)>)
    ensures |Expand(moves)| == StepCount(moves)
    decreases |moves|
  {
    if |moves| > 0 {
      ExpandLength(moves[1..]);
    }
  }

  lemma {:induction false} ExpandAppend(a: seq<(Direction, nat)>, b: seq<(Direction, nat)>)
    ensures Expand(a + b) == Expand(a) + Expand(b)
    decreases |a|
  {
    if |a| == 0 {
      assert a + b == b;
    } else {
      assert (a + b)[1..] == a[1..] + b;
      ExpandAppend(a[1..], b);
    }
  }

  /** A single move "D n" contributes `n` steps in direction `D`. */
  lemma ExpandOne(d: Direction, n: nat)
    ensures Expand([(d, n)]) == seq(n, _ => d)
  {
    assert [(d, n)][1..] == [];
  }

  function Moves(input: string): (moves: seq<(Direction, nat)>)
    requires ValidMoves(input)
    ensures |moves| == |Lines(input)|
  {
    var ls := Lines(input);
    seq(|ls|, k requires 0 <= k < |ls| => ParseMove(ls[k]).value)
  }

  /** `parse`: every line's direction, repeated as many times as it says. */
  function Parse(input: string): seq<Direction>
    requires ValidMoves(input)
  {
    Expand(Moves(input))
  }

  // ---------------------------------------------------------------------------
  // The head

  /** The head's positions: the origin, then one per step. */
  function Path(dirs: seq<Direction>): (ps: seq<Point>)
    ensures |ps| == |dirs| + 1 && ps[0] == (0, 0)
    decreases |dirs|
  {
    if |dirs| == 0 then [(0, 0)]
    else
      var ps := Path(dirs[..|dirs| - 1]);
      ps + [Apply(dirs[|dirs| - 1], ps[|ps| - 1])]
  }

  lemma {:induction false} PathSteps(dirs: seq<Direction>)
    ensures forall k :: 0 <= k < |dirs| ==> Path(dirs)[k + 1] == Apply(dirs[k], Path(dirs)[k])
    decreases |dirs|
  {
    if |dirs| > 0 {
      PathSteps(dirs[..|dirs| - 1]);
      assert forall k :: 0 <= k < |dirs| - 1 ==> dirs[..|dirs| - 1][k] == dirs[k];
    }
  }

  /** Consecutive positions of the head differ by one unit on one axis. */
  lemma PathIsUnitSteps(dirs: seq<Direction>)
    ensures forall k :: 0 <= k < |dirs| ==> UnitStep(Path(dirs)[k], Path(dirs)[k + 1])
  {
    PathSteps(dirs);
    forall k | 0 <= k < |dirs|
      ensures UnitStep(Path(dirs)[k], Path(dirs)[k + 1])
    {
      ApplyIsUnitStep(dirs[k], Path(dirs)[k]);
    }
  }

  /** `walk`. */
  method Walk(dirs: seq<Direction>) returns (visits: seq<Point>)
    ensures visits == Path(dirs)
  {
    visits := [(0, 0)];
    var p := (0, 0);
    var i := 0;
    while i < |dirs|
      invariant i <= |dirs|
      invariant visits == Path(dirs[..i]) && p == visits[|visits| - 1]
    {
      assert dirs[..i + 1][..i] == dirs[..i];
      p := Apply(dirs[i], p);
      visits := visits + [p];
      i := i + 1;
    }
    assert dirs[..i] == dirs;
  }

  // ---------------------------------------------------------------------------
  // The knots

  function Abs(n: int): nat {
    if n < 0 then -n else n
  }

  /** `is_adjacent`: at most one apart in the Chebyshev (king-move)
      distance. */
  predicate IsAdjacent(p: Point, q: Point): (b: bool)
    ensures b <==> Max(Abs(q.0 - p.0), Abs(q.1 - p.1)) <= 1
  {
    Abs(q.0 - p.0) <= 1 && Abs(q.1 - p.1) <= 1
  }

  function Max(a: nat, b: nat): nat {
    if a < b then b else a
  }

  /** `Ordering as i32`: -1, 0 or 1 as `a` is below, equal to or above `b`. */
  function Sign(a: int, b: int): (s: int)
    ensures -1 <= s <= 1
    ensures (s < 0 <==> a < b) && (s == 0 <==> a == b)
  {
    if a < b then -1 else if a == b then 0 else 1
  }

  /** Where the tail goes when the head reaches `head`: nowhere while they
      touch; otherwise one step towards the head on each axis where they
      differ. */
  function Step(head: Point, tail: Point): (t: Point)
    ensures t == tail <==> IsAdjacent(head, tail)
    ensures Abs(t.0 - tail.0) <= 1 && Abs(t.1 - tail.1) <= 1
  {
    if IsAdjacent(head, tail) then tail
    else (tail.0 + Sign(head.0, tail.0), tail.1 + Sign(head.1, tail.1))
  }

  /** A tail that touched the head touches it again once the head has moved
      at most one square in each direction and the tail has followed. */
  lemma StepKeepsAdjacent(prev: Point, head: Point, tail: Point)
    requires IsAdjacent(prev, tail) && IsAdjacent(prev, head)
    ensures IsAdjacent(head, Step(head, tail))
  {
  }

  /** The positions the tail moves to while the head goes through `heads`:
      at most one per head position, each different from the one before. */
  function Trail(heads: seq<Point>, tail: Point): (ts: seq<Point>)
    ensures |ts| <= |heads|
    ensures forall k :: 0 <= k < |ts| ==> ts[k] != ([tail] + ts)[k]
    decreases |heads|
  {
    if |heads| == 0 then []
    else if IsAdjacent(heads[0], tail) then Trail(heads[1..], tail)
    else
      var t := Step(heads[0], tail);
      [t] + Trail(heads[1..], t)
  }

  /** The positions one knot visits when the knot before it visits
      `heads`: the origin, then every new position. */
  function FollowOnce(heads: seq<Point>): (ps: seq<Point>)
    ensures |ps| > 0 && ps[0] == (0, 0)
  {
    [(0, 0)] + Trail(heads, (0, 0))
  }

  /** Consecutive points touch. */
  predicate Connected(ps: seq<Point>) {
    forall k :: 0 <= k < |ps| - 1 ==> IsAdjacent(ps[k], ps[k + 1])
  }

  function Last(ps: seq<Point>): Point
    requires |ps| > 0
  {
    ps[|ps| - 1]
  }

  /** Consecutive points differ. */
  predicate Moving(ps: seq<Point>) {
    forall k :: 0 <= k < |ps| - 1 ==> ps[k] != ps[k + 1]
  }

  /** Each position the tail moves to is next to the one before, and a new
      one: nothing is recorded while the tail stays put. */
  lemma {:induction false} TrailConnected(heads: seq<Point>, tail: Point)
    ensures Connected([tail] + Trail(heads, tail))
    ensures Moving([tail] + Trail(heads, tail))
    decreases |heads|
  {
    if |heads| > 0 && !IsAdjacent(heads[0], tail) {
      var t := Step(heads[0], tail);
      TrailConnected(heads[1..], t);
      assert [tail] + Trail(heads, tail) == [tail] + ([t] + Trail(heads[1..], t));
    } else if |heads| > 0 {
      TrailConnected(heads[1..], tail);
    }
  }

  /** A knot's path is connected like the head's, so the rule applies again
      knot after knot. */
  lemma FollowConnected(heads: seq<Point>)
    ensures Connected(FollowOnce(heads)) && Moving(FollowOnce(heads))
  {
    TrailConnected(heads, (0, 0));
  }

  /** While the head moves along a connected path, the tail is next to the
      head after every step: here, after the last one. */
  lemma {:induction false} TrailStaysAdjacent(prev: Point, heads: seq<Point>, tail: Point)
    requires IsAdjacent(prev, tail)
    requires Connected([prev] + heads)
    ensures IsAdjacent(Last([prev] + heads), Last([tail] + Trail(heads, tail)))
    decreases |heads|
  {
    if |heads| > 0 {
      assert IsAdjacent(prev, heads[0]) by {
        var ph := [prev] + heads;
        assert ph[0] == prev && ph[1] == heads[0];
        assert IsAdjacent(ph[0], ph[1]);
      }
      StepKeepsAdjacent(prev, heads[0], tail);
      var t := Step(heads[0], tail);
      assert Connected([heads[0]] + heads[1..]) by {
        assert [heads[0]] + heads[1..] == ([prev] + heads)[1..];
      }
      TrailStaysAdjacent(heads[0], heads[1..], t);
      assert Last([prev] + heads) == Last([heads[0]] + heads[1..]);
      if IsAdjacent(heads[0], tail) {
        assert Last([tail] + Trail(heads, tail)) == Last([t] + Trail(heads[1..], t));
      } else {
        assert [tail] + Trail(heads, tail) == [tail] + ([t] + Trail(heads[1..], t));
      }
    }
  }

  /** The positions of the knot `n` places behind the one that visits
      `heads`. */
  function Knots(heads: seq<Point>, n: nat): (ps: seq<Point>)
    requires n >= 1
    ensures |ps| > 0 && ps[0] == (0, 0)
    decreases n
  {
    if n == 1 then FollowOnce(heads) else Knots(FollowOnce(heads), n - 1)
  }

  lemma {:induction false} KnotsConnected(heads: seq<Point>, n: nat)
    requires n >= 1
    ensures Connected(Knots(heads, n))
    decreases n
  {
    FollowConnected(heads);
    if n > 1 {
      KnotsConnected(FollowOnce(heads), n - 1);
    }
  }

  /** `follow`'s loop: the positions the tail moves to, after the origin. */
  method FollowOne(heads: seq<Point>) returns (tailVisits: seq<Point>)
    ensures tailVisits == FollowOnce(heads)
  {
    tailVisits := [(0, 0)];
    var tail := (0, 0);
    var i := 0;
    while i < |heads|
      invariant i <= |heads|
      invariant tailVisits + Trail(heads[i..], tail) == FollowOnce(heads)
    {
      assert heads[i..][1..] == heads[i + 1..];
      if !IsAdjacent(heads[i], tail) {
        tail := Step(heads[i], tail);
        tailVisits := tailVisits + [tail];
      }
      i := i + 1;
    }
  }

  /** `follow`: the tail's visits, fed in as the next knot's head path,
      `numTails` times. */
  method Follow(heads: seq<Point>, numTails: nat) returns (visits: seq<Point>)
    requires numTails >= 1
    ensures visits == Knots(heads, numTails)
    decreases numTails
  {
    var tailVisits := FollowOne(heads);
    if numTails == 1 {
      visits := tailVisits;
    } else {
      visits := Follow(tailVisits, numTails - 1);
    }
  }

  function Visited(ps: seq<Point>): set<Point> {
    set k | 0 <= k < |ps| :: ps[k]
  }

  /** The number of distinct places the last of `knots` knots behind the head
      visits. */
  method CountVisits(input: string, knots: nat) returns (count: nat)
    requires ValidMoves(input) && knots >= 1
    ensures count == |Visited(Knots(Path(Parse(input)), knots))|
  {
    var head := Walk(Parse(input));
    var tail := Follow(head, knots);
    count := |Visited(tail)|;
  }

  /** `part1`: one knot behind the head. */
  method Part1(input: string) returns (count: nat)
    requires ValidMoves(input)
    ensures count == |Visited(Knots(Path(Parse(input)), 1))|
  {
    count := CountVisits(input, 1);
  }

  /** `part2`: nine knots behind the head. */
  method Part2(input: string) returns (count: nat)
    requires ValidMoves(input)
    ensures count == |Visited(Knots(Path(Parse(input)), 9))|
  {
    count := CountVisits(input, 9);
  }

  /** The example's first line. */
  lemma SampleFirstMove()
    ensures ParseMove("R 4") == Some((Right, 4))
  {
    assert NatToString(4) == "4";
    assert Letter(Right) + " " + NatToString(4) == "R 4";
    ParseMoveOf(Right, 4);
  }
}

=== FILE: day10_cpu.dfy ===
/** The handheld's CPU: one register X, `noop` and `addx` instructions, the
    value of X during every clock cycle, the signal strength and the
    40 x 6 CRT picture drawn from it. */
module Cpu {
  import opened Text

  /** Rust's `i32`. */
  const I32Min: int := -0x8000_0000
  const I32Bound: int := 0x8000_0000

  datatype Instruction = Noop | Addx(dx: int)

  /** `Instruction::cycles`. */
  function Cycles(ins: Instruction): (n: nat)
    ensures n == 1 || n == 2
    ensures n == 2 <==> ins.Addx?
  {
    match ins
    case Noop => 1
    case Addx(_) => 2
  }

  /** `Instruction::try_from`: a line with a space is an `addx` whose operand
      is the `i32` after the first space; any other line is a `noop`,
      whatever it says. */
  function TryFrom(line: string): (r: Option<Instruction>)
    ensures ' ' !in line ==> r == Some(Noop)
    ensures r.Some? && r.value.Addx? ==> ' ' in line && I32Min <= r.value.dx < I32Bound
  {
    var i := IndexOf(line, ' ');
    if i == |line| then Some(Noop)
    else
      match ParseSigned(line[i + 1..], I32Min, I32Bound)
      case Some(n) => Some(Addx(n))
      case None => None
  }

  /** The text an instruction is written as. */
  function Show(ins: Instruction): string {
    match ins
    case Noop => "noop"
    case Addx(n) => "addx " + IntToString(n)
  }

  /** Every instruction with an `i32` operand is read back from its text. */
  lemma TryFromShow(ins: Instruction)
    requires ins.Addx? ==> I32Min <= ins.dx < I32Bound
    ensures TryFrom(Show(ins)) == Some(ins)
  {
    match ins
    case Noop =>
      assert IndexOf("noop", ' ') == 4;
    case Addx(n) =>
      var s := Show(ins);
      assert s == "addx" + [' '] + IntToString(n);
      IndexOfFirst("addx", ' ', IntToString(n));
      assert s[5..] == IntToString(n);
      ParseSignedOfIntToString(n, I32Min, I32Bound);
  }

  /** A program is valid when every line is an instruction (`eval` unwraps
      each `try_from`). */
  predicate ValidProgram(input: string) {
    forall k :: 0 <= k < |Lines(input)| ==> TryFrom(Lines(input)[k]).Some?
  }

  function Program(input: string): (prog: seq<Instruction>)
    requires ValidProgram(input)
    ensures |prog| == |Lines(input)|
  {
    var ls := Lines(input);
    seq(|ls|, k requires 0 <= k < |ls| => TryFrom(ls[k]).value)
  }

  // ---------------------------------------------------------------------------
  // The value of X cycle by cycle

  /** X after an instruction has completed. */
  function Apply(ins: Instruction, x: int): int {
    match ins
    case Noop => x
    case Addx(dx) => x + dx
  }

  /** X after a whole program, from `x`. */
  function Final(prog: seq<Instruction>, x: int): int
    decreases |prog|
  {
    if |prog| == 0 then x else Final(prog[1..], Apply(prog[0], x))
  }

  function TotalCycles(prog: seq<Instruction>): nat
    decreases |prog|
  {
    if |prog| == 0 then 0 else Cycles(prog[0]) + TotalCycles(prog[1..])
  }

  /** The value of X during each cycle: an instruction keeps the X it started
      with for all of its cycles, and its effect is seen from the next one.
      There is one value per cycle of the program. */
  function Trace(prog: seq<Instruction>, x: int): (xs: seq<int>)
    ensures |xs| == TotalCycles(prog)
    decreases |prog|
  {
    if |prog| == 0 then []
    else seq(Cycles(prog[0]), _ => x) + Trace(prog[1..], Apply(prog[0], x))
  }

  lemma {:induction false} TraceAppend(a: seq<Instruction>, b: seq<Instruction>, x: int)
    ensures Trace(a + b, x) == Trace(a, x) + Trace(b, Final(a, x))
    ensures Final(a + b, x) == Final(b, Final(a, x))
    ensures TotalCycles(a + b) == TotalCycles(a) + TotalCycles(b)
    decreases |a|
  {
    if |a| == 0 {
      assert a + b == b;
    } else {
      assert (a + b)[1..] == a[1..] + b;
      TraceAppend(a[1..], b, Apply(a[0], x));
    }
  }

  /** During every cycle of instruction `k`, X is the start value plus the
      operands of all earlier `addx` instructions; so both cycles of an
      `addx` still see the old X. */
  lemma XDuringInstruction(prog: seq<Instruction>, x: int, k: nat, c: nat)
    requires k < |prog| && c < Cycles(prog[k])
    ensures TotalCycles(prog[..k]) + c < |Trace(prog, x)|
    ensures Trace(prog, x)[TotalCycles(prog[..k]) + c] == Final(prog[..k], x)
  {
    var before, rest := prog[..k], prog[k..];
    assert prog == before + rest;
    TraceAppend(before, rest, x);
    assert rest[0] == prog[k];
  }

  /** The generator's state while instruction `idx` still has `cyclesLeft`
      cycles to run with X = `x`: what has been yielded so far, then the rest
      of this instruction, then the later ones, make up the whole trace. */
  ghost predicate Pending(prog: seq<Instruction>, idx: nat, cyclesLeft: nat, x: int, xs: seq<int>)
    requires idx < |prog|
  {
    xs + seq(cyclesLeft, _ => x) + Trace(prog[idx + 1..], Apply(prog[idx], x)) == Trace(prog, 1)
  }

  lemma StartPending(prog: seq<Instruction>)
    requires |prog| > 0
    ensures Pending(prog, 0, Cycles(prog[0]), 1, [])
  {
    assert [] + seq(Cycles(prog[0]), _ => 1) == seq(Cycles(prog[0]), _ => 1);
  }

  /** A cycle that is not the instruction's last one. */
  lemma TickWithin(prog: seq<Instruction>, idx: nat, cyclesLeft: nat, x: int, xs: seq<int>)
    requires idx < |prog| && cyclesLeft > 1 && Pending(prog, idx, cyclesLeft, x, xs)
    ensures Pending(prog, idx, cyclesLeft - 1, x, xs + [x])
  {
    assert seq(cyclesLeft, _ => x) == [x] + seq(cyclesLeft - 1, _ => x);
    assert xs + seq(cyclesLeft, _ => x) == xs + [x] + seq(cyclesLeft - 1, _ => x);
  }

  /** The last cycle of an instruction that has a successor. */
  lemma TickNext(prog: seq<Instruction>, idx: nat, x: int, xs: seq<int>)
    requires idx + 1 < |prog| && Pending(prog, idx, 1, x, xs)
    ensures Pending(prog, idx + 1, Cycles(prog[idx + 1]), Apply(prog[idx], x), xs + [x])
  {
    var y := Apply(prog[idx], x);
    assert prog[idx + 1..] == [prog[idx + 1]] + prog[idx + 2..];
    assert prog[idx + 1..][1..] == prog[idx + 2..];
    assert seq(1, _ => x) == [x];
  }

  /** The last cycle of the last instruction. */
  lemma TickEnd(prog: seq<Instruction>, idx: nat, x: int, xs: seq<int>)
    requires idx + 1 == |prog| && Pending(prog, idx, 1, x, xs)
    ensures xs + [x] == Trace(prog, 1)
  {
    assert prog[idx + 1..] == [];
    assert seq(1, _ => x) == [x];
  }

  /** `eval`: the generator's state is the current instruction, the cycles it
      has left and X; each call yields the X of one cycle and applies an
      instruction's effect after its last cycle. */
  method Eval(prog: seq<Instruction>) returns (xs: seq<int>)
    ensures xs == Trace(prog, 1)
  {
    xs := [];
    var x := 1;
    var idx: nat := 0;
    var cyclesLeft: nat := if |prog| > 0 then Cycles(prog[0]) else 0;
    if |prog| > 0 {
      StartPending(prog);
    }
    while idx < |prog|
      invariant idx <= |prog|
      invariant idx < |prog| ==> 1 <= cyclesLeft <= Cycles(prog[idx])
      invariant idx < |prog| ==> Pending(prog, idx, cyclesLeft, x, xs)
      invariant idx == |prog| ==> xs == Trace(prog, 1)
      decreases |prog| - idx, cyclesLeft
    {
      if cyclesLeft > 1 {
        TickWithin(prog, idx, cyclesLeft, x, xs);
      } else if idx + 1 < |prog| {
        TickNext(prog, idx, x, xs);
      } else {
        TickEnd(prog, idx, x, xs);
      }
      cyclesLeft := cyclesLeft - 1;
      var currentX := x;
      xs := xs + [currentX];
      if cyclesLeft == 0 {
        var ins := prog[idx];
        x := Apply(ins, x);
        idx := idx + 1;
        if idx < |prog| {
          cyclesLeft := Cycles(prog[idx]);
        }
      }
    }
  }

  // ---------------------------------------------------------------------------
  // Part one: signal strength

  /** `is_signal_strength_cycle`: cycles 20, 60, 100, ... */
  predicate IsSignalCycle(cycle: nat) {
    cycle == 20 || cycle % 40 == 20
  }

  /** The signal strength summed over the first `n` cycles of `xs` (cycle
      numbers start at 1), as `part1` folds it. */
  function SignalSum(xs: seq<int>, n: nat): int
    requires n <= |xs|
  {
    if n == 0 then 0
    else SignalSum(xs, n - 1) + if IsSignalCycle(n) then n * xs[n - 1] else 0
  }

  /** The same sum taken over the signal cycles directly: cycle 20 + 40 j for
      the first `m` values of j. */
  function StrengthOfFirst(xs: seq<int>, m: nat): int
    requires m == 0 || 20 + 40 * (m - 1) <= |xs|
  {
    if m == 0 then 0
    else StrengthOfFirst(xs, m - 1) + (20 + 40 * (m - 1)) * xs[19 + 40 * (m - 1)]
  }

  /** Number of signal cycles among cycles 1..n. */
  function SignalCount(n: nat): nat {
    (n + 20) / 40
  }

  lemma SignalCycleForm(n: nat)
    requires n > 0
    ensures IsSignalCycle(n) <==> n == 20 + 40 * (SignalCount(n) - 1)
    ensures SignalCount(n) == SignalCount(n - 1) + if IsSignalCycle(n) then 1 else 0
  {
  }

  /** `part1`'s fold adds exactly the strengths of cycles 20, 60, 100, ...
      that the program reaches. */
  lemma {:induction false} SignalSumIsStrengthOfSignalCycles(xs: seq<int>, n: nat)
    requires n <= |xs|
    ensures SignalCount(n) == 0 || 20 + 40 * (SignalCount(n) - 1) <= n
    ensures SignalSum(xs, n) == StrengthOfFirst(xs, SignalCount(n))
    decreases n
  {
    if n > 0 {
      SignalSumIsStrengthOfSignalCycles(xs, n - 1);
      SignalCycleForm(n);
    }
  }

  /** `part1`'s fold over the cycles: the strength of every signal cycle,
      summed. */
  method SumSignalStrengths(xs: seq<int>) returns (total: int)
    ensures total == StrengthOfFirst(xs, SignalCount(|xs|))
  {
    total := 0;
    var i := 0;
    while i < |xs|
      invariant i <= |xs|
      invariant total == SignalSum(xs, i)
    {
      var cycle := i + 1;
      if IsSignalCycle(cycle) {
        total := total + cycle * xs[i];
      }
      i := i + 1;
    }
    SignalSumIsStrengthOfSignalCycles(xs, |xs|);
  }

  /** `part1`. */
  method Part1(input: string) returns (total: int)
    requires ValidProgram(input)
    ensures var xs := Trace(Program(input), 1);
      total == StrengthOfFirst(xs, SignalCount(|xs|))
  {
    var xs := Eval(Program(input));
    total := SumSignalStrengths(xs);
  }

  // ---------------------------------------------------------------------------
  // Part two: the CRT

  /** The sprite, three pixels wide and centred on X, covers column `col`. */
  predicate SpriteCovers(x: int, col: int) {
    x - 1 == col || x == col || x + 1 == col
  }

  /** The pixel at row `r`, column `c` after the first `n` cycles of `xs`:
      it belongs to cycle `40 r + c + 1` and is lit when that cycle has run
      and the sprite covered column `c` during it. */
  function PixelAfter(xs: seq<int>, n: nat, r: nat, c: nat): char
    requires n <= |xs|
  {
    var i := 40 * r + c;
    if i < n && SpriteCovers(xs[i], c) then '#' else '.'
  }

  /** The picture as `draw` prints it once every cycle has run: six rows of 40
      pixels, each row followed by a line break. */
  function Screen(xs: seq<int>): (s: string)
    ensures |s| == 6 * 41
  {
    seq(6 * 41, k requires 0 <= k < 6 * 41 =>
      if k % 41 == 40 then '\n' else PixelAfter(xs, |xs|, k / 41, k % 41))
  }

  /** The character at row `r`, column `c` of the picture is '#' exactly when
      X is within one of `c` during cycle `40 r + c + 1`. */
  lemma ScreenPixel(xs: seq<int>, r: nat, c: nat)
    requires r < 6 && c < 40
    ensures Screen(xs)[41 * r + c] == '#' <==>
      40 * r + c < |xs| && -1 <= xs[40 * r + c] - c <= 1
    ensures Screen(xs)[41 * r + 40] == '\n'
  {
    var k := 41 * r + c;
    assert k / 41 == r && k % 41 == c;
    assert (41 * r + 40) % 41 == 40;
  }

  /** Cycle `i + 1` draws the pixel at row `i / 40`, column `i % 40`, and no
      other. */
  lemma CellOfCycle(i: nat, r: nat, c: nat)
    requires c < 40
    ensures 40 * r + c == i <==> r == i / 40 && c == i % 40
  {
    if 40 * r + c == i {
      assert i / 40 == r && i % 40 == c;
    }
  }

  /** `draw`: each row of the pixel grid, then a line break. */
  method Draw(pixels: array2<char>) returns (s: string)
    requires pixels.Length0 == 6 && pixels.Length1 == 40
    ensures |s| == 6 * 41
    ensures forall k :: 0 <= k < 6 * 41 ==>
      s[k] == if k % 41 == 40 then '\n' else pixels[k / 41, k % 41]
  {
    s := [];
    var r := 0;
    while r < 6
      invariant r <= 6 && |s| == 41 * r
      invariant forall k :: 0 <= k < |s| ==>
        s[k] == if k % 41 == 40 then '\n' else pixels[k / 41, k % 41]
    {
      var c := 0;
      while c < 40
        invariant c <= 40 && |s| == 41 * r + c
        invariant forall k :: 0 <= k < |s| ==>
          s[k] == if k % 41 == 40 then '\n' else pixels[k / 41, k % 41]
      {
        s := s + [pixels[r, c]];
        c := c + 1;
      }
      s := s + ['\n'];
      r := r + 1;
    }
  }

  /** The grid shows the pixels of the first `n` cycles of `xs`. */
  ghost predicate ShowsCycles(pixels: array2<char>, xs: seq<int>, n: nat)
    requires n <= |xs|
    requires pixels.Length0 == 6 && pixels.Length1 == 40
    reads pixels
  {
    forall r, c :: 0 <= r < 6 && 0 <= c < 40 ==> pixels[r, c] == PixelAfter(xs, n, r, c)
  }

  /** Past the 240th cycle the sprite never covers the column `part2` would
      light: there the row `i / 40` lies below the grid, and writing a pixel
      would index past it and panic. */
  predicate StaysOnScreen(xs: seq<int>) {
    forall i :: 240 <= i < |xs| ==> !SpriteCovers(xs[i], i % 40)
  }

  /** One pass of `part2`'s loop: light the pixel of cycle `i + 1` when the
      sprite covers its column. */
  method DrawCycle(pixels: array2<char>, xs: seq<int>, i: nat)
    requires i < |xs| && (i < 240 || !SpriteCovers(xs[i], i % 40))
    requires pixels.Length0 == 6 && pixels.Length1 == 40
    requires ShowsCycles(pixels, xs, i)
    modifies pixels
    ensures ShowsCycles(pixels, xs, i + 1)
  {
    var px := i % 40;
    var py := i / 40;
    if SpriteCovers(xs[i], px) {
      pixels[py, px] := '#';
    }
    forall r, c | 0 <= r < 6 && 0 <= c < 40
      ensures pixels[r, c] == PixelAfter(xs, i + 1, r, c)
    {
      CellOfCycle(i, r, c);
    }
  }

  /** `part2`: start from a dark grid, light the pixel of every cycle whose
      column the sprite covers, and draw the grid. The grid has 240 pixels;
      a longer program runs as long as no later cycle lights a pixel. */
  method Part2(input: string) returns (screen: string)
    requires ValidProgram(input)
    requires StaysOnScreen(Trace(Program(input), 1))
    ensures screen == Screen(Trace(Program(input), 1))
  {
    var xs := Eval(Program(input));
    var pixels := new char[6, 40]((r, c) => '.');
    var i := 0;
    while i < |xs|
      invariant i <= |xs|
      invariant ShowsCycles(pixels, xs, i)
    {
      assert i < 240 || !SpriteCovers(xs[i], i % 40);
      DrawCycle(pixels, xs, i);
      i := i + 1;
    }
    screen := Draw(pixels);
  }

  /** A program may run past the grid: `addx 100` and then 240 `noop`s run
      242 cycles, and X is 101 during the last two, far from columns 0
      and 1. */
  lemma LongProgramOnScreen(prog: seq<Instruction>)
    requires prog == [Addx(100)] + seq(240, _ => Noop)
    ensures |Trace(prog, 1)| == 242 && StaysOnScreen(Trace(prog, 1))
  {
    var noops := prog[1..];
    assert prog == [Addx(100)] + noops;
    TraceAppend([Addx(100)], noops, 1);
    assert Final([Addx(100)], 1) == 101;
    NoopTrace(noops, 101);
  }

  /** `noop`s keep X: one cycle each, all with the starting value. */
  lemma {:induction false} NoopTrace(prog: seq<Instruction>, x: int)
    requires forall k :: 0 <= k < |prog| ==> prog[k] == Noop
    ensures Trace(prog, x) == seq(|prog|, _ => x)
    decreases |prog|
  {
    if |prog| > 0 {
      NoopTrace(prog[1..], x);
    }
  }
}

=== FILE: day13_packets.dfy ===
/** Distress-signal packets: nested lists of small integers, their parser and
    renderer, and the ordering that compares a bare number with a list by
    wrapping the number in a one-element list. */
module Packets {
  import opened Text

  /** Rust's `u8`. */
  type Byte = n: int | 0 <= n < 256

  datatype Value = Number(n: Byte) | List(items: seq<Value>)

  datatype Ordering = Less | Equal | Greater

  /** `Ordering::reverse`. */
  function Flip(o: Ordering): Ordering {
    match o
    case Less => Greater
    case Equal => Equal
    case Greater => Less
  }

  /** Integer comparison, `u8::cmp`. */
  function CompareBytes(x: Byte, y: Byte): (o: Ordering)
    ensures o == Less <==> x < y
    ensures o == Equal <==> x == y
    ensures o == Greater <==> x > y
  {
    if x < y then Less else if x == y then Equal else Greater
  }

  // ---------------------------------------------------------------------------
  // Termination measure of the comparison

  function Size(v: Value): nat
    decreases v, 1
  {
    match v
    case Number(_) => 1
    case List(xs) => 1 + SizeOf(xs)
  }

  function SizeOf(xs: seq<Value>): nat
    decreases xs, 0
  {
    if |xs| == 0 then 0 else Size(xs[0]) + SizeOf(xs[1..])
  }

  lemma WeightOfWrapped(x: Byte)
    ensures Weight(List([Number(x)])) == Weight(Number(x))
  {
    assert [Number(x)][1..] == [];
    assert SizeOf([Number(x)]) == Size(Number(x)) + SizeOf([]);
  }

  lemma {:induction false} SizeOfElement(xs: seq<Value>, i: nat)
    requires i < |xs|
    ensures Size(xs[i]) <= SizeOf(xs)
    decreases i
  {
    if i > 0 {
      SizeOfElement(xs[1..], i - 1);
    }
  }

  /** The elements and the tail of a non-empty list weigh no more than the
      list; an element weighs as much only when it is a bare number. */
  lemma WeightOfElement(xs: seq<Value>, i: nat)
    requires i < |xs|
    ensures Weight(xs[i]) <= Weight(List(xs))
    ensures Weight(xs[i]) == Weight(List(xs)) ==> xs[i].Number?
    ensures Weight(List(xs[1..])) < Weight(List(xs))
    ensures Size(xs[i]) < Size(List(xs)) && Size(List(xs[1..])) < Size(List(xs))
  {
    SizeOfElement(xs, i);
    assert SizeOf(xs) == Size(xs[0]) + SizeOf(xs[1..]);
    assert Size(xs[0]) >= 1;
  }

  /** The size of a value with a bare number counted as its one-element list,
      so that coercing a number does not change it. */
  function Weight(v: Value): nat {
    if v.Number? then 2 else Size(v)
  }

  /** Second component of the measure: numbers on both sides rank lowest, a
      number against a list (which is about to be coerced) highest. */
  function Rank(a: Value, b: Value): nat {
    if a.Number? && b.Number? then 0
    else if a.List? && b.List? then 1
    else 2
  }

  // ---------------------------------------------------------------------------
  // The ordering

  /** `Ord::cmp` for packets: numbers compare as integers; a number against a
      list is compared as the one-element list holding it; two lists compare
      element by element, the first unequal pair deciding, and a list that runs
      out first is the smaller. Every packet is equal to itself. */
  function Compare(a: Value, b: Value): (o: Ordering)
    ensures a == b ==> o == Equal
    decreases Weight(a) + Weight(b), Rank(a, b)
  {
    match (a, b)
    case (Number(x), Number(y)) => CompareBytes(x, y)
    case (Number(x), List(_)) =>
      WeightOfWrapped(x);
      Compare(List([Number(x)]), b)
    case (List(_), Number(y)) =>
      WeightOfWrapped(y);
      Compare(a, List([Number(y)]))
    case (List(xs), List(ys)) =>
      if |xs| == 0 && |ys| == 0 then Equal
      else if |xs| == 0 then Less
      else if |ys| == 0 then Greater
      else
        WeightOfElement(xs, 0);
        WeightOfElement(ys, 0);
        var head := Compare(xs[0], ys[0]);
        if head != Equal then head else Compare(List(xs[1..]), List(ys[1..]))
  }

  // ---------------------------------------------------------------------------
  // Properties of the ordering

  /** A bare number becomes the one-element list holding it; a list stays. */
  function Lift(v: Value): (w: Value)
    ensures w.List? && Weight(w) == Weight(v)
  {
    if v.Number? then WeightOfWrapped(v.n); List([v]) else v
  }

  /** Comparing is unchanged when bare numbers on either side are replaced by
      their one-element lists (the coercion applied up front). */
  lemma CompareLifted(a: Value, b: Value)
    ensures Compare(Lift(a), Lift(b)) == Compare(a, b)
  {
    if a.Number? && b.Number? {
      assert [a][1..] == [] && [b][1..] == [];
    }
  }

  lemma CoercionIsEqual(n: Byte)
    ensures Compare(Number(n), List([Number(n)])) == Equal
    ensures Compare(List([Number(n)]), Number(n)) == Equal
  {
    CompareLifted(Number(n), Number(n));
  }

  /** `Equal` is weaker than structural equality. */
  lemma EqualIsNotStructural()
    ensures Compare(Number(1), List([Number(1)])) == Equal
    ensures Number(1) != List([Number(1)])
  {
    CoercionIsEqual(1);
  }

  lemma {:induction false} CompareFlip(a: Value, b: Value)
    ensures Compare(b, a) == Flip(Compare(a, b))
    decreases Weight(a) + Weight(b), Rank(a, b)
  {
    match (a, b)
    case (Number(x), Number(y)) =>
    case (Number(x), List(_)) =>
      WeightOfWrapped(x);
      CompareFlip(List([Number(x)]), b);
    case (List(_), Number(y)) =>
      WeightOfWrapped(y);
      CompareFlip(a, List([Number(y)]));
    case (List(xs), List(ys)) =>
      if |xs| > 0 && |ys| > 0 {
        WeightOfElement(xs, 0);
        WeightOfElement(ys, 0);
        CompareFlip(xs[0], ys[0]);
        CompareFlip(List(xs[1..]), List(ys[1..]));
      }
  }

  function Rank3(a: Value, b: Value, c: Value): nat {
    if a.Number? && b.Number? && c.Number? then 0
    else if a.List? && b.List? && c.List? then 1
    else 2
  }

  /** Transitivity, in the three forms `sort_unstable` relies on. */
  lemma {:induction false} CompareTransitive(a: Value, b: Value, c: Value)
    ensures Compare(a, b) != Greater && Compare(b, c) != Greater ==> Compare(a, c) != Greater
    ensures Compare(a, b) == Less && Compare(b, c) != Greater ==> Compare(a, c) == Less
    ensures Compare(a, b) != Greater && Compare(b, c) == Less ==> Compare(a, c) == Less
    decreases Weight(a) + Weight(b) + Weight(c), Rank3(a, b, c)
  {
    if a.Number? && b.Number? && c.Number? {
    } else if a.Number? || b.Number? || c.Number? {
      CompareLifted(a, b);
      CompareLifted(b, c);
      CompareLifted(a, c);
      CompareTransitive(Lift(a), Lift(b), Lift(c));
    } else {
      var xs, ys, zs := a.items, b.items, c.items;
      if |xs| > 0 && |ys| > 0 && |zs| > 0 {
        WeightOfElement(xs, 0);
        WeightOfElement(ys, 0);
        WeightOfElement(zs, 0);
        CompareTransitive(xs[0], ys[0], zs[0]);
        CompareTransitive(zs[0], ys[0], xs[0]);
        CompareFlip(xs[0], ys[0]);
        CompareFlip(ys[0], zs[0]);
        CompareFlip(xs[0], zs[0]);
        CompareTransitive(List(xs[1..]), List(ys[1..]), List(zs[1..]));
      }
    }
  }

  /** Pairs that compare `Equal` at the front of two lists can be skipped. */
  lemma {:induction false} CompareSkipsEqualPrefix(xs: seq<Value>, ys: seq<Value>, i: nat)
    requires i <= |xs| && i <= |ys|
    requires forall k :: 0 <= k < i ==> Compare(xs[k], ys[k]) == Equal
    ensures Compare(List(xs), List(ys)) == Compare(List(xs[i..]), List(ys[i..]))
    decreases i
  {
    if i > 0 {
      CompareSkipsEqualPrefix(xs[1..], ys[1..], i - 1);
      assert xs[1..][i - 1..] == xs[i..];
      assert ys[1..][i - 1..] == ys[i..];
    }
  }

  /** Two lists compare lexicographically: after a run of `Equal` pairs, the
      first unequal pair decides; otherwise the list that runs out first is the
      smaller, and two lists that run out together are `Equal`. */
  lemma CompareLists(xs: seq<Value>, ys: seq<Value>, i: nat)
    requires i <= |xs| && i <= |ys|
    requires forall k :: 0 <= k < i ==> Compare(xs[k], ys[k]) == Equal
    ensures i < |xs| && i < |ys| && Compare(xs[i], ys[i]) != Equal ==>
      Compare(List(xs), List(ys)) == Compare(xs[i], ys[i])
    ensures i == |xs| && i == |ys| ==> Compare(List(xs), List(ys)) == Equal
    ensures i == |xs| && i < |ys| ==> Compare(List(xs), List(ys)) == Less
    ensures i < |xs| && i == |ys| ==> Compare(List(xs), List(ys)) == Greater
  {
    CompareSkipsEqualPrefix(xs, ys, i);
  }

  /** A strict prefix sorts first. */
  lemma PrefixIsLess(xs: seq<Value>, ys: seq<Value>)
    requires |xs| < |ys| && xs == ys[..|xs|]
    ensures Compare(List(xs), List(ys)) == Less
  {
    forall k | 0 <= k < |xs|
      ensures Compare(xs[k], ys[k]) == Equal
    {
      assert xs[k] == ys[k];
    }
    CompareLists(xs, ys, |xs|);
  }

  /** `Ord::cmp` as the source runs it: the list case walks `zip_longest` over
      both lists and returns at the first decisive pair. */
  method Cmp(a: Value, b: Value) returns (o: Ordering)
    ensures o == Compare(a, b)
    decreases Weight(a) + Weight(b), Rank(a, b)
  {
    match (a, b)
    case (Number(x), Number(y)) =>
      o := CompareBytes(x, y);
    case (Number(x), List(_)) =>
      WeightOfWrapped(x);
      o := Cmp(List([Number(x)]), b);
    case (List(_), Number(y)) =>
      WeightOfWrapped(y);
      o := Cmp(a, List([Number(y)]));
    case (List(xs), List(ys)) =>
      var i := 0;
      while i < |xs| || i < |ys|
        invariant i <= |xs| && i <= |ys|
        invariant forall k :: 0 <= k < i ==> Compare(xs[k], ys[k]) == Equal
        decreases |xs| + |ys| - i - i
      {
        if i < |xs| && i < |ys| {
          WeightOfElement(xs, i);
          WeightOfElement(ys, i);
          var c := Cmp(xs[i], ys[i]);
          if c != Equal {
            CompareLists(xs, ys, i);
            return c;
          }
        } else if i < |xs| {
          CompareLists(xs, ys, i);
          return Greater;
        } else {
          CompareLists(xs, ys, i);
          return Less;
        }
        i := i + 1;
      }
      CompareLists(xs, ys, i);
      o := Equal;
  }

  // ---------------------------------------------------------------------------
  // Parser: recursive descent over the text of one line

  /** What a parser returns: the value and the input it left, or a failure. */
  datatype Parsed<T> = Parsed(value: T, rest: string) | Fail

  /** `rest` is what remains of `s` after a (possibly empty) prefix was consumed. */
  predicate IsSuffix(rest: string, s: string) {
    |rest| <= |s| && rest == s[|s| - |rest|..]
  }

  lemma SuffixTransitive(a: string, b: string, c: string)
    requires IsSuffix(a, b) && IsSuffix(b, c)
    ensures IsSuffix(a, c)
  {
    assert c[|c| - |b|..][|b| - |a|..] == c[|c| - |a|..];
  }

  /** `parse_number`: a run of digits whose value fits in `u8`. */
  function ParseNumber(s: string): (r: Parsed<Byte>)
    ensures r.Parsed? ==> |r.rest| < |s| && IsSuffix(r.rest, s)
  {
    var n := DigitSpan(s);
    if n == 0 then Fail
    else
      var v := DecimalValue(s[..n]);
      if v < 256 then Parsed(v, s[n..]) else Fail
  }

  /** `parse_value`: a list is tried first, then a number. */
  function ParseValue(s: string): (r: Parsed<Value>)
    ensures r.Parsed? ==> |r.rest| < |s| && IsSuffix(r.rest, s)
    decreases |s|, 1
  {
    match ParseList(s)
    case Parsed(xs, rest) => Parsed(List(xs), rest)
    case Fail =>
      match ParseNumber(s)
      case Parsed(n, rest) => Parsed(Number(n), rest)
      case Fail => Fail
  }

  /** `parse_list`: '[', the items separated by ',', then ']'. */
  function ParseList(s: string): (r: Parsed<seq<Value>>)
    ensures r.Parsed? ==> |r.rest| < |s| && IsSuffix(r.rest, s)
    decreases |s|, 0
  {
    if |s| == 0 || s[0] != '[' then Fail
    else
      var items := ParseItems(s[1..]);
      if |items.rest| > 0 && items.rest[0] == ']' then
        SuffixTransitive(items.rest, s[1..], s);
        SuffixTransitive(items.rest[1..], items.rest, s);
        Parsed(items.value, items.rest[1..])
      else Fail
  }

  /** `separated_list0(tag(","), parse_value)`: never fails; a first item that
      does not parse gives the empty list with nothing consumed. */
  function ParseItems(s: string): (r: Parsed<seq<Value>>)
    ensures r.Parsed? && IsSuffix(r.rest, s)
    decreases |s|, 2
  {
    match ParseValue(s)
    case Fail => Parsed([], s)
    case Parsed(v, rest) =>
      var r := ParseMoreItems([v], rest);
      SuffixTransitive(r.rest, rest, s);
      r
  }

  /** The loop of `separated_list0`: a ',' followed by an item extends the
      list; otherwise the list ends before the ','. */
  function ParseMoreItems(acc: seq<Value>, s: string): (r: Parsed<seq<Value>>)
    ensures r.Parsed? && IsSuffix(r.rest, s)
    decreases |s|, 3
  {
    if |s| == 0 || s[0] != ',' then Parsed(acc, s)
    else
      match ParseValue(s[1..])
      case Fail => Parsed(acc, s)
      case Parsed(v, rest) =>
        var r := ParseMoreItems(acc + [v], rest);
        SuffixTransitive(rest, s[1..], s);
        SuffixTransitive(r.rest, rest, s);
        r
  }

  /** `Value::from_str`: the value at the start of the line; whatever follows
      it is ignored. A packet starts with '[' or a digit. */
  function Parse(s: string): (r: Option<Value>)
    ensures r.Some? ==> |s| > 0 && (s[0] == '[' || IsDigit(s[0]))
  {
    NotAValue(s);
    match ParseValue(s)
    case Parsed(v, _) => Some(v)
    case Fail => None
  }

  // ---------------------------------------------------------------------------
  // Renderer

  /** `Display for Value`: numbers in decimal, lists as '[' items joined by
      ',' ']'. A packet prints as one nonempty line. */
  function Render(v: Value): (s: string)
    ensures |s| > 0 && PlainLine(s)
    decreases v, 1
  {
    match v
    case Number(n) =>
      DigitsPlain(NatToString(n));
      NatToString(n)
    case List(xs) =>
      var s := "[" + RenderItems(xs) + "]";
      assert s[|s| - 1] == ']';
      s
  }

  function RenderItems(xs: seq<Value>): (s: string)
    ensures '\n' !in s
    decreases xs, 0
  {
    if |xs| == 0 then "" else Render(xs[0]) + RenderMore(xs[1..])
  }

  /** Each further item, preceded by its ','. */
  function RenderMore(xs: seq<Value>): (s: string)
    ensures |xs| > 0 ==> |s| > 0 && s[0] == ','
    ensures '\n' !in s
    decreases xs, 0
  {
    if |xs| == 0 then "" else "," + Render(xs[0]) + RenderMore(xs[1..])
  }

  /** Text that cannot continue a number. */
  predicate Boundary(t: string) {
    |t| == 0 || !IsDigit(t[0])
  }

  /** Text that starts with a digit is not a list. */
  lemma ListNeedsBracket(s: string)
    requires |s| == 0 || s[0] != '['
    ensures ParseList(s) == Fail
  {
  }

  /** Text that starts with neither '[' nor a digit is not a value. */
  lemma NotAValue(s: string)
    ensures ParseValue(s).Parsed? ==> |s| > 0 && (s[0] == '[' || IsDigit(s[0]))
  {
    if |s| == 0 || (s[0] != '[' && !IsDigit(s[0])) {
      ListNeedsBracket(s);
      assert DigitSpan(s) == 0;
    }
  }

  /** One turn of the `separated_list0` loop. */
  lemma MoreItemsStep(acc: seq<Value>, s: string, v: Value, rest: string)
    requires |s| > 0 && s[0] == ','
    requires ParseValue(s[1..]) == Parsed(v, rest)
    ensures ParseMoreItems(acc, s) == ParseMoreItems(acc + [v], rest)
  {
  }

  /** The first item of `separated_list0` starts the loop. */
  lemma ItemsStep(s: string, v: Value, rest: string)
    requires ParseValue(s) == Parsed(v, rest)
    ensures ParseItems(s) == ParseMoreItems([v], rest)
  {
  }

  /** A bracketed item list is a list value. */
  lemma ListStep(s: string, xs: seq<Value>, rest: string)
    requires |s| > 0 && s[0] == '['
    requires ParseItems(s[1..]) == Parsed(xs, rest)
    requires |rest| > 0 && rest[0] == ']'
    ensures ParseValue(s) == Parsed(List(xs), rest[1..])
  {
    assert ParseList(s) == Parsed(xs, rest[1..]);
  }

  lemma RenderListText(xs: seq<Value>, t: string)
    ensures |Render(List(xs)) + t| > 0 && (Render(List(xs)) + t)[0] == '['
    ensures (Render(List(xs)) + t)[1..] == RenderItems(xs) + ("]" + t)
  {
    assert Render(List(xs)) + t == "[" + (RenderItems(xs) + ("]" + t));
  }

  lemma RenderItemsText(xs: seq<Value>, u: string)
    requires |xs| > 0
    ensures RenderItems(xs) + u == Render(xs[0]) + (RenderMore(xs[1..]) + u)
  {
  }

  lemma RenderMoreText(ys: seq<Value>, u: string)
    requires |ys| > 0
    ensures |RenderMore(ys) + u| > 0 && (RenderMore(ys) + u)[0] == ','
    ensures (RenderMore(ys) + u)[1..] == Render(ys[0]) + (RenderMore(ys[1..]) + u)
  {
    assert RenderMore(ys) + u == "," + (Render(ys[0]) + (RenderMore(ys[1..]) + u));
  }

  /** After the items of a list comes ',' or the closing ']'. */
  lemma RenderMoreBoundary(ys: seq<Value>, u: string)
    requires |u| > 0 && u[0] == ']'
    ensures Boundary(RenderMore(ys) + u)
  {
    if |ys| == 0 {
      assert RenderMore(ys) + u == u;
    }
  }

  lemma {:induction false} ParseRenderValue(v: Value, t: string)
    requires Boundary(t)
    ensures ParseValue(Render(v) + t) == Parsed(v, t)
    decreases v, 3
  {
    var s := Render(v) + t;
    match v
    case Number(n) =>
      var d := NatToString(n);
      assert s == d + t;
      assert s[0] == d[0];
      ListNeedsBracket(s);
      DigitSpanOfDigitsThen(d, t);
      DecimalValueOfNatToString(n);
      assert s[..|d|] == d;
      assert s[|d|..] == t;
      assert ParseNumber(s) == Parsed(n, t);
    case List(xs) =>
      var u := "]" + t;
      RenderListText(xs, t);
      ParseRenderItems(xs, u);
      assert u[1..] == t;
      ListStep(s, xs, u);
  }

  lemma {:induction false} ParseRenderItems(xs: seq<Value>, u: string)
    requires |u| > 0 && u[0] == ']'
    ensures ParseItems(RenderItems(xs) + u) == Parsed(xs, u)
    decreases xs, 2
  {
    if |xs| == 0 {
      assert RenderItems(xs) + u == u;
      assert xs == [];
      NotAValue(u);
    } else {
      ParseRenderFirst(xs, u);
      ParseRenderMore([xs[0]], xs[1..], u);
      HeadThenTail(xs);
    }
  }

  lemma HeadThenTail(xs: seq<Value>)
    requires |xs| > 0
    ensures [xs[0]] + xs[1..] == xs
  {
  }

  /** The first item of a non-empty rendered list starts the item loop. */
  lemma {:induction false} ParseRenderFirst(xs: seq<Value>, u: string)
    requires |xs| > 0 && |u| > 0 && u[0] == ']'
    ensures ParseItems(RenderItems(xs) + u) == ParseMoreItems([xs[0]], RenderMore(xs[1..]) + u)
    decreases xs, 1
  {
    var tail := RenderMore(xs[1..]) + u;
    RenderItemsText(xs, u);
    RenderMoreBoundary(xs[1..], u);
    ParseRenderValue(xs[0], tail);
    ItemsStep(RenderItems(xs) + u, xs[0], tail);
  }

  lemma {:induction false} ParseRenderMore(acc: seq<Value>, ys: seq<Value>, u: string)
    requires |u| > 0 && u[0] == ']'
    ensures ParseMoreItems(acc, RenderMore(ys) + u) == Parsed(acc + ys, u)
    decreases ys, 1
  {
    if |ys| == 0 {
      assert RenderMore(ys) + u == u;
      assert acc + ys == acc;
    } else {
      var tail := RenderMore(ys[1..]) + u;
      RenderMoreText(ys, u);
      RenderMoreBoundary(ys[1..], u);
      ParseRenderValue(ys[0], tail);
      MoreItemsStep(acc, RenderMore(ys) + u, ys[0], tail);
      ParseRenderMore(acc + [ys[0]], ys[1..], u);
      AppendHead(acc, ys);
    }
  }

  lemma AppendHead(acc: seq<Value>, ys: seq<Value>)
    requires |ys| > 0
    ensures acc + [ys[0]] + ys[1..] == acc + ys
  {
    assert [ys[0]] + ys[1..] == ys;
  }

  /** Rendering then parsing gives the value back, and any text after the
      rendered value that cannot continue a number is ignored. */
  lemma RoundTrip(v: Value, t: string)
    requires Boundary(t)
    ensures Parse(Render(v)) == Some(v)
    ensures Parse(Render(v) + t) == Some(v)
  {
    ParseRenderValue(v, t);
    ParseRenderValue(v, "");
    assert Render(v) + "" == Render(v);
  }

  /** Canonical text (the rendering of some value) survives parse-then-render. */
  lemma CanonicalText(s: string, v: Value)
    requires s == Render(v)
    ensures Parse(s).Some? && Render(Parse(s).value) == s
  {
    RoundTrip(v, "");
  }

  /** A digit run whose value does not fit in `u8` is not a packet. */
  lemma NumberTooLarge(d: string, t: string)
    requires |d| > 0 && AllDigits(d) && DecimalValue(d) > 255
    requires Boundary(t)
    ensures Parse(d + t) == None
  {
    var s := d + t;
    assert s[0] == d[0];
    ListNeedsBracket(s);
    DigitSpanOfDigitsThen(d, t);
    assert s[..|d|] == d;
    assert ParseNumber(s) == Fail;
  }

  /** The example of the unit tests: `[[1],4]` parses to a list holding a
      one-element list and a number, and renders back to the same text. */
  lemma ParseExample()
    ensures Parse("[[1],4]") == Some(List([List([Number(1)]), Number(4)]))
    ensures Render(List([List([Number(1)]), Number(4)])) == "[[1],4]"
  {
    var v := List([List([Number(1)]), Number(4)]);
    assert Render(v) == "[[1],4]";
    RoundTrip(v, "");
  }

  /** `[]` is the empty list. */
  lemma ParseEmptyList()
    ensures Parse("[]") == Some(List([]))
  {
    assert Render(List([])) == "[]";
    RoundTrip(List([]), "");
  }

  /** Leading zeros are accepted but not kept, so parse-then-render does not
      give non-canonical text back. */
  lemma LeadingZerosDropped()
    ensures Parse("07") == Some(Number(7))
    ensures Render(Number(7)) != "07"
  {
    assert DigitSpan("07") == 2;
    assert "07"[..2] == "07";
    assert DecimalValue("07") == 7 by {
      assert "07"[..1] == "0";
      assert ""[..0] == "";
    }
    assert ParseList("07") == Fail;
    assert ParseNumber("07") == Parsed(7, "");
  }
}

=== FILE: day13_signal.dfy ===
/** The two puzzle answers built on packets: the sum of the indices of the
    pairs already in order, and the decoder key found by sorting all packets
    together with two divider packets. */
module DistressSignal {
  import opened Text
  import opened Packets

  // ---------------------------------------------------------------------------
  // Blank-line groups (`slice::split(|line| line.is_empty())`)

  /** Index of the first empty line, or `|ls|` when there is none. */
  function FirstBlank(ls: seq<string>): (i: nat)
    ensures i <= |ls|
    ensures i < |ls| ==> ls[i] == ""
    ensures forall k :: 0 <= k < i ==> ls[k] != ""
  {
    if |ls| == 0 then 0
    else if ls[0] == "" then 0
    else 1 + FirstBlank(ls[1..])
  }

  /** The runs of lines between empty lines; there is always at least one run. */
  function Groups(ls: seq<string>): (gs: seq<seq<string>>)
    ensures |gs| >= 1
    decreases |ls|
  {
    var i := FirstBlank(ls);
    if i == |ls| then [ls] else [ls[..i]] + Groups(ls[i + 1..])
  }

  /** No group holds an empty line. */
  lemma {:induction false} GroupsHaveNoBlank(ls: seq<string>)
    ensures var gs := Groups(ls);
      forall k, m :: 0 <= k < |gs| && 0 <= m < |gs[k]| ==> gs[k][m] != ""
    decreases |ls|
  {
    var i := FirstBlank(ls);
    if i < |ls| {
      var rest := Groups(ls[i + 1..]);
      GroupsHaveNoBlank(ls[i + 1..]);
      GroupsStep(ls, i);
      assert forall k :: 1 <= k < |[ls[..i]] + rest| ==> ([ls[..i]] + rest)[k] == rest[k - 1];
    }
  }

  /** The groups put back together with one empty line between neighbours. */
  function JoinGroups(gs: seq<seq<string>>): seq<string>
    requires |gs| >= 1
  {
    if |gs| == 1 then gs[0] else gs[0] + [""] + JoinGroups(gs[1..])
  }

  /** Splitting loses nothing: joining the groups gives the lines back. */
  lemma {:induction false} JoinGroupsOfGroups(ls: seq<string>)
    ensures JoinGroups(Groups(ls)) == ls
    decreases |ls|
  {
    var i := FirstBlank(ls);
    if i < |ls| {
      var rest := Groups(ls[i + 1..]);
      GroupsStep(ls, i);
      JoinGroupsCons(ls[..i], rest);
      JoinGroupsOfGroups(ls[i + 1..]);
      assert ls == ls[..i] + [""] + ls[i + 1..];
    }
  }

  lemma {:induction false} GroupsStep(ls: seq<string>, i: nat)
    requires i == FirstBlank(ls) && i < |ls|
    ensures Groups(ls) == [ls[..i]] + Groups(ls[i + 1..])
  {
  }

  lemma JoinGroupsCons(g: seq<string>, rest: seq<seq<string>>)
    requires |rest| >= 1
    ensures JoinGroups([g] + rest) == g + [""] + JoinGroups(rest)
  {
    assert ([g] + rest)[1..] == rest;
  }

  // ---------------------------------------------------------------------------
  // Part one

  /** `is_ordered`: the pair is in the right order unless the left packet
      compares greater; a pair out of order is in order, strictly, once
      swapped. */
  predicate IsOrdered(left: Value, right: Value): (b: bool)
    ensures !b ==> Compare(right, left) == Less
  {
    CompareFlip(left, right);
    match Compare(left, right)
    case Less => true
    case Equal => true
    case Greater => false
  }

  /** Of any two packets, at least one order is right, and both are right
      exactly when they compare `Equal`. */
  lemma IsOrderedTotal(a: Value, b: Value)
    ensures IsOrdered(a, b) || IsOrdered(b, a)
    ensures IsOrdered(a, b) && IsOrdered(b, a) <==> Compare(a, b) == Equal
  {
    CompareFlip(a, b);
  }

  /** The text of a pair: its first two lines are packets (the source unwraps
      both parses; any further lines are ignored). */
  predicate PairGroup(g: seq<string>) {
    |g| >= 2 && Parse(g[0]).Some? && Parse(g[1]).Some?
  }

  predicate AllPairGroups(gs: seq<seq<string>>) {
    forall i :: 0 <= i < |gs| ==> PairGroup(gs[i])
  }

  predicate WellFormedPairs(input: string) {
    AllPairGroups(Groups(Lines(input)))
  }

  /** One pair of packets per group. */
  function PairsOf(gs: seq<seq<string>>): (ps: seq<(Value, Value)>)
    requires AllPairGroups(gs)
    ensures |ps| == |gs|
    ensures forall i :: 0 <= i < |ps| ==>
      Parse(gs[i][0]) == Some(ps[i].0) && Parse(gs[i][1]) == Some(ps[i].1)
  {
    if |gs| == 0 then []
    else
      var rest := PairsOf(gs[1..]);
      [(Parse(gs[0][0]).value, Parse(gs[0][1]).value)] + rest
  }

  /** The pairs of packets, one per blank-line group. */
  function Pairs(input: string): (ps: seq<(Value, Value)>)
    requires WellFormedPairs(input)
    ensures |ps| == |Groups(Lines(input))|
  {
    PairsOf(Groups(Lines(input)))
  }

  // ---------------------------------------------------------------------------
  // Printed pairs

  /** Each pair as the two lines of its packets. */
  function PairGroups(ps: seq<(Value, Value)>): (gs: seq<seq<string>>)
    ensures |gs| == |ps|
  {
    seq(|ps|, i requires 0 <= i < |ps| => [Render(ps[i].0), Render(ps[i].1)])
  }

  /** The puzzle's text for a list of pairs: the packets of a pair on
      consecutive lines, an empty line between neighbouring pairs, and every
      line ended by a line break. */
  function PairsText(ps: seq<(Value, Value)>): string
    requires |ps| >= 1
  {
    Terminated(JoinGroups(PairGroups(ps)))
  }

  /** Joining groups that hold no empty line and splitting again gives the
      same groups. */
  lemma {:induction false} GroupsOfJoined(gs: seq<seq<string>>)
    requires |gs| >= 1
    requires forall k, m :: 0 <= k < |gs| && 0 <= m < |gs[k]| ==> gs[k][m] != ""
    ensures Groups(JoinGroups(gs)) == gs
    decreases |gs|
  {
    var g := gs[0];
    assert forall m :: 0 <= m < |g| ==> g[m] != "";
    if |gs| == 1 {
      assert FirstBlank(g) == |g|;
    } else {
      var rest := gs[1..];
      assert forall k, m :: 0 <= k < |rest| && 0 <= m < |rest[k]| ==> rest[k][m] == gs[k + 1][m];
      GroupsOfJoined(rest);
      JoinGroupsCons(g, rest);
      assert gs == [g] + rest;
      GroupsCons(g, JoinGroups(rest));
    }
  }

  /** A group with no empty line, then an empty line, splits off first. */
  lemma GroupsCons(g: seq<string>, tail: seq<string>)
    requires forall m :: 0 <= m < |g| ==> g[m] != ""
    ensures Groups(g + [""] + tail) == [g] + Groups(tail)
  {
    var ls := g + [""] + tail;
    assert ls[|g|] == "";
    assert forall k :: 0 <= k < |g| ==> ls[k] == g[k];
    assert FirstBlank(ls) == |g|;
    GroupsStep(ls, |g|);
    assert ls[..|g|] == g && ls[|g| + 1..] == tail;
  }

  /** Joining groups of plain lines gives plain lines. */
  lemma {:induction false} JoinGroupsPlain(gs: seq<seq<string>>)
    requires |gs| >= 1
    requires forall k, m :: 0 <= k < |gs| && 0 <= m < |gs[k]| ==> PlainLine(gs[k][m])
    ensures PlainLines(JoinGroups(gs))
    decreases |gs|
  {
    var g := gs[0];
    assert forall m :: 0 <= m < |g| ==> PlainLine(g[m]);
    if |gs| > 1 {
      var rest := gs[1..];
      var tail := JoinGroups(rest);
      assert forall k, m :: 0 <= k < |rest| && 0 <= m < |rest[k]| ==> rest[k][m] == gs[k + 1][m];
      JoinGroupsPlain(rest);
      var ls := g + [""] + tail;
      assert JoinGroups(gs) == ls;
      forall k | 0 <= k < |ls|
        ensures PlainLine(ls[k])
      {
        if k < |g| {
          assert ls[k] == g[k];
        } else if k > |g| {
          assert ls[k] == tail[k - |g| - 1];
        }
      }
    }
  }

  /** The printed pairs read back line by line as the joined groups. */
  lemma LinesOfPairsText(ps: seq<(Value, Value)>)
    requires |ps| >= 1
    ensures Lines(PairsText(ps)) == JoinGroups(PairGroups(ps))
    ensures Groups(Lines(PairsText(ps))) == PairGroups(ps)
  {
    var gs := PairGroups(ps);
    assert forall k, m :: 0 <= k < |gs| && 0 <= m < |gs[k]| ==> PlainLine(gs[k][m]) && gs[k][m] != "";
    JoinGroupsPlain(gs);
    LinesOfTerminated(JoinGroups(gs));
    GroupsOfJoined(gs);
  }

  /** Printing pairs and reading them back gives the same pairs. */
  lemma PairsOfText(ps: seq<(Value, Value)>)
    requires |ps| >= 1
    ensures WellFormedPairs(PairsText(ps)) && Pairs(PairsText(ps)) == ps
  {
    var gs := PairGroups(ps);
    LinesOfPairsText(ps);
    forall k | 0 <= k < |gs|
      ensures PairGroup(gs[k])
    {
      RoundTrip(ps[k].0, "");
      RoundTrip(ps[k].1, "");
    }
    var qs := PairsOf(gs);
    forall k | 0 <= k < |ps|
      ensures qs[k] == ps[k]
    {
      RoundTrip(ps[k].0, "");
      RoundTrip(ps[k].1, "");
    }
  }

  /** Sum of the 1-based indices of the pairs in the right order. It is at
      most 1 + 2 + ... + n, and reaches it exactly when every pair is in the
      right order. */
  function OrderedIndexSum(ps: seq<(Value, Value)>): (r: nat)
    ensures r <= Triangle(|ps|)
    ensures r == Triangle(|ps|) <==> forall i :: 0 <= i < |ps| ==> IsOrdered(ps[i].0, ps[i].1)
  {
    if |ps| == 0 then 0
    else
      var init, last := ps[..|ps| - 1], ps[|ps| - 1];
      assert Triangle(|ps|) == Triangle(|init|) + |ps|;
      assert forall i :: 0 <= i < |init| ==> init[i] == ps[i];
      OrderedIndexSum(init) + if IsOrdered(last.0, last.1) then |ps| else 0
  }

  function Triangle(n: nat): nat {
    n * (n + 1) / 2
  }

  /** The sum over a prefix grows by the index of each ordered pair. */
  lemma OrderedIndexSumStep(ps: seq<(Value, Value)>, n: nat)
    requires 0 < n <= |ps|
    ensures OrderedIndexSum(ps[..n]) ==
      OrderedIndexSum(ps[..n - 1]) + if IsOrdered(ps[n - 1].0, ps[n - 1].1) then n else 0
  {
    assert ps[..n][..n - 1] == ps[..n - 1];
  }

  /** `part1`. */
  function Part1(input: string): (r: nat)
    requires WellFormedPairs(input)
    ensures r <= Triangle(|Groups(Lines(input))|)
  {
    OrderedIndexSum(Pairs(input))
  }

  /** The sample's packets, four lines (two pairs) at a time. */
  function SampleQuad1(): seq<Value> {
    [ List([Number(1), Number(1), Number(3), Number(1), Number(1)]),
      List([Number(1), Number(1), Number(5), Number(1), Number(1)]),
      List([List([Number(1)]), List([Number(2), Number(3), Number(4)])]),
      List([List([Number(1)]), Number(4)]) ]
  }

  function SampleQuad2(): seq<Value> {
    [ List([Number(9)]),
      List([List([Number(8), Number(7), Number(6)])]),
      List([List([Number(4), Number(4)]), Number(4), Number(4)]),
      List([List([Number(4), Number(4)]), Number(4), Number(4), Number(4)]) ]
  }

  function SampleQuad3(): seq<Value> {
    [ List([Number(7), Number(7), Number(7), Number(7)]),
      List([Number(7), Number(7), Number(7)]),
      List([]),
      List([Number(3)]) ]
  }

  function SampleQuad4(): seq<Value> {
    [ List([List([List([])])]),
      List([List([])]),
      List([Number(1), List([Number(2), List([Number(3), List([Number(4), List([Number(5), Number(6), Number(7)])])])]), Number(8), Number(9)]),
      List([Number(1), List([Number(2), List([Number(3), List([Number(4), List([Number(5), Number(6), Number(0)])])])]), Number(8), Number(9)]) ]
  }

  /** The pairs of the puzzle's sample, as the sample lines parse. */
  function SamplePairs(): seq<(Value, Value)> {
    var q1, q2, q3, q4 := SampleQuad1(), SampleQuad2(), SampleQuad3(), SampleQuad4();
    [(q1[0], q1[1]), (q1[2], q1[3]), (q2[0], q2[1]), (q2[2], q2[3]),
     (q3[0], q3[1]), (q3[2], q3[3]), (q4[0], q4[1]), (q4[2], q4[3])]
  }

  /** How the first four sample pairs compare. */
  lemma SampleOrdersFront()
    ensures var ps := SamplePairs();
      Compare(ps[0].0, ps[0].1) == Less && Compare(ps[1].0, ps[1].1) == Less &&
      Compare(ps[2].0, ps[2].1) == Greater && Compare(ps[3].0, ps[3].1) == Less
  {
  }

  /** How the last four sample pairs compare. */
  lemma SampleOrdersBack()
    ensures var ps := SamplePairs();
      Compare(ps[4].0, ps[4].1) == Greater && Compare(ps[5].0, ps[5].1) == Less &&
      Compare(ps[6].0, ps[6].1) == Greater && Compare(ps[7].0, ps[7].1) == Greater
  {
  }

  /** The index sum over eight pairs of which 1, 2, 4 and 6 are in order. */
  lemma IndexSumOfEight(ps: seq<(Value, Value)>)
    requires |ps| == 8
    requires IsOrdered(ps[0].0, ps[0].1) && IsOrdered(ps[1].0, ps[1].1) &&
      !IsOrdered(ps[2].0, ps[2].1) && IsOrdered(ps[3].0, ps[3].1) &&
      !IsOrdered(ps[4].0, ps[4].1) && IsOrdered(ps[5].0, ps[5].1) &&
      !IsOrdered(ps[6].0, ps[6].1) && !IsOrdered(ps[7].0, ps[7].1)
    ensures OrderedIndexSum(ps) == 13
  {
    assert OrderedIndexSum(ps[..0]) == 0;
    OrderedIndexSumStep(ps, 1);
    OrderedIndexSumStep(ps, 2);
    OrderedIndexSumStep(ps, 3);
    OrderedIndexSumStep(ps, 4);
    OrderedIndexSumStep(ps, 5);
    OrderedIndexSumStep(ps, 6);
    OrderedIndexSumStep(ps, 7);
    OrderedIndexSumStep(ps, 8);
    assert ps[..8] == ps;
  }

  /** Of the sample's pairs, 1, 2, 4 and 6 are in order. */
  lemma SampleOrderedSum()
    ensures OrderedIndexSum(SamplePairs()) == 13
  {
    SampleOrdersFront();
    SampleOrdersBack();
    IndexSumOfEight(SamplePairs());
  }

  /** Part one on the sample's text is 13. */
  lemma SamplePart1(input: string)
    requires input == PairsText(SamplePairs())
    ensures WellFormedPairs(input) && Part1(input) == 13
  {
    PairsOfText(SamplePairs());
    SampleOrderedSum();
  }

  // ---------------------------------------------------------------------------
  // Part two

  /** The divider packets `[[2]]` and `[[6]]`. */
  const Divider1: Value := List([List([Number(2)])])
  const Divider2: Value := List([List([Number(6)])])

  lemma DividerText()
    ensures Parse("[[2]]") == Some(Divider1)
    ensures Parse("[[6]]") == Some(Divider2)
  {
    assert Render(Divider1) == "[[2]]";
    assert Render(Divider2) == "[[6]]";
    RoundTrip(Divider1, "");
    RoundTrip(Divider2, "");
  }

  /** `[[2]]` sorts before `[[6]]`, and neither ties with the other. */
  lemma DividersOrdered()
    ensures Compare(Divider1, Divider2) == Less && Compare(Divider2, Divider1) == Greater
    ensures Compare(Divider1, Divider1) == Equal && Compare(Divider2, Divider2) == Equal
  {
  }

  /** `filter_map(|s| s.parse().ok())`: the packets of the lines that parse,
      in order; blank lines and other text are skipped. */
  function PacketsOf(ls: seq<string>): (ps: seq<Value>)
    ensures |ps| <= |ls|
    ensures forall v :: v in ps ==> exists l :: l in ls && Parse(l) == Some(v)
  {
    if |ls| == 0 then []
    else
      var rest := PacketsOf(ls[1..]);
      assert forall l :: l in ls[1..] ==> l in ls;
      match Parse(ls[0])
      case Some(v) =>
        assert ls[0] in ls;
        [v] + rest
      case None => rest
  }

  /** Every packet of the list parses from one of the lines, and a list of
      rendered packets gives its packets back. */
  lemma {:induction false} PacketsOfRendered(vs: seq<Value>)
    ensures PacketsOf(seq(|vs|, i requires 0 <= i < |vs| => Render(vs[i]))) == vs
    decreases |vs|
  {
    var ls := seq(|vs|, i requires 0 <= i < |vs| => Render(vs[i]));
    if |vs| > 0 {
      RoundTrip(vs[0], "");
      PacketsOfRendered(vs[1..]);
      assert ls[1..] == seq(|vs[1..]|, i requires 0 <= i < |vs[1..]| => Render(vs[1..][i]));
      assert vs == [vs[0]] + vs[1..];
    }
  }

  /** Both packets of every pair, pair by pair. */
  function Flatten(ps: seq<(Value, Value)>): (vs: seq<Value>)
    ensures |vs| == 2 * |ps|
  {
    if |ps| == 0 then [] else [ps[0].0, ps[0].1] + Flatten(ps[1..])
  }

  /** The packets of consecutive lines are the packets of each part. */
  lemma {:induction false} PacketsOfAppend(a: seq<string>, b: seq<string>)
    ensures PacketsOf(a + b) == PacketsOf(a) + PacketsOf(b)
    decreases |a|
  {
    if |a| == 0 {
      assert a + b == b;
    } else {
      assert (a + b)[0] == a[0];
      assert (a + b)[1..] == a[1..] + b;
      PacketsOfAppend(a[1..], b);
    }
  }

  /** An empty line is not a packet. */
  lemma EmptyNotPacket()
    ensures PacketsOf([""]) == []
  {
    assert Parse("") == None;
  }

  lemma PacketsOfPair(x: Value, y: Value)
    ensures PacketsOf([Render(x), Render(y)]) == [x, y]
  {
    RoundTrip(x, "");
    RoundTrip(y, "");
    assert [Render(x), Render(y)][1..] == [Render(y)];
  }

  /** Reading every line of printed pairs as a packet gives both packets of
      each pair, in order; the empty lines between pairs are skipped. */
  lemma {:induction false} PacketsOfPairsText(ps: seq<(Value, Value)>)
    requires |ps| >= 1
    ensures PacketsOf(Lines(PairsText(ps))) == Flatten(ps)
  {
    LinesOfPairsText(ps);
    PacketsOfJoined(ps);
  }

  lemma {:induction false} PacketsOfJoined(ps: seq<(Value, Value)>)
    requires |ps| >= 1
    ensures PacketsOf(JoinGroups(PairGroups(ps))) == Flatten(ps)
    decreases |ps|
  {
    var gs := PairGroups(ps);
    PacketsOfPair(ps[0].0, ps[0].1);
    assert gs[0] == [Render(ps[0].0), Render(ps[0].1)];
    if |ps| == 1 {
      assert Flatten(ps[1..]) == [];
    } else {
      assert gs[1..] == PairGroups(ps[1..]);
      var tail := JoinGroups(gs[1..]);
      PacketsOfJoined(ps[1..]);
      PacketsOfAppend(gs[0] + [""], tail);
      PacketsOfAppend(gs[0], [""]);
      EmptyNotPacket();
    }
  }

  /** Non-decreasing under `Compare`, every pair of positions included. */
  predicate Sorted(s: seq<Value>) {
    forall i, j :: 0 <= i < j < |s| ==> Compare(s[i], s[j]) != Greater
  }

  /** `sort_unstable` on the packet vector, here an insertion sort: each
      packet in turn is swapped down past the greater ones before it. */
  method SortPackets(a: array<Value>)
    modifies a
    ensures Sorted(a[..])
    ensures multiset(a[..]) == multiset(old(a[..]))
  {
    var i := 0;
    while i < a.Length
      invariant 0 <= i <= a.Length
      invariant SortedBelow(a[..], i)
      invariant multiset(a[..]) == multiset(old(a[..]))
    {
      InsertDown(a, i);
      i := i + 1;
    }
  }

  /** The first `n` packets of `s` are in order. */
  predicate SortedBelow(s: seq<Value>, n: nat)
    requires n <= |s|
  {
    forall k, m :: 0 <= k < m < n ==> Compare(s[k], s[m]) != Greater
  }

  /** While `s[j]` moves down through `s[..i + 1]`: the other packets there
      are in order, and `s[j]` is less than every packet above it. */
  predicate Inserting(s: seq<Value>, j: nat, i: nat)
    requires j <= i < |s|
  {
    (forall k, m :: 0 <= k < m <= i && k != j && m != j ==> Compare(s[k], s[m]) != Greater) &&
    (forall m :: j < m <= i ==> Compare(s[j], s[m]) == Less)
  }

  lemma StartInserting(s: seq<Value>, i: nat)
    requires i < |s| && SortedBelow(s, i)
    ensures Inserting(s, i, i)
  {
  }

  /** Swapping `s[j]` below a greater neighbour keeps the insertion going. */
  lemma SwapDown(s: seq<Value>, j: nat, i: nat)
    requires 0 < j <= i < |s| && Inserting(s, j, i)
    requires Compare(s[j - 1], s[j]) == Greater
    ensures Inserting(s[j - 1 := s[j]][j := s[j - 1]], j - 1, i)
  {
    var t := s[j - 1 := s[j]][j := s[j - 1]];
    CompareFlip(s[j - 1], s[j]);
    forall m | j - 1 < m <= i
      ensures Compare(t[j - 1], t[m]) == Less
    {
    }
  }

  /** The insertion ends once `s[j]` is at the bottom or not below its
      neighbour. */
  lemma StopInserting(s: seq<Value>, j: nat, i: nat)
    requires j <= i < |s| && Inserting(s, j, i)
    requires j == 0 || Compare(s[j - 1], s[j]) != Greater
    ensures SortedBelow(s, i + 1)
  {
    forall k, m | 0 <= k < m <= i
      ensures Compare(s[k], s[m]) != Greater
    {
      if m == j && k < j - 1 {
        CompareTransitive(s[k], s[j - 1], s[j]);
      }
    }
  }

  /** Moves `a[i]` down into the sorted run `a[..i]`, leaving `a[..i + 1]`
      sorted. */
  method InsertDown(a: array<Value>, i: nat)
    requires i < a.Length && SortedBelow(a[..], i)
    modifies a
    ensures SortedBelow(a[..], i + 1)
    ensures multiset(a[..]) == multiset(old(a[..]))
  {
    var j := i;
    var done := false;
    StartInserting(a[..], i);
    while j > 0 && !done
      invariant 0 <= j <= i
      invariant Inserting(a[..], j, i)
      invariant done && j > 0 ==> Compare(a[j - 1], a[j]) != Greater
      invariant multiset(a[..]) == multiset(old(a[..]))
      decreases j, if done then 0 else 1
    {
      var c := Cmp(a[j - 1], a[j]);
      if c == Greater {
        SwapDown(a[..], j, i);
        a[j - 1], a[j] := a[j], a[j - 1];
        j := j - 1;
      } else {
        done := true;
      }
    }
    StopInserting(a[..], j, i);
  }

  predicate IsDivider(v: Value) {
    v == Divider1 || v == Divider2
  }

  /** The 1-based positions, among the first `n`, that hold a packet
      structurally equal to a divider. */
  function DividerPositions(s: seq<Value>, n: nat): (ps: seq<nat>)
    requires n <= |s|
    ensures forall k :: 0 <= k < |ps| ==> 1 <= ps[k] <= n
  {
    if n == 0 then []
    else DividerPositions(s, n - 1) + if IsDivider(s[n - 1]) then [n] else []
  }

  /** `reduce(|acc, i| acc * i)`, folding from the left. */
  function ProductFrom(acc: nat, ps: seq<nat>): nat
    decreases |ps|
  {
    if |ps| == 0 then acc else ProductFrom(acc * ps[0], ps[1..])
  }

  /** The product of the positions, or 0 (`unwrap_or(0)`) when there are
      none: the key is 0 exactly when no packet is a divider. */
  function DecoderKey(s: seq<Value>): (key: nat)
    ensures key == 0 <==> forall i :: 0 <= i < |s| ==> !IsDivider(s[i])
  {
    var ps := DividerPositions(s, |s|);
    DividerPositionsEmpty(s, |s|);
    if |ps| == 0 then 0
    else
      ProductFromPositive(ps[0], ps[1..]);
      ProductFrom(ps[0], ps[1..])
  }

  lemma {:induction false} ProductFromPositive(acc: nat, ps: seq<nat>)
    requires acc > 0
    requires forall k :: 0 <= k < |ps| ==> ps[k] > 0
    ensures ProductFrom(acc, ps) > 0
    decreases |ps|
  {
    if |ps| > 0 {
      ProductFromPositive(acc * ps[0], ps[1..]);
    }
  }

  lemma {:induction false} DividerPositionsEmpty(s: seq<Value>, n: nat)
    requires n <= |s|
    ensures |DividerPositions(s, n)| == 0 <==> forall i :: 0 <= i < n ==> !IsDivider(s[i])
    decreases n
  {
    if n > 0 {
      DividerPositionsEmpty(s, n - 1);
    }
  }

  /** When exactly the positions `p1 < p2` hold dividers, those two are found. */
  lemma {:induction false} DividerPositionsOfTwo(s: seq<Value>, n: nat, p1: nat, p2: nat)
    requires n <= |s| && p1 < p2 < |s|
    requires forall i :: 0 <= i < |s| ==> (IsDivider(s[i]) <==> i == p1 || i == p2)
    ensures n <= p1 ==> DividerPositions(s, n) == []
    ensures p1 < n <= p2 ==> DividerPositions(s, n) == [p1 + 1]
    ensures p2 < n ==> DividerPositions(s, n) == [p1 + 1, p2 + 1]
    decreases n
  {
    if n > 0 {
      DividerPositionsOfTwo(s, n - 1, p1, p2);
    }
  }

  /** Number of elements of `s` that satisfy `p`. */
  function CountIf(s: seq<Value>, p: Value -> bool): (c: nat)
    ensures c <= |s|
  {
    if |s| == 0 then 0
    else Indicator(p(s[0])) + CountIf(s[1..], p)
  }

  function Indicator(b: bool): nat {
    if b then 1 else 0
  }

  function LessThan(d: Value): Value -> bool {
    x => Compare(x, d) == Less
  }

  /** Number of packets that compare `Less` than `d`. */
  function CountLess(s: seq<Value>, d: Value): nat {
    CountIf(s, LessThan(d))
  }

  lemma {:induction false} CountIfAppend(s: seq<Value>, t: seq<Value>, p: Value -> bool)
    ensures CountIf(s + t, p) == CountIf(s, p) + CountIf(t, p)
    decreases |s|
  {
    if |s| > 0 {
      assert (s + t)[1..] == s[1..] + t;
      CountIfAppend(s[1..], t, p);
    } else {
      assert s + t == t;
    }
  }

  /** The count depends only on which elements there are, not on their order. */
  lemma {:induction false} CountIfPermutation(s: seq<Value>, t: seq<Value>, p: Value -> bool)
    requires multiset(s) == multiset(t)
    ensures CountIf(s, p) == CountIf(t, p)
    decreases |s|
  {
    if |s| == 0 {
      assert |t| == |multiset(t)| == 0;
    } else {
      var x := s[0];
      assert x in multiset(t);
      var i :| 0 <= i < |t| && t[i] == x;
      var t' := t[..i] + t[i + 1..];
      RemoveAt(t, i, p);
      assert s == [x] + s[1..];
      assert multiset(s) == multiset{x} + multiset(s[1..]);
      assert multiset(s[1..]) == multiset(s) - multiset{x};
      assert multiset(t') == multiset(t) - multiset{x};
      CountIfPermutation(s[1..], t', p);
    }
  }

  /** Taking out the packet at `i` takes it out of the multiset and out of
      the count. */
  lemma RemoveAt(t: seq<Value>, i: nat, p: Value -> bool)
    requires i < |t|
    ensures multiset(t) == multiset{t[i]} + multiset(t[..i] + t[i + 1..])
    ensures CountIf(t, p) == Indicator(p(t[i])) + CountIf(t[..i] + t[i + 1..], p)
  {
    MultisetRemoveAt(t, i);
    CountRemoveAt(t, i, p);
  }

  lemma MultisetRemoveAt(t: seq<Value>, i: nat)
    requires i < |t|
    ensures multiset(t) == multiset{t[i]} + multiset(t[..i] + t[i + 1..])
  {
    assert t == t[..i] + [t[i]] + t[i + 1..];
    assert multiset(t[..i] + t[i + 1..]) == multiset(t[..i]) + multiset(t[i + 1..]);
  }

  lemma CountRemoveAt(t: seq<Value>, i: nat, p: Value -> bool)
    requires i < |t|
    ensures CountIf(t, p) == Indicator(p(t[i])) + CountIf(t[..i] + t[i + 1..], p)
  {
    CountIfSplit(t, i, p);
    assert t[i..][1..] == t[i + 1..];
    CountIfAppend(t[..i], t[i + 1..], p);
  }

  lemma CountIfSplit(t: seq<Value>, i: nat, p: Value -> bool)
    requires i <= |t|
    ensures CountIf(t, p) == CountIf(t[..i], p) + CountIf(t[i..], p)
  {
    assert t == t[..i] + t[i..];
    CountIfAppend(t[..i], t[i..], p);
  }

  lemma {:induction false} CountIfAll(s: seq<Value>, p: Value -> bool)
    requires forall k :: 0 <= k < |s| ==> p(s[k])
    ensures CountIf(s, p) == |s|
    decreases |s|
  {
    if |s| > 0 {
      CountIfAll(s[1..], p);
    }
  }

  lemma {:induction false} CountIfNone(s: seq<Value>, p: Value -> bool)
    requires forall k :: 0 <= k < |s| ==> !p(s[k])
    ensures CountIf(s, p) == 0
    decreases |s|
  {
    if |s| > 0 {
      CountIfNone(s[1..], p);
    }
  }

  /** In a sorted list, a packet that no other packet ties with sits after
      exactly the packets less than it. */
  lemma SortedPosition(s: seq<Value>, p: nat)
    requires Sorted(s) && p < |s|
    requires forall i :: 0 <= i < |s| && i != p ==> Compare(s[i], s[p]) != Equal
    ensures CountLess(s, s[p]) == p
  {
    var d := s[p];
    SortedBefore(s, p);
    SortedAfter(s, p);
    assert s == s[..p] + ([d] + s[p + 1..]);
    CountIfAppend(s[..p], [d] + s[p + 1..], LessThan(d));
    CountIfAppend([d], s[p + 1..], LessThan(d));
  }

  lemma SortedBefore(s: seq<Value>, p: nat)
    requires Sorted(s) && p < |s|
    requires forall i :: 0 <= i < |s| && i != p ==> Compare(s[i], s[p]) != Equal
    ensures CountLess(s[..p], s[p]) == p
  {
    var before := s[..p];
    forall k | 0 <= k < |before|
      ensures Compare(before[k], s[p]) == Less
    {
      assert before[k] == s[k];
    }
    CountIfAll(before, LessThan(s[p]));
  }

  lemma SortedAfter(s: seq<Value>, p: nat)
    requires Sorted(s) && p < |s|
    requires forall i :: 0 <= i < |s| && i != p ==> Compare(s[i], s[p]) != Equal
    ensures CountLess(s[p + 1..], s[p]) == 0
  {
    var after := s[p + 1..];
    forall k | 0 <= k < |after|
      ensures Compare(after[k], s[p]) != Less
    {
      assert after[k] == s[p + 1 + k];
      CompareFlip(s[p], s[p + 1 + k]);
    }
    CountIfNone(after, LessThan(s[p]));
  }

  /** Two positions holding the same packet count twice in the multiset. */
  lemma TwiceInMultiset(s: seq<Value>, p: nat, q: nat)
    requires p < q < |s| && s[p] == s[q]
    ensures multiset(s)[s[p]] >= 2
  {
    assert s == s[..q] + s[q..];
    assert s[..q][p] == s[p];
    assert s[q..][0] == s[p];
    assert multiset(s) == multiset(s[..q]) + multiset(s[q..]);
  }

  /** In a sorted arrangement of the packets plus both dividers where no
      packet of the input ties with a divider, the only ties with divider `d`
      are `d` itself, and it occurs once. */
  lemma DividerOnce(packets: seq<Value>, s: seq<Value>, d: Value)
    requires multiset(s) == multiset(packets + [Divider1, Divider2])
    requires d == Divider1 || d == Divider2
    requires forall v :: v in packets ==> Compare(v, Divider1) != Equal && Compare(v, Divider2) != Equal
    ensures exists p :: 0 <= p < |s| && s[p] == d
    ensures forall p, q :: 0 <= p < |s| && 0 <= q < |s| && s[p] == d && Compare(s[q], d) == Equal ==> p == q
  {
    DividersOrdered();
    assert d !in packets;
    var whole := packets + [Divider1, Divider2];
    assert multiset(whole)[d] == 1 by {
      assert multiset(whole) == multiset(packets) + multiset{Divider1, Divider2};
    }
    assert d in multiset(s);
    forall q | 0 <= q < |s| && Compare(s[q], d) == Equal
      ensures s[q] == d
    {
      assert s[q] in multiset(whole);
    }
    forall p, q | 0 <= p < |s| && 0 <= q < |s| && s[p] == d && Compare(s[q], d) == Equal
      ensures p == q
    {
      if p < q {
        TwiceInMultiset(s, p, q);
      } else if q < p {
        TwiceInMultiset(s, q, p);
      }
    }
  }

  /** Where divider `d` lands: after the input packets less than it, and
      after `[[2]]` as well when `d` is `[[6]]`. */
  lemma DividerAt(packets: seq<Value>, s: seq<Value>, d: Value) returns (p: nat)
    requires Sorted(s) && multiset(s) == multiset(packets + [Divider1, Divider2])
    requires d == Divider1 || d == Divider2
    requires forall v :: v in packets ==> Compare(v, Divider1) != Equal && Compare(v, Divider2) != Equal
    ensures p < |s| && s[p] == d
    ensures forall q :: 0 <= q < |s| && s[q] == d ==> q == p
    ensures d == Divider1 ==> p == CountLess(packets, d)
    ensures d == Divider2 ==> p == CountLess(packets, d) + 1
  {
    DividerOnce(packets, s, d);
    p :| 0 <= p < |s| && s[p] == d;
    assert forall i :: 0 <= i < |s| && i != p ==> Compare(s[i], s[p]) != Equal;
    SortedPosition(s, p);
    assert CountLess(s, d) == p;
    var whole := packets + [Divider1, Divider2];
    CountIfPermutation(s, whole, LessThan(d));
    CountIfAppend(packets, [Divider1, Divider2], LessThan(d));
    CountLessDividers(d);
  }

  lemma CountLessDividers(d: Value)
    requires d == Divider1 || d == Divider2
    ensures d == Divider1 ==> CountLess([Divider1, Divider2], d) == 0
    ensures d == Divider2 ==> CountLess([Divider1, Divider2], d) == 1
  {
    DividersOrdered();
    CountsOfTwo([Divider1, Divider2], LessThan(d));
  }

  lemma CountsOfTwo(s: seq<Value>, p: Value -> bool)
    requires |s| == 2
    ensures CountIf(s, p) == Indicator(p(s[0])) + Indicator(p(s[1]))
  {
    assert CountIf(s[1..][1..], p) == 0;
  }

  /** The decoder key does not depend on how the sort orders packets that
      tie: when no input packet ties with a divider, the dividers land after
      exactly the packets less than them, so the key is
      (packets below `[[2]]` + 1) * (packets below `[[6]]` + 2). */
  lemma DecoderKeyOfSorted(packets: seq<Value>, s: seq<Value>)
    requires Sorted(s) && multiset(s) == multiset(packets + [Divider1, Divider2])
    requires forall v :: v in packets ==> Compare(v, Divider1) != Equal && Compare(v, Divider2) != Equal
    ensures DecoderKey(s) == (CountLess(packets, Divider1) + 1) * (CountLess(packets, Divider2) + 2)
  {
    var p1 := DividerAt(packets, s, Divider1);
    var p2 := DividerAt(packets, s, Divider2);
    OnlyTwoDividers(s, p1, p2);
    KeyOfTwo(s, p1, p2);
  }

  /** In a sorted list where `[[2]]` sits only at `p1` and `[[6]]` only at
      `p2`, those are the two divider positions, in that order. */
  lemma OnlyTwoDividers(s: seq<Value>, p1: nat, p2: nat)
    requires Sorted(s)
    requires p1 < |s| && s[p1] == Divider1 && forall q :: 0 <= q < |s| && s[q] == Divider1 ==> q == p1
    requires p2 < |s| && s[p2] == Divider2 && forall q :: 0 <= q < |s| && s[q] == Divider2 ==> q == p2
    ensures p1 < p2
    ensures forall i :: 0 <= i < |s| ==> (IsDivider(s[i]) <==> i == p1 || i == p2)
  {
    DividersOrdered();
    assert Compare(s[p2], s[p1]) == Greater;
  }

  /** When exactly the positions `p1 < p2` hold dividers, the key is the
      product of their 1-based positions. */
  lemma KeyOfTwo(s: seq<Value>, p1: nat, p2: nat)
    requires p1 < p2 < |s|
    requires forall i :: 0 <= i < |s| ==> (IsDivider(s[i]) <==> i == p1 || i == p2)
    ensures DecoderKey(s) == (p1 + 1) * (p2 + 1)
  {
    DividerPositionsOfTwo(s, |s|, p1, p2);
    var ps := DividerPositions(s, |s|);
    assert ps[1..] == [p2 + 1];
    assert ProductFrom(p1 + 1, [p2 + 1]) == (p1 + 1) * (p2 + 1) by {
      assert [p2 + 1][1..] == [];
    }
  }

  /** `part2`: parse every line that is a packet, add the dividers, sort, and
      multiply the positions of the dividers. */
  method Part2(input: string) returns (key: nat, ghost sorted: seq<Value>)
    ensures Sorted(sorted)
    ensures multiset(sorted) == multiset(PacketsOf(Lines(input)) + [Divider1, Divider2])
    ensures key == DecoderKey(sorted)
  {
    var packets := PacketsOf(Lines(input)) + [Divider1, Divider2];
    var a := new Value[|packets|](i requires 0 <= i < |packets| => packets[i]);
    assert a[..] == packets;
    SortPackets(a);
    sorted := a[..];
    key := DecoderKey(a[..]);
  }

  /** The packets of the puzzle's sample, in input order. */
  function SamplePackets(): seq<Value> {
    SampleQuad1() + SampleQuad2() + SampleQuad3() + SampleQuad4()
  }

  function TiesWith(d: Value): Value -> bool {
    x => Compare(x, d) == Equal
  }

  lemma {:induction false} CountIfZero(s: seq<Value>, p: Value -> bool)
    requires CountIf(s, p) == 0
    ensures forall v :: v in s ==> !p(v)
    decreases |s|
  {
    if |s| > 0 {
      CountIfZero(s[1..], p);
      assert forall v :: v in s ==> v == s[0] || v in s[1..];
    }
  }

  /** A count over four packets, one packet at a time. */
  lemma {:induction false} CountIfFour(s: seq<Value>, p: Value -> bool)
    requires |s| == 4
    ensures CountIf(s, p) == Indicator(p(s[0])) + Indicator(p(s[1])) + Indicator(p(s[2])) + Indicator(p(s[3]))
  {
    var s1 := s[1..];
    var s2 := s1[1..];
    var s3 := s2[1..];
    assert CountIf(s3[1..], p) == 0;
    assert CountIf(s3, p) == Indicator(p(s[3]));
    assert CountIf(s2, p) == Indicator(p(s[2])) + CountIf(s3, p);
    assert CountIf(s1, p) == Indicator(p(s[1])) + CountIf(s2, p);
  }

  /** How four packets count against a divider `d`, one packet at a time. */
  lemma CountsOfFour(q: seq<Value>, d: Value)
    requires |q| == 4
    ensures CountLess(q, d) == Indicator(Compare(q[0], d) == Less) + Indicator(Compare(q[1], d) == Less) +
      Indicator(Compare(q[2], d) == Less) + Indicator(Compare(q[3], d) == Less)
    ensures CountIf(q, TiesWith(d)) == Indicator(Compare(q[0], d) == Equal) + Indicator(Compare(q[1], d) == Equal) +
      Indicator(Compare(q[2], d) == Equal) + Indicator(Compare(q[3], d) == Equal)
  {
    CountIfFour(q, LessThan(d));
    CountIfFour(q, TiesWith(d));
  }

  /** How many packets of each group of four sort below each divider; none
      ties with a divider. */
  lemma SampleQuad1Compares()
    ensures Compare(SampleQuad1()[0], Divider1) == Less && Compare(SampleQuad1()[0], Divider2) == Less
    ensures Compare(SampleQuad1()[1], Divider1) == Less && Compare(SampleQuad1()[1], Divider2) == Less
    ensures Compare(SampleQuad1()[2], Divider1) == Less && Compare(SampleQuad1()[2], Divider2) == Less
    ensures Compare(SampleQuad1()[3], Divider1) == Less && Compare(SampleQuad1()[3], Divider2) == Less
  {
  }

  /** Four packets all below both dividers: none ties with either. */
  lemma AllBelowDividers(q: seq<Value>)
    requires |q| == 4
    requires Compare(q[0], Divider1) == Less && Compare(q[0], Divider2) == Less
    requires Compare(q[1], Divider1) == Less && Compare(q[1], Divider2) == Less
    requires Compare(q[2], Divider1) == Less && Compare(q[2], Divider2) == Less
    requires Compare(q[3], Divider1) == Less && Compare(q[3], Divider2) == Less
    ensures CountLess(q, Divider1) == 4 && CountLess(q, Divider2) == 4
    ensures CountIf(q, TiesWith(Divider1)) == 0 && CountIf(q, TiesWith(Divider2)) == 0
  {
    CountsOfFour(q, Divider1);
    CountsOfFour(q, Divider2);
  }

  lemma SampleQuad1Counts()
    ensures CountLess(SampleQuad1(), Divider1) == 4 && CountLess(SampleQuad1(), Divider2) == 4
    ensures CountIf(SampleQuad1(), TiesWith(Divider1)) == 0 && CountIf(SampleQuad1(), TiesWith(Divider2)) == 0
  {
    SampleQuad1Compares();
    AllBelowDividers(SampleQuad1());
  }

  lemma SampleQuad2Compares()
    ensures Compare(SampleQuad2()[0], Divider1) == Greater && Compare(SampleQuad2()[0], Divider2) == Greater
    ensures Compare(SampleQuad2()[1], Divider1) == Greater && Compare(SampleQuad2()[1], Divider2) == Greater
    ensures Compare(SampleQuad2()[2], Divider1) == Greater && Compare(SampleQuad2()[2], Divider2) == Less
    ensures Compare(SampleQuad2()[3], Divider1) == Greater && Compare(SampleQuad2()[3], Divider2) == Less
  {
  }

  lemma SampleQuad2VsDividers(q: seq<Value>)
    requires |q| == 4
    requires Compare(q[0], Divider1) == Greater && Compare(q[0], Divider2) == Greater
    requires Compare(q[1], Divider1) == Greater && Compare(q[1], Divider2) == Greater
    requires Compare(q[2], Divider1) == Greater && Compare(q[2], Divider2) == Less
    requires Compare(q[3], Divider1) == Greater && Compare(q[3], Divider2) == Less
    ensures CountLess(q, Divider1) == 0 && CountLess(q, Divider2) == 2
    ensures CountIf(q, TiesWith(Divider1)) == 0 && CountIf(q, TiesWith(Divider2)) == 0
  {
    CountsOfFour(q, Divider1);
    CountsOfFour(q, Divider2);
  }

  lemma SampleQuad2Counts()
    ensures CountLess(SampleQuad2(), Divider1) == 0 && CountLess(SampleQuad2(), Divider2) == 2
    ensures CountIf(SampleQuad2(), TiesWith(Divider1)) == 0 && CountIf(SampleQuad2(), TiesWith(Divider2)) == 0
  {
    SampleQuad2Compares();
    SampleQuad2VsDividers(SampleQuad2());
  }

  lemma SampleQuad3Compares()
    ensures Compare(SampleQuad3()[0], Divider1) == Greater && Compare(SampleQuad3()[0], Divider2) == Greater
    ensures Compare(SampleQuad3()[1], Divider1) == Greater && Compare(SampleQuad3()[1], Divider2) == Greater
    ensures Compare(SampleQuad3()[2], Divider1) == Less && Compare(SampleQuad3()[2], Divider2) == Less
    ensures Compare(SampleQuad3()[3], Divider1) == Greater && Compare(SampleQuad3()[3], Divider2) == Less
  {
  }

  lemma SampleQuad3VsDividers(q: seq<Value>)
    requires |q| == 4
    requires Compare(q[0], Divider1) == Greater && Compare(q[0], Divider2) == Greater
    requires Compare(q[1], Divider1) == Greater && Compare(q[1], Divider2) == Greater
    requires Compare(q[2], Divider1) == Less && Compare(q[2], Divider2) == Less
    requires Compare(q[3], Divider1) == Greater && Compare(q[3], Divider2) == Less
    ensures CountLess(q, Divider1) == 1 && CountLess(q, Divider2) == 2
    ensures CountIf(q, TiesWith(Divider1)) == 0 && CountIf(q, TiesWith(Divider2)) == 0
  {
    CountsOfFour(q, Divider1);
    CountsOfFour(q, Divider2);
  }

  lemma SampleQuad3Counts()
    ensures CountLess(SampleQuad3(), Divider1) == 1 && CountLess(SampleQuad3(), Divider2) == 2
    ensures CountIf(SampleQuad3(), TiesWith(Divider1)) == 0 && CountIf(SampleQuad3(), TiesWith(Divider2)) == 0
  {
    SampleQuad3Compares();
    SampleQuad3VsDividers(SampleQuad3());
  }

  lemma SampleQuad4Compares()
    ensures Compare(SampleQuad4()[0], Divider1) == Less && Compare(SampleQuad4()[0], Divider2) == Less
    ensures Compare(SampleQuad4()[1], Divider1) == Less && Compare(SampleQuad4()[1], Divider2) == Less
    ensures Compare(SampleQuad4()[2], Divider1) == Less && Compare(SampleQuad4()[2], Divider2) == Less
    ensures Compare(SampleQuad4()[3], Divider1) == Less && Compare(SampleQuad4()[3], Divider2) == Less
  {
  }

  lemma SampleQuad4Counts()
    ensures CountLess(SampleQuad4(), Divider1) == 4 && CountLess(SampleQuad4(), Divider2) == 4
    ensures CountIf(SampleQuad4(), TiesWith(Divider1)) == 0 && CountIf(SampleQuad4(), TiesWith(Divider2)) == 0
  {
    SampleQuad4Compares();
    AllBelowDividers(SampleQuad4());
  }

  /** A count over four groups is the sum of the counts over each. */
  lemma CountIfQuads(q1: seq<Value>, q2: seq<Value>, q3: seq<Value>, q4: seq<Value>, p: Value -> bool)
    ensures CountIf(q1 + q2 + q3 + q4, p) == CountIf(q1, p) + CountIf(q2, p) + CountIf(q3, p) + CountIf(q4, p)
  {
    CountIfAppend(q1 + q2 + q3, q4, p);
    CountIfAppend(q1 + q2, q3, p);
    CountIfAppend(q1, q2, p);
  }

  /** 9 sample packets sort below `[[2]]`. */
  lemma SampleBelowDivider1()
    ensures CountLess(SamplePackets(), Divider1) == 9
  {
    SampleQuad1Counts();
    SampleQuad2Counts();
    SampleQuad3Counts();
    SampleQuad4Counts();
    CountIfQuads(SampleQuad1(), SampleQuad2(), SampleQuad3(), SampleQuad4(), LessThan(Divider1));
  }

  /** 12 sample packets sort below `[[6]]`. */
  lemma SampleBelowDivider2()
    ensures CountLess(SamplePackets(), Divider2) == 12
  {
    SampleQuad1Counts();
    SampleQuad2Counts();
    SampleQuad3Counts();
    SampleQuad4Counts();
    CountIfQuads(SampleQuad1(), SampleQuad2(), SampleQuad3(), SampleQuad4(), LessThan(Divider2));
  }

  /** No sample packet ties with `[[2]]`. */
  lemma SampleNoTies1()
    ensures CountIf(SamplePackets(), TiesWith(Divider1)) == 0
  {
    SampleQuad1Counts();
    SampleQuad2Counts();
    SampleQuad3Counts();
    SampleQuad4Counts();
    CountIfQuads(SampleQuad1(), SampleQuad2(), SampleQuad3(), SampleQuad4(), TiesWith(Divider1));
  }

  /** No sample packet ties with `[[6]]`. */
  lemma SampleNoTies2()
    ensures CountIf(SamplePackets(), TiesWith(Divider2)) == 0
  {
    SampleQuad1Counts();
    SampleQuad2Counts();
    SampleQuad3Counts();
    SampleQuad4Counts();
    CountIfQuads(SampleQuad1(), SampleQuad2(), SampleQuad3(), SampleQuad4(), TiesWith(Divider2));
  }

  /** With 9 packets below `[[2]]`, 12 below `[[6]]` and no ties, any sorted
      arrangement gives the key 10 * 14 = 140. */
  lemma KeyOfCounts(packets: seq<Value>, s: seq<Value>)
    requires Sorted(s) && multiset(s) == multiset(packets + [Divider1, Divider2])
    requires CountLess(packets, Divider1) == 9 && CountLess(packets, Divider2) == 12
    requires CountIf(packets, TiesWith(Divider1)) == 0 && CountIf(packets, TiesWith(Divider2)) == 0
    ensures DecoderKey(s) == 140
  {
    CountIfZero(packets, TiesWith(Divider1));
    CountIfZero(packets, TiesWith(Divider2));
    DecoderKeyOfSorted(packets, s);
  }

  /** Of the sample's packets, 9 sort below `[[2]]` and 12 below `[[6]]`,
      so any sorted arrangement of them and the dividers has the key 140. */
  lemma SampleKey(s: seq<Value>)
    requires Sorted(s) && multiset(s) == multiset(SamplePackets() + [Divider1, Divider2])
    ensures DecoderKey(s) == 140
  {
    SampleBelowDivider1();
    SampleBelowDivider2();
    SampleNoTies1();
    SampleNoTies2();
    KeyOfCounts(SamplePackets(), s);
  }

  /** The sample's text holds its packets in input order. */
  lemma SamplePacketsOfText(input: string)
    requires input == PairsText(SamplePairs())
    ensures PacketsOf(Lines(input)) == SamplePackets()
  {
    PacketsOfPairsText(SamplePairs());
    SampleFlatten();
  }

  /** The sample's pairs, flattened, are its packets. */
  lemma SampleFlatten()
    ensures Flatten(SamplePairs()) == SamplePackets()
  {
    var q1, q2, q3, q4 := SampleQuad1(), SampleQuad2(), SampleQuad3(), SampleQuad4();
    SamplePairsOfQuads();
    FlattenQuad(q4, []);
    FlattenQuad(q3, QuadPairs(q4) + []);
    FlattenQuad(q2, QuadPairs(q3) + (QuadPairs(q4) + []));
    FlattenQuad(q1, QuadPairs(q2) + (QuadPairs(q3) + (QuadPairs(q4) + [])));
    ConcatFour(q1, q2, q3, q4);
  }

  lemma ConcatFour(a: seq<Value>, b: seq<Value>, c: seq<Value>, d: seq<Value>)
    ensures a + (b + (c + (d + []))) == a + b + c + d
  {
    assert d + [] == d;
  }

  lemma SamplePairsOfQuads()
    ensures SamplePairs() == QuadPairs(SampleQuad1()) + (QuadPairs(SampleQuad2()) +
      (QuadPairs(SampleQuad3()) + (QuadPairs(SampleQuad4()) + [])))
  {
  }

  /** Four packets as two pairs. */
  function QuadPairs(q: seq<Value>): seq<(Value, Value)>
    requires |q| == 4
  {
    [(q[0], q[1]), (q[2], q[3])]
  }

  lemma FlattenQuad(q: seq<Value>, rest: seq<(Value, Value)>)
    requires |q| == 4
    ensures Flatten(QuadPairs(q) + rest) == q + Flatten(rest)
  {
    var ps := QuadPairs(q) + rest;
    assert ps[1..][1..] == rest;
    assert Flatten(ps[1..]) == [q[2], q[3]] + Flatten(rest);
  }

  /** Part two on the sample's text is 140, whichever way the sort orders
      packets that tie: `sorted` is any arrangement `Part2` may return. */
  lemma SamplePart2(input: string, sorted: seq<Value>)
    requires input == PairsText(SamplePairs())
    requires Sorted(sorted) && multiset(sorted) == multiset(PacketsOf(Lines(input)) + [Divider1, Divider2])
    ensures DecoderKey(sorted) == 140
  {
    SamplePacketsOfText(input);
    SampleKey(sorted);
  }
}

=== FILE: text.dfy ===
/** Text helpers shared by the puzzle solutions: line splitting as Rust's
    `str::lines` does it, splitting on a separator, and decimal digits. */
module Text {

  datatype Option<T> = None | Some(value: T)

  /** The text of a line without one trailing carriage return. */
  function StripCr(s: string): (r: string)
    ensures r == s || (s == r + ['\r'])
  {
    if |s| > 0 && s[|s| - 1] == '\r' then s[..|s| - 1] else s
  }

  /** Index of the first occurrence of `c` in `s`, or `|s|` when there is none. */
  function IndexOf(s: string, c: char): (i: nat)
    ensures i <= |s|
    ensures i < |s| ==> s[i] == c
    ensures forall k :: 0 <= k < i ==> s[k] != c
  {
    if |s| == 0 then 0
    else if s[0] == c then 0
    else 1 + IndexOf(s[1..], c)
  }

  /** The first `c` in `p + [c] + t` is the one after `p` when `p` has none. */
  lemma {:induction false} IndexOfFirst(p: string, c: char, t: string)
    requires c !in p
    ensures IndexOf(p + [c] + t, c) == |p|
    decreases |p|
  {
    if |p| > 0 {
      assert (p + [c] + t)[1..] == p[1..] + [c] + t;
      IndexOfFirst(p[1..], c, t);
    }
  }

  /** Rust's `str::lines`: split at '\n', drop a '\r' before it, and yield no
      final empty line when the text ends with a line break. A '\r' that ends
      the text without a '\n' behind it is dropped as well, as the standard
      library did when these solutions were written. */
  function Lines(s: string): (ls: seq<string>)
    ensures forall k :: 0 <= k < |ls| ==> '\n' !in ls[k]
    ensures |s| > 0 <==> |ls| > 0
    decreases |s|
  {
    if |s| == 0 then []
    else
      var i := IndexOf(s, '\n');
      if i == |s| then [StripCr(s)]
      else [StripCr(s[..i])] + Lines(s[i + 1..])
  }

  /** A line as a printer writes it: no line break inside, and no carriage
      return at its end that `Lines` would drop. */
  predicate PlainLine(l: string) {
    '\n' !in l && (|l| == 0 || l[|l| - 1] != '\r')
  }

  predicate PlainLines(ls: seq<string>) {
    forall k :: 0 <= k < |ls| ==> PlainLine(ls[k])
  }

  lemma PlainConcat(a: string, b: string)
    requires PlainLine(a) && PlainLine(b)
    ensures PlainLine(a + b)
  {
    if |b| == 0 {
      assert a + b == a;
    } else {
      assert (a + b)[|a + b| - 1] == b[|b| - 1];
    }
  }

  /** Each line followed by a line break. */
  function Terminated(ls: seq<string>): (s: string)
    ensures |ls| > 0 ==> |s| > 0 && s[|s| - 1] == '\n'
  {
    if |ls| == 0 then "" else ls[0] + "\n" + Terminated(ls[1..])
  }

  /** The lines with a line break between each two. */
  function JoinLines(ls: seq<string>): string {
    if |ls| == 0 then ""
    else if |ls| == 1 then ls[0]
    else ls[0] + "\n" + JoinLines(ls[1..])
  }

  /** Non-empty lines joined hold no empty line, so no two line breaks in a
      row, and end as their last line does. */
  lemma {:induction false} JoinLinesNoBlank(ls: seq<string>)
    requires |ls| > 0
    requires forall k :: 0 <= k < |ls| ==> |ls[k]| > 0 && '\n' !in ls[k]
    ensures NoPair(JoinLines(ls), '\n', '\n')
    ensures |JoinLines(ls)| > 0 && JoinLines(ls)[0] == ls[0][0]
    ensures JoinLines(ls)[|JoinLines(ls)| - 1] == ls[|ls| - 1][|ls[|ls| - 1]| - 1]
    decreases |ls|
  {
    if |ls| > 1 {
      var l, rest := ls[0], JoinLines(ls[1..]);
      JoinLinesNoBlank(ls[1..]);
      var s := l + "\n" + rest;
      assert JoinLines(ls) == s;
      forall k | 0 <= k < |s| - 1
        ensures !(s[k] == '\n' && s[k + 1] == '\n')
      {
        if k < |l| {
          assert s[k] == l[k];
        } else if k == |l| {
          assert s[k + 1] == ls[1][0];
        } else {
          assert s[k] == rest[k - |l| - 1] && s[k + 1] == rest[k - |l|];
        }
      }
    }
  }

  /** Terminated lines and one more line are those lines joined. */
  lemma {:induction false} TerminatedThenLine(ls: seq<string>, l: string)
    ensures Terminated(ls) + l == JoinLines(ls + [l])
    decreases |ls|
  {
    if |ls| > 0 {
      TerminatedThenLine(ls[1..], l);
      assert (ls + [l])[1..] == ls[1..] + [l];
    }
  }

  /** The line before the first line break of `l + "\n" + t`. */
  lemma FirstLine(l: string, t: string)
    requires PlainLine(l)
    ensures Lines(l + "\n" + t) == [l] + Lines(t)
  {
    IndexOfFirst(l, '\n', t);
    var s := l + "\n" + t;
    assert s[..|l|] == l && s[|l| + 1..] == t;
  }

  /** Printing lines one per line and reading them back gives the lines. */
  lemma {:induction false} LinesOfTerminated(ls: seq<string>)
    requires PlainLines(ls)
    ensures Lines(Terminated(ls)) == ls
    decreases |ls|
  {
    if |ls| > 0 {
      FirstLine(ls[0], Terminated(ls[1..]));
      LinesOfTerminated(ls[1..]);
      assert ls == [ls[0]] + ls[1..];
    }
  }

  /** Joined lines read back the same, with or without a final line break,
      when the last line is not empty. */
  lemma {:induction false} LinesOfJoined(ls: seq<string>, t: string)
    requires |ls| > 0 && PlainLines(ls) && |ls[|ls| - 1]| > 0
    requires t == "" || t == "\n"
    ensures Lines(JoinLines(ls) + t) == ls
    decreases |ls|
  {
    if |ls| == 1 {
      assert JoinLines(ls) == ls[0] && ls == [ls[0]];
      LastLine(ls[0], t);
    } else {
      var rest := ls[1..];
      var tail := JoinLines(rest) + t;
      assert PlainLine(ls[0]) && PlainLines(rest);
      assert rest[|rest| - 1] == ls[|ls| - 1];
      JoinLinesStep(ls, t);
      FirstLine(ls[0], tail);
      LinesOfJoined(rest, t);
      calc {
        Lines(JoinLines(ls) + t);
        Lines(ls[0] + "\n" + tail);
        [ls[0]] + Lines(tail);
        [ls[0]] + rest;
        ls;
      }
    }
  }

  lemma LastLine(l: string, t: string)
    requires PlainLine(l) && |l| > 0
    requires t == "" || t == "\n"
    ensures Lines(l + t) == [l]
  {
    if t == "" {
      assert l + t == l;
      assert IndexOf(l, '\n') == |l|;
    } else {
      FirstLine(l, "");
    }
  }

  lemma JoinLinesStep(ls: seq<string>, t: string)
    requires |ls| > 1
    ensures JoinLines(ls) + t == ls[0] + "\n" + (JoinLines(ls[1..]) + t)
  {
  }

  /** The final line break of a text, if it has one. */
  function FinalBreak(s: string): string {
    if |s| > 0 && s[|s| - 1] == '\n' then "\n" else ""
  }

  /** Conversely, the lines of a text without carriage returns, joined
      again, give back the text up to its final line break. */
  lemma {:induction false} JoinedOfLines(s: string)
    requires '\r' !in s
    ensures JoinLines(Lines(s)) + FinalBreak(s) == s
    decreases |s|
  {
    if |s| > 0 {
      var i := IndexOf(s, '\n');
      if i == |s| {
        LastNoCr(s);
      } else {
        var l, rest := s[..i], s[i + 1..];
        BreakAt(s, i);
        CutAt(s, i);
        if rest == "" {
          assert JoinLines(Lines(s)) == l;
        } else {
          JoinedOfLines(rest);
          JoinLinesCons(l, Lines(rest));
          assert FinalBreak(s) == FinalBreak(rest) by {
            assert s[|s| - 1] == rest[|rest| - 1];
          }
        }
      }
    }
  }

  /** A text without carriage returns keeps its last character. */
  lemma LastNoCr(s: string)
    requires '\r' !in s
    ensures StripCr(s) == s
  {
    if |s| > 0 {
      assert s[|s| - 1] in s;
    }
  }

  /** The lines of a text without carriage returns: the text before the
      first line break, then the lines after it. */
  lemma BreakAt(s: string, i: nat)
    requires '\r' !in s && i < |s| && i == IndexOf(s, '\n')
    ensures Lines(s) == [s[..i]] + Lines(s[i + 1..])
    ensures '\r' !in s[i + 1..]
  {
    NoCrPrefix(s, i);
    NoCrSuffix(s, i + 1);
  }

  lemma NoCrPrefix(s: string, i: nat)
    requires '\r' !in s && i <= |s|
    ensures StripCr(s[..i]) == s[..i]
  {
    if i > 0 {
      assert s[..i][i - 1] == s[i - 1];
      assert s[i - 1] in s;
    }
  }

  lemma NoCrSuffix(s: string, j: nat)
    requires '\r' !in s && j <= |s|
    ensures '\r' !in s[j..]
  {
    assert s == s[..j] + s[j..];
  }

  lemma CutAt(s: string, i: nat)
    requires i < |s| && s[i] == '\n'
    ensures s == s[..i] + "\n" + s[i + 1..]
  {
  }

  lemma JoinLinesCons(l: string, ls: seq<string>)
    requires |ls| > 0
    ensures JoinLines([l] + ls) == l + "\n" + JoinLines(ls)
  {
    assert ([l] + ls)[1..] == ls;
  }

  /** `s` holds no `sep0` directly followed by `sep1`. */
  predicate NoPair(s: string, sep0: char, sep1: char) {
    forall k :: 0 <= k < |s| - 1 ==> !(s[k] == sep0 && s[k + 1] == sep1)
  }

  /** Position of the first occurrence of the two-character text `sep` in `s`,
      or `|s|` when there is none. */
  function IndexOfPair(s: string, sep0: char, sep1: char): (i: nat)
    ensures i <= |s|
    ensures i < |s| ==> i + 1 < |s| && s[i] == sep0 && s[i + 1] == sep1
    ensures forall k :: 0 <= k < i && k + 1 < |s| ==> !(s[k] == sep0 && s[k + 1] == sep1)
  {
    if |s| < 2 then |s|
    else if s[0] == sep0 && s[1] == sep1 then 0
    else 1 + IndexOfPair(s[1..], sep0, sep1)
  }

  /** Rust's `str::split` on the two-character separator `sep0 sep1`: always at
      least one piece, and pieces never contain the separator. */
  function SplitOnPair(s: string, sep0: char, sep1: char): (parts: seq<string>)
    ensures |parts| >= 1
    ensures forall k :: 0 <= k < |parts| ==> NoPair(parts[k], sep0, sep1)
    decreases |s|
  {
    var i := IndexOfPair(s, sep0, sep1);
    if i == |s| then [s]
    else
      assert NoPair(s[..i], sep0, sep1) by {
        forall k | 0 <= k < i - 1
          ensures !(s[..i][k] == sep0 && s[..i][k + 1] == sep1)
        {
          assert s[..i][k] == s[k] && s[..i][k + 1] == s[k + 1];
        }
      }
      [s[..i]] + SplitOnPair(s[i + 2..], sep0, sep1)
  }

  /** The pieces with the separator between each two. */
  function JoinOnPair(parts: seq<string>, sep0: char, sep1: char): string
    requires |parts| >= 1
  {
    if |parts| == 1 then parts[0]
    else parts[0] + [sep0, sep1] + JoinOnPair(parts[1..], sep0, sep1)
  }

  /** Splitting loses nothing: joining the pieces gives back the text. */
  lemma {:induction false} JoinOfSplit(s: string, sep0: char, sep1: char)
    ensures JoinOnPair(SplitOnPair(s, sep0, sep1), sep0, sep1) == s
    decreases |s|
  {
    var i := IndexOfPair(s, sep0, sep1);
    if i < |s| {
      var rest := s[i + 2..];
      SplitStep(s, sep0, sep1);
      JoinOfSplit(rest, sep0, sep1);
      JoinOnPairCons(s[..i], SplitOnPair(rest, sep0, sep1), sep0, sep1);
    }
  }

  /** One step of the split: the text before the first separator, then the
      pieces of what follows it. */
  lemma SplitStep(s: string, sep0: char, sep1: char)
    requires IndexOfPair(s, sep0, sep1) < |s|
    ensures var i := IndexOfPair(s, sep0, sep1);
      SplitOnPair(s, sep0, sep1) == [s[..i]] + SplitOnPair(s[i + 2..], sep0, sep1) &&
      s == s[..i] + [sep0, sep1] + s[i + 2..]
  {
    var i := IndexOfPair(s, sep0, sep1);
    CutAtPair(s, i, sep0, sep1);
  }

  lemma CutAtPair(s: string, i: nat, sep0: char, sep1: char)
    requires i + 1 < |s| && s[i] == sep0 && s[i + 1] == sep1
    ensures s == s[..i] + [sep0, sep1] + s[i + 2..]
  {
    assert s[i..i + 2] == [sep0, sep1];
    assert s == s[..i] + s[i..i + 2] + s[i + 2..];
  }

  lemma JoinOnPairCons(p: string, ps: seq<string>, sep0: char, sep1: char)
    requires |ps| >= 1
    ensures JoinOnPair([p] + ps, sep0, sep1) == p + [sep0, sep1] + JoinOnPair(ps, sep0, sep1)
  {
    assert ([p] + ps)[1..] == ps;
  }

  /** The first separator of `p + sep + t` is the one after `p`, when `p`
      holds none and does not end with `sep0`. */
  lemma IndexOfPairFirst(p: string, sep0: char, sep1: char, t: string)
    requires NoPair(p, sep0, sep1) && (|p| == 0 || p[|p| - 1] != sep0)
    ensures IndexOfPair(p + [sep0, sep1] + t, sep0, sep1) == |p|
  {
    var s := p + [sep0, sep1] + t;
    assert s[|p|] == sep0 && s[|p| + 1] == sep1;
    assert forall k :: 0 <= k < |p| ==> s[k] == p[k];
  }

  /** Conversely, pieces without the separator, none but the last ending in
      `sep0`, split back from their join. */
  lemma {:induction false} SplitOfJoin(parts: seq<string>, sep0: char, sep1: char)
    requires |parts| >= 1
    requires forall k :: 0 <= k < |parts| ==> NoPair(parts[k], sep0, sep1)
    requires forall k :: 0 <= k < |parts| - 1 ==> |parts[k]| == 0 || parts[k][|parts[k]| - 1] != sep0
    ensures SplitOnPair(JoinOnPair(parts, sep0, sep1), sep0, sep1) == parts
    decreases |parts|
  {
    if |parts| > 1 {
      var p, tail := parts[0], parts[1..];
      var rest := JoinOnPair(tail, sep0, sep1);
      assert JoinOnPair(parts, sep0, sep1) == p + [sep0, sep1] + rest;
      IndexOfPairFirst(p, sep0, sep1, rest);
      SplitAfter(p, sep0, sep1, rest);
      TailPieces(parts, sep0, sep1);
      SplitOfJoin(tail, sep0, sep1);
      assert parts == [p] + tail;
    }
  }

  /** The conditions on the pieces carry over to all but the first. */
  lemma TailPieces(parts: seq<string>, sep0: char, sep1: char)
    requires |parts| > 1
    requires forall k :: 0 <= k < |parts| ==> NoPair(parts[k], sep0, sep1)
    requires forall k :: 0 <= k < |parts| - 1 ==> |parts[k]| == 0 || parts[k][|parts[k]| - 1] != sep0
    ensures forall k :: 0 <= k < |parts| - 1 ==> NoPair(parts[1..][k], sep0, sep1)
    ensures forall k :: 0 <= k < |parts| - 2 ==> |parts[1..][k]| == 0 || parts[1..][k][|parts[1..][k]| - 1] != sep0
  {
    assert forall k :: 0 <= k < |parts| - 1 ==> parts[1..][k] == parts[k + 1];
  }

  /** Once the first separator is known to follow `p`, the split is `p`
      and the split of the rest. */
  lemma SplitAfter(p: string, sep0: char, sep1: char, t: string)
    requires IndexOfPair(p + [sep0, sep1] + t, sep0, sep1) == |p|
    ensures SplitOnPair(p + [sep0, sep1] + t, sep0, sep1) == [p] + SplitOnPair(t, sep0, sep1)
  {
    var s := p + [sep0, sep1] + t;
    assert s[..|p|] == p && s[|p| + 2..] == t;
  }

  /** Rust's `str::split_once(' ')`: the text before and after the first
      space; `None` when there is no space. */
  function SplitOnce(line: string): (r: Option<(string, string)>)
    ensures r.None? <==> ' ' !in line
    ensures r.Some? ==> line == r.value.0 + " " + r.value.1 && ' ' !in r.value.0
  {
    var i := IndexOf(line, ' ');
    if i == |line| then None
    else
      assert line == line[..i] + " " + line[i + 1..];
      Some((line[..i], line[i + 1..]))
  }

  lemma SplitOnceOf(p: string, q: string)
    requires ' ' !in p
    ensures SplitOnce(p + " " + q) == Some((p, q))
  {
    IndexOfFirst(p, ' ', q);
    var line := p + " " + q;
    assert line[..|p|] == p && line[|p| + 1..] == q;
  }

  predicate IsDigit(c: char) {
    '0' <= c <= '9'
  }

  function DigitValue(c: char): (d: nat)
    requires IsDigit(c)
    ensures d < 10
  {
    (c as int) - ('0' as int)
  }

  function DigitChar(d: nat): (c: char)
    requires d < 10
    ensures IsDigit(c) && DigitValue(c) == d
  {
    (('0' as int) + d) as char
  }

  predicate AllDigits(s: string) {
    forall k :: 0 <= k < |s| ==> IsDigit(s[k])
  }

  lemma DigitsPlain(d: string)
    requires AllDigits(d)
    ensures PlainLine(d)
  {
  }

  /** Length of the run of decimal digits at the start of `s`. */
  function DigitSpan(s: string): (n: nat)
    ensures n <= |s|
    ensures AllDigits(s[..n])
    ensures n < |s| ==> !IsDigit(s[n])
  {
    if |s| == 0 || !IsDigit(s[0]) then 0
    else 1 + DigitSpan(s[1..])
  }

  /** The number a run of decimal digits denotes (leading zeros allowed). */
  function DecimalValue(s: string): nat
    requires AllDigits(s)
    decreases |s|
  {
    if |s| == 0 then 0
    else DecimalValue(s[..|s| - 1]) * 10 + DigitValue(s[|s| - 1])
  }

  /** Decimal text of `n`, without leading zeros (as Rust's `Display` prints it). */
  function NatToString(n: nat): (s: string)
    ensures |s| > 0 && AllDigits(s)
    ensures |s| > 1 ==> s[0] != '0'
  {
    if n < 10 then [DigitChar(n)]
    else NatToString(n / 10) + [DigitChar(n % 10)]
  }

  lemma {:induction false} DecimalValueOfNatToString(n: nat)
    ensures DecimalValue(NatToString(n)) == n
    decreases n
  {
    if n >= 10 {
      var p := NatToString(n / 10);
      var s := p + [DigitChar(n % 10)];
      assert s[..|s| - 1] == p;
      DecimalValueOfNatToString(n / 10);
    }
  }

  lemma {:induction false} DigitSpanOfDigitsThen(d: string, t: string)
    requires AllDigits(d)
    requires |t| == 0 || !IsDigit(t[0])
    ensures DigitSpan(d + t) == |d|
    decreases |d|
  {
    if |d| > 0 {
      assert (d + t)[1..] == d[1..] + t;
      DigitSpanOfDigitsThen(d[1..], t);
    }
  }

  /** Rust's `usize` on a 64-bit target. */
  const UsizeBound: nat := 0x1_0000_0000_0000_0000

  /** Rust's unsigned integer parsing (`u32::from_str`, `usize::from_str`): an
      optional '+', then one or more digits and nothing else, denoting a value
      below `bound` (the width's limit); anything else is a parse error. */
  function ParseUnsigned(s: string, bound: nat): (r: Option<nat>)
    ensures r.Some? <==> exists d :: (s == d || s == "+" + d) && |d| > 0 && AllDigits(d) && DecimalValue(d) < bound
    ensures r.Some? ==> r.value < bound
  {
    var d := if |s| > 0 && s[0] == '+' then s[1..] else s;
    assert s == d || s == "+" + d;
    if |d| > 0 && AllDigits(d) && DecimalValue(d) < bound then Some(DecimalValue(d)) else None
  }

  lemma ParseUnsignedOfNatToString(n: nat, bound: nat)
    requires n < bound
    ensures ParseUnsigned(NatToString(n), bound) == Some(n)
  {
    var d := NatToString(n);
    DecimalValueOfNatToString(n);
    assert IsDigit(d[0]);
  }

  /** One or more decimal digits and nothing else, read as a number. */
  function Digits(d: string): (r: Option<nat>)
    ensures r.Some? <==> |d| > 0 && AllDigits(d)
    ensures r.Some? ==> r.value == DecimalValue(d)
  {
    if |d| > 0 && AllDigits(d) then Some(DecimalValue(d)) else None
  }

  /** Rust's signed integer parsing (`i32::from_str`): an optional '+' or '-',
      then one or more digits and nothing else, denoting a value in
      `lo <= v < hi`; anything else is a parse error. */
  function ParseSigned(s: string, lo: int, hi: int): (r: Option<int>)
    ensures r.Some? <==>
      (exists d :: |d| > 0 && AllDigits(d) && (s == d || s == "+" + d) && lo <= DecimalValue(d) < hi) ||
      (exists d :: |d| > 0 && AllDigits(d) && s == "-" + d && lo <= -(DecimalValue(d) as int) < hi)
    ensures r.Some? ==> lo <= r.value < hi
  {
    if |s| > 0 && s[0] == '-' then
      assert s == "-" + s[1..];
      match Digits(s[1..])
      case Some(n) => if lo <= -(n as int) < hi then Some(-(n as int)) else None
      case None => None
    else
      var d := if |s| > 0 && s[0] == '+' then s[1..] else s;
      assert s == d || s == "+" + d;
      match Digits(d)
      case Some(n) => if lo <= n < hi then Some(n) else None
      case None => None
  }

  /** Decimal text of an integer, with a '-' in front of negative ones. */
  function IntToString(n: int): (s: string)
    ensures |s| > 0
  {
    if n < 0 then "-" + NatToString(-n) else NatToString(n)
  }

  lemma ParseSignedOfIntToString(n: int, lo: int, hi: int)
    requires lo <= n < hi
    ensures ParseSigned(IntToString(n), lo, hi) == Some(n)
  {
    if n < 0 {
      ParseSignedNegative(-n, lo, hi);
    } else {
      ParseSignedNonNegative(n, lo, hi);
    }
  }

  lemma ParseSignedNegative(m: nat, lo: int, hi: int)
    requires m > 0 && lo <= -(m as int) < hi
    ensures ParseSigned("-" + NatToString(m), lo, hi) == Some(-(m as int))
  {
    DigitsOfNatToString(m);
    var d := NatToString(m);
    var s := "-" + d;
    assert s[1..] == d;
    assert Digits(s[1..]) == Some(m);
  }

  lemma DigitsOfNatToString(n: nat)
    ensures Digits(NatToString(n)) == Some(n)
  {
    DecimalValueOfNatToString(n);
  }

  lemma ParseSignedNonNegative(n: nat, lo: int, hi: int)
    requires lo <= n < hi
    ensures ParseSigned(NatToString(n), lo, hi) == Some(n)
  {
    var d := NatToString(n);
    assert IsDigit(d[0]);
    DigitsOfNatToString(n);
  }
}
